=== FILE: README.md ===
# YUS live bus tracking — a Dafny model of its core

YUS is a React Native app for following college buses. Passengers search for
a bus by its source and destination or by its number, pick it from a list,
and watch it move along its stops on a schedule screen. Two things drive that
screen:

- a live feed of bus positions and checkpoint reports, arriving over a
  WebSocket;
- estimated arrival times (ETAs), projected from the static timetable.

This project models the parts of the app that hold logic rather than
layout. It covers:

- **Schedule time** (`schedule_time.dfy`, `clock_facts.dfy`). Conversions
  between 24-hour "HH:MM", 12-hour "hh:mm AM|PM" and minutes since midnight;
  the direction-dependent formatting of static schedule times; the
  on-time/late/early text. The lemmas prove the round trips and the
  formatting rules.
- **ETA projection** (`eta.dfy`). The checkpoint projector carries the delay
  observed at the latest reported stop forward to every later stop. The
  one-shot fallback shifts the whole timetable by the bus's lateness at its
  first departure.
- **Schedule screen state** (`schedule_tracker.dfy`). Stops marked as reached
  within 50 m, the current stop, the ETAs shown, and the feed handler that
  updates them.
- **The two live-data channels**:
  - `websocket_service.dfy`: the foreground service, with one shared socket,
    a single cached payload replayed on open, and app-state driven
    close/reopen;
  - `background_websocket.dfy`: the background task, with a reconnect loop,
    a FIFO send queue drained on open, and guarded listener calls.

  `sockets.dfy` holds what they share: an abstract socket (ready state plus
  a log of the frames written to it), listener sets kept in insertion order,
  and fan-out.
- **Search** (`search.dfy`). The catalogue of current routes and its
  location list, the suggestion filters, the bus preview, and both searches.
- **Timetable** (`timetable.dfy`). One row per UP route with stops, or the
  fixed sample rows.
- **Bus list** (`bus_list.dfy`). The nearest stop to the live position, the
  press on a bus card that subscribes to the bus and opens its schedule, and
  the header texts.

Supporting modules:

- `wrappers.dfy`: `Option`, and `Outcome`, the result of a call that either returns a value or throws (a JavaScript exception).
- `json.dfy`: JSON values with JavaScript truthiness and loose `==`.
- `text.dfy`: strings, `Number()` on digit strings, `split` and `join`.
- `lists.dfy`: `filter`, `find`, `findIndex` and `[...new Set(xs)]`.
- `routes.dfy`: route and stop records.

Outside input is passed to the model as parameters:

- the live position, after `parseFloat`;
- the distance function, standing in for Haversine;
- the clock's minute of the day;
- the answers of the catalogue and search endpoints;
- whether the background service accepted the background task;
- which listeners throw.

Socket events are explicit methods (`OnOpen(k)`, `OnMessage(k, …)`,
`OnClose(k)`) on a channel that keeps every socket it has created, in
creation order.

## Model

| member | source | states |
|---|---|---|
| ScheduleTime.Clock12 | screens/ScheduleScreen.jsx:70 | `hours % 12 \|\| 12` lies in 1..12 and agrees with the hour modulo 12 |
| ScheduleTime.ParseTimeToMinutes | screens/ScheduleScreen.jsx:78-99 | empty text and "--:--" give null; any minute it returns is non-negative |
| ScheduleTime.ParseTwelveHour | screens/ScheduleScreen.jsx:83-91 | the AM/PM branch yields a non-negative minute |
| ScheduleTime.ParseTwentyFour | screens/ScheduleScreen.jsx:92-98 | the 24-hour branch yields a non-negative minute |
| ScheduleTime.JsRem | screens/ScheduleScreen.jsx:104 | JavaScript `%` stays strictly between -b and b and agrees with the mathematical remainder on non-negative operands |
| ScheduleTime.Normalize | screens/ScheduleScreen.jsx:104 | `((mins % 1440) + 1440) % 1440` with JavaScript `%` is the time of day `mins` denotes, in 0..1439, negative input included |
| ScheduleTime.JsRemShift | screens/ScheduleScreen.jsx:104 | the double-`%` normalisation equals the Euclidean remainder modulo 1440 |
| ScheduleTime.MinutesToHHMM | screens/ScheduleScreen.jsx:102-108 | null gives "--:--"; any integer gives "HH:MM" of its time of day, with an hour below 24 |
| ScheduleTime.DelayText | screens/ScheduleScreen.jsx:201-203 | "On time" exactly when the delay is within one minute; "+N min late" exactly when it is 2 or more; "N min early" for -2 or less |
| ScheduleTime.GetDelayText | screens/ScheduleScreen.jsx:197-204 | empty exactly when the ETA is empty or "--:--" or the schedule is empty; otherwise the text of ETA minus schedule, an unreadable time counting as 0 |
| ClockFacts.ClockCharsPlain | screens/ScheduleScreen.jsx:56-61 | text of digits, colons and blanks is unchanged by upper-casing and mentions neither AM nor PM |
| ClockFacts.ReadDigits | screens/ScheduleScreen.jsx:63-67 | "H:M" made of digits splits into two parts and reads as hour H and minute M |
| ClockFacts.DigitsClockReads | screens/ScheduleScreen.jsx:78-98 | "H:M" made of digits takes the 24-hour branch of parseTimeToMinutes |
| ClockFacts.ClockTextReads | screens/ScheduleScreen.jsx:69-73 | the 12-hour text built for an hour reads back as that hour on the 12-hour dial, with the period it was given |
| ClockFacts.ParseTwelveHourText | screens/ScheduleScreen.jsx:83-91 | a 12-hour text reads as the hour modulo 12, plus 12 hours for PM |
| ClockFacts.ParseTwentyFourText | screens/ScheduleScreen.jsx:92-98 | a 24-hour text without surrounding white space reads as the hour modulo 24 |
| ClockFacts.To12HourFormatText | screens/ScheduleScreen.jsx:63-73 | a readable 24-hour text without surrounding white space becomes the padded 12-hour clock, PM from hour 12 on (texts with white space around them are outside these lemmas, although `Number()` reads their parts the same way) |
| ClockFacts.FormatStaticText | screens/ScheduleScreen.jsx:135-149 | a readable 24-hour static time without surrounding white space is printed with AM on an UP route and with the hour's own period on a DOWN route (texts with white space around them are outside these lemmas, although `Number()` reads their parts the same way) |
| ClockFacts.TwelveHourAgrees | screens/ScheduleScreen.jsx:89-97 | below hour 24, the 12-hour and 24-hour readings of the same clock agree |
| ClockFacts.ParseClockText | screens/ScheduleScreen.jsx:69-91 | the 12-hour text to12HourFormat prints parses back to the same minute modulo 12 hours, plus 12 hours for PM |
| ClockFacts.To12HourFormatOfHourMinute | screens/ScheduleScreen.jsx:63-73 | "HH:MM" becomes the 12-hour text: hour 0 and 12 read 12, two-digit padding, PM exactly from hour 12 |
| ClockFacts.ParseHourMinute | screens/ScheduleScreen.jsx:92-98 | parseTimeToMinutes reads "HH:MM" as hour modulo 24 times 60 plus minute |
| ClockFacts.TwelveHourRoundTripText | screens/ScheduleScreen.jsx:53-99 | for a readable 24-hour time without surrounding white space, `parseTimeToMinutes(to12HourFormat(s)) == parseTimeToMinutes(s)` (texts with white space around them are outside these lemmas, although `Number()` reads their parts the same way) |
| ClockFacts.TwelveHourRoundTrip | screens/ScheduleScreen.jsx:53-99 | the same round trip for every "HH:MM" with an hour below 24 |
| ClockFacts.To12HourFormatSpecialCases | screens/ScheduleScreen.jsx:53-67 | empty text and "--:--" give "--:--"; text with AM or PM is returned unchanged; no colon or an unreadable hour or minute gives "--:--" |
| ClockFacts.HHMMRoundTrip | screens/ScheduleScreen.jsx:78-108 | `parseTimeToMinutes(minutesToHHMM(x))` is `x` modulo 1440 for every integer x |
| ClockFacts.DisplayRoundTrip | screens/ScheduleScreen.jsx:78-113 | an ETA printed by minutesToDisplay parses back to its minute modulo 1440 |
| ClockFacts.UpRouteIsAlwaysAm | screens/ScheduleScreen.jsx:138-142 | on an UP route a static time is always printed with AM, so an afternoon time reads back 12 hours early |
| ClockFacts.UpRouteAfternoonExample | screens/ScheduleScreen.jsx:138-142 | "17:00" on an UP route prints as "05:00 AM" |
| ClockFacts.DownRouteIsTwelveHour | screens/ScheduleScreen.jsx:125-150 | on a DOWN route, wherever formatStaticTime returns it agrees with to12HourFormat; where it throws (no colon, a numeric hour), to12HourFormat shows "--:--" |
| ScheduleTime.FormatStaticThrows | screens/ScheduleScreen.jsx:125-150 | formatStaticTime throws exactly on a non-empty text that names no period, has no colon and whose hour reads as a number: the minute is `undefined`, passes the NaN test, and `minutes.toString()` throws |
| ClockFacts.FormatStaticHasPeriod | screens/ScheduleScreen.jsx:125-150 | where formatStaticTime returns, it yields "--:--" or a text that names a period |
| ClockFacts.To12HourFormatHasPeriod | screens/ScheduleScreen.jsx:53-74 | to12HourFormat yields "--:--" or a text naming a period; a text it changes becomes the 12-hour clock of the hour and minute it reads as, PM from hour 12 |
| ClockFacts.DisplayIsClockText | screens/ScheduleScreen.jsx:111-113 | minutesToDisplay shows null as "--:--" and any minute as the 12-hour clock of its time of day |
| EtaProjector.StatusAt | screens/ScheduleScreen.jsx:221 | a lookup in the arrival-status map finds an entry under that key, or none exists |
| EtaProjector.NumericKeys | screens/ScheduleScreen.jsx:213-215 | every key that reads as a number is among the numeric keys |
| EtaProjector.MaxOf | screens/ScheduleScreen.jsx:217 | `Math.max` returns one of the keys, and no key exceeds it |
| EtaProjector.NumericKeysFromEntries | screens/ScheduleScreen.jsx:213-215 | every numeric key is the number of some key of the map |
| EtaProjector.KeyReadsBack | screens/ScheduleScreen.jsx:221 | `Number(String(n))` is n, so the latest report is looked up under the key that gave the highest number |
| EtaProjector.CheckpointAtHighestStop | screens/ScheduleScreen.jsx:207-223 | a map whose highest numeric key n names a stop of the route and holds a readable time t is projected: n is the latest stop number and t the latest report |
| EtaProjector.ScheduledMinutesOfClock | screens/ScheduleScreen.jsx:236-246 | a stop whose schedule reads as H:M below hour 24 is scheduled at H*60+M on a DOWN route and at (H mod 12)*60+M on an UP route |
| EtaProjector.PassedEtaMeaning | screens/ScheduleScreen.jsx:227-234 | a passed stop with a report shows it in 12-hour form, reading back as the reported minute; without one it shows its static arrival time, reading back as the minute the projector schedules it at, and throws exactly where that schedule throws |
| EtaProjector.CalculateEtasFromArrivalStatus | screens/ScheduleScreen.jsx:207-257 | null exactly when the map or route is empty, no key is numeric, the highest stop number is outside the route, or the report there is unreadable; it throws exactly when formatStaticTime throws on a passed stop's static arrival time or on the schedule of the latest or a later stop; otherwise one ETA per stop: reported (else static) time up to the latest stop, and after it the reported time shifted by the scheduled gap, or "--:--" |
| EtaProjector.ProjectFromCheckpoint | screens/ScheduleScreen.jsx:225-256 | past the guards, the two loops throw exactly when the projection throws, and otherwise yield the projection from the latest reported stop |
| EtaProjector.PassedStopEtas | screens/ScheduleScreen.jsx:227-234 | each stop up to the latest gets its reported time, else its static arrival time; it throws only where formatStaticTime throws on such a stop |
| EtaProjector.AheadStopEtas | screens/ScheduleScreen.jsx:243-254 | every stop after the latest gets the shifted ETA and the earlier ETAs are kept; it throws only where reading a later stop's schedule throws |
| EtaProjector.AheadEtaMeaning | screens/ScheduleScreen.jsx:243-254 | a stop ahead shows "--:--" when either schedule is unreadable, and otherwise a time that reads back as `reported + sched_j - sched_latest` modulo 1440 |
| EtaProjector.AheadEtaKeepsDelay | screens/ScheduleScreen.jsx:251-253 | the delay at the checkpoint carries forward: ETA minus schedule equals reported minus the checkpoint's schedule, modulo a day |
| EtaProjector.FallbackOnceOnly | screens/ScheduleScreen.jsx:261 | once ETAs are computed the fallback yields null |
| EtaProjector.CalculateEtasFallback | screens/ScheduleScreen.jsx:260-294 | null exactly when a coordinate is unset, ETAs were already computed, or the first departure is missing or unreadable; it throws exactly when formatStaticTime throws on the first departure or on a later stop's arrival time; otherwise one ETA per stop: the clock for stop 0, the shifted schedule for the others |
| EtaProjector.ShiftedStopEtas | screens/ScheduleScreen.jsx:274-291 | stop 0 shows the clock; every later stop shows its arrival shifted by `now - start`, or "--:--"; it throws only where formatStaticTime throws on a later stop's arrival time |
| EtaProjector.FirstStopShowsClock | screens/ScheduleScreen.jsx:275-276 | the first stop's fallback ETA reads back as the current minute |
| EtaProjector.ShiftedEtaMeaning | screens/ScheduleScreen.jsx:278-289 | a later stop reads back as its scheduled minute plus the lateness, modulo 1440; without a readable arrival it shows "--:--"; it throws exactly where formatStaticTime throws on the arrival time |
| EtaProjector.ShiftedEtasKeepSpacing | screens/ScheduleScreen.jsx:272-289 | the fallback keeps the timetable's spacing between any two stops, modulo a day |
| ScheduleTracking.FixCoord | screens/ScheduleScreen.jsx:381-382 | the fix is a coordinate exactly when neither part is NaN |
| ScheduleTracking.InReachBelow | screens/ScheduleScreen.jsx:389-398 | exactly the stops whose `lat ?? latitude ?? …` position reads as a number and lies within 50 m of a numeric fix |
| ScheduleTracking.LastMarked | screens/ScheduleScreen.jsx:389-403 | the scan leaves the current stop at the last newly reached stop, or where it was when there is none |
| ScheduleTracking.Progress | screens/ScheduleScreen.jsx:477-495 | the progress between the current stop and the next is a fraction between 0 and 1 |
| ScheduleTracking.PastNextStopIsFullProgress | screens/ScheduleScreen.jsx:478-519 | `progress >= 1` holds exactly when both stops have a truthy raw `lat`, the stops are some distance apart, and the bus is at least that far from the current stop |
| ScheduleTracking.ScheduleTracker.constructor | screens/ScheduleScreen.jsx:160-167 | the screen starts at stop 0 with nothing reached, no ETAs, no location and the fallback not yet run |
| ScheduleTracking.ScheduleTracker.MarkStopReached | screens/ScheduleScreen.jsx:297-306 | the reached set gains exactly that stop, an already reached stop leaves it unchanged, and the stop becomes current |
| ScheduleTracking.ScheduleTracker.MarkStopsInReach | screens/ScheduleScreen.jsx:388-408 | every stop within 50 m is added to the reached set, and the current stop is the last newly reached one |
| ScheduleTracking.ScheduleTracker.AdvanceByProgress | screens/ScheduleScreen.jsx:477-531 | once the bus is at least a stop-to-stop distance past the current stop, the current stop moves one on, never past the last |
| ScheduleTracking.ScheduleTracker.OnUpdate | screens/ScheduleScreen.jsx:371-534 | a message without a position changes nothing; otherwise stops in reach are marked; an arrival-status map then applies what the checkpoint projector yields (ETAs and current stop, nothing for null, a throw that stops the handler), and without one the fallback runs once and, unless it threw, the position advances the current stop |
| ScheduleTracking.ScheduleTracker.ShowProjection | screens/ScheduleScreen.jsx:415-420 | the projection's ETAs are shown and marked as computed, and its latest stop becomes current |
| ScheduleTracking.ScheduleTracker.ShowEtas | screens/ScheduleScreen.jsx:470-473 | the fallback's ETAs are shown and marked as computed; the current stop stays |
| ScheduleTracking.ReplayMarksNothing | screens/ScheduleScreen.jsx:398-402 | replaying a fix whose stops are all reached leaves the current stop where it is |
| Sockets.NewSocket | services/WebSocketService.js:17 | a new socket is live, not yet open, and has sent nothing |
| Sockets.AfterClose | services/WebSocketService.js:54 | `close()` ends the socket's liveness and keeps what it sent |
| Sockets.Written | services/WebSocketService.js:85 | `ws.send` appends exactly one frame and leaves the state alone |
| Sockets.Added | services/WebSocketService.js:92 | `Set.add` keeps the listeners distinct, adds the callback at the end, and leaves a present one where it is |
| Sockets.Without | services/WebSocketService.js:93 | `Set.delete` removes exactly that callback |
| Sockets.WithoutDistinct | services/WebSocketService.js:93 | removing a listener keeps the set distinct |
| Sockets.WithoutAbsent | services/WebSocketService.js:93 | deleting a callback that is not subscribed leaves the listeners as they are |
| Sockets.WithoutSnoc | services/WebSocketService.js:93 | deleting a callback added at the end is deleting it from the listeners before |
| Sockets.UnsubscribeUndoesSubscribe | services/WebSocketService.js:91-94 | the function `subscribe` returns undoes that subscription exactly |
| Sockets.Deliveries | services/WebSocketService.js:37 | fan-out calls every listener once, in insertion order, with the same value |
| Sockets.CalledBeforeThrow | services/WebSocketService.js:37 | an uncaught throw in `forEach` stops after the first throwing listener; otherwise all listeners are called |
| RamCachedSocket.LiveSockets | services/WebSocketService.js:13-17 | exactly the sockets still connecting or open |
| RamCachedSocket.Incoming | services/WebSocketService.js:30-35 | listeners get the parsed value, or the raw text when parsing fails |
| RamCachedSocket.WebSocketService.constructor | services/WebSocketService.js:6-10 | no socket, no listeners and an empty cache |
| RamCachedSocket.WebSocketService.CreateWS | services/WebSocketService.js:13-17 | a no-op while a socket is held, otherwise exactly one new socket, held; keeps at most one live socket |
| RamCachedSocket.WebSocketService.CloseWS | services/WebSocketService.js:51-56 | a no-op without a socket, otherwise closes and releases it; cache and listeners untouched |
| RamCachedSocket.WebSocketService.Init | services/WebSocketService.js:61-75 | creates the socket and starts following the app state |
| RamCachedSocket.WebSocketService.AppStateChanged | services/WebSocketService.js:64-74 | "background" closes the socket, "active" (re)creates it, the cache survives both |
| RamCachedSocket.WebSocketService.Send | services/WebSocketService.js:78-88 | the cache becomes the payload (last value wins), a socket is created if none is held, and the payload is written only to an open socket |
| RamCachedSocket.WebSocketService.OnOpen | services/WebSocketService.js:19-27 | a truthy cache is written exactly once to the socket that opened, and nothing otherwise |
| RamCachedSocket.WebSocketService.OnMessage | services/WebSocketService.js:29-38 | every listener up to the first throwing one is called, in order, with the parsed value or the raw text |
| RamCachedSocket.WebSocketService.OnClose | services/WebSocketService.js:44-47 | the corrected handler of the first Findings row: the closed socket is released only if it is the one held, which keeps at most one live socket |
| RamCachedSocket.WebSocketService.OnCloseAsWritten | services/WebSocketService.js:44-47 | the handler as written: whatever socket closes, the held one is forgotten |
| RamCachedSocket.WebSocketService.Subscribe | services/WebSocketService.js:91-92 | the callback joins the listener set |
| RamCachedSocket.WebSocketService.Unsubscribe | services/WebSocketService.js:93 | exactly that callback leaves |
| RamCachedSocket.LiveAfterReopen | services/WebSocketService.js:44-47 | which sockets are live after a reopen, with and without a third socket |
| RamCachedSocket.ReopenBeforeClose | services/WebSocketService.js:61-75 | init, open, background and active before the first close event leave one closing and one new socket, the new one held |
| RamCachedSocket.StaleCloseLeavesTwoLiveSockets | services/WebSocketService.js:44-47 | with the close handler as written, a late close event followed by a send leaves two live sockets, and after the next trip to the background the orphaned one is still live |
| RamCachedSocket.StaleCloseKeepsOneLiveSocket | services/WebSocketService.js:44-47 | with the corrected handler, the same events leave only the held socket live, and the next trip to the background leaves none |
| QueuedSocket.FrameOf | services/BackgroundWebSocket.js:157 | a string is sent as it is, anything else JSON-encoded |
| QueuedSocket.Frames | services/BackgroundWebSocket.js:113-116 | the frames of a run of payloads, in the same order |
| QueuedSocket.BackgroundWebSocket.constructor | services/BackgroundWebSocket.js:8-13 | no socket, no listeners, an empty queue, neither running nor started |
| QueuedSocket.BackgroundWebSocket.Start | services/BackgroundWebSocket.js:32-70 | ignored while running or while a begun task has not ended; otherwise running, with one more task handed to the service, or not running when the service refuses; the started flag is left to the task |
| QueuedSocket.BackgroundWebSocket.TaskBegins | services/BackgroundWebSocket.js:43-45 | a handed task begins: the channel is marked started and one fewer task waits |
| QueuedSocket.BackgroundWebSocket.ConnectOnce | services/BackgroundWebSocket.js:92-103 | a fresh socket, held, whose close ends the attempt |
| QueuedSocket.BackgroundWebSocket.LoopStep | services/BackgroundWebSocket.js:48-59 | while running the loop connects again; otherwise it ends and marks the background task finished |
| QueuedSocket.BackgroundWebSocket.Stop | services/BackgroundWebSocket.js:75-87 | stops running, closes and releases the held socket; queue and listeners untouched |
| QueuedSocket.BackgroundWebSocket.Send | services/BackgroundWebSocket.js:155-168 | written when the held socket is open, otherwise appended to the end of the queue |
| QueuedSocket.BackgroundWebSocket.OnOpen | services/BackgroundWebSocket.js:107-117 | the queue drains front first: every queued payload is written in order and the queue ends empty |
| QueuedSocket.BackgroundWebSocket.OnMessage | services/BackgroundWebSocket.js:119-130 | a parsed message reaches every listener in order, throwing ones included; an unparsable one reaches none |
| QueuedSocket.BackgroundWebSocket.OnClose | services/BackgroundWebSocket.js:136-142 | the socket is released and the attempt ends so the loop can retry; only the attempt's own socket can close |
| QueuedSocket.BackgroundWebSocket.Subscribe | services/BackgroundWebSocket.js:173-174 | the callback joins the listener set |
| QueuedSocket.BackgroundWebSocket.Unsubscribe | services/BackgroundWebSocket.js:175 | exactly that callback leaves |
| QueuedSocket.QueuedPayloadsGoOutInOrder | services/BackgroundWebSocket.js:107-117 | two payloads sent while connecting go out on open in the order sent, leaving the queue empty |
| QueuedSocket.RestartBeforeLoopEndsIsIgnored | services/BackgroundWebSocket.js:37-59 | a start between stop and the end of the loop is ignored, and the channel ends stopped |
| QueuedSocket.RestartBeforeTaskBeginsHandsSecondTask | services/BackgroundWebSocket.js:37-76 | a stop then a start before the first task has begun passes the guard: the channel runs, is not yet started, and the service holds two tasks |
| Search.ConvertToRoutes | screens/SearchScreen.jsx:203-226 | an empty array or a non-array gives nothing; otherwise exactly the routes whose stops are not null, in order |
| Search.Sources | screens/SearchScreen.jsx:238 | the source of every route, in order |
| Search.Destinations | screens/SearchScreen.jsx:239 | the destination of every route, in order |
| Search.UniqueTruthy | screens/SearchScreen.jsx:243 | exactly the truthy values, each once |
| Lists.Dedup | screens/SearchScreen.jsx:243 | `[...new Set(xs)]` holds every element of xs once, in the order of first occurrence, and nothing else |
| Search.CatalogueLocations | screens/SearchScreen.jsx:237-246 | every truthy source and destination of the catalogue, each once, and nothing else |
| Search.Suggestions | screens/SearchScreen.jsx:125-138 | a blank box suggests nothing; otherwise exactly the locations whose lower-case form starts with the lower-case text, in order; fails when a location is not a string |
| Search.TextLocationsAlwaysSuggest | screens/SearchScreen.jsx:133-137 | with string locations the filter never fails |
| Search.BusPreview | screens/SearchScreen.jsx:294-305 | a blank id gives no preview; otherwise the first route with that `bus_id`, or none when no route has it |
| Search.ActiveBus | screens/SearchScreen.jsx:448-450 | the first route with that `bus_id` that is active, or none when no such route exists |
| Search.LocalMatches | screens/SearchScreen.jsx:374-376 | exactly the routes serving the trimmed pair, in catalogue order |
| Search.SearchedLocationsAsWritten | screens/SearchScreen.jsx:402-405 | the update as written adds undefined to the location list |
| Search.RemoteSearchBreaksSuggestions | screens/SearchScreen.jsx:402-405 | after that update every non-blank query fails |
| Search.RefetchRestoresSuggestions | screens/SearchScreen.jsx:197-201 | the list rebuilt by the next catalogue fetch (when the screen is focused again and the answer is an array naming its ends as strings) holds only strings, so every query works again |
| Search.SearchedLocations | screens/SearchScreen.jsx:402-405 | the intended update: the found routes' truthy ends join the list, each once |
| Search.SearchedLocationsKeepSuggesting | screens/SearchScreen.jsx:402-405 | with the intended update a list of strings stays one, so suggestions keep working |
| Search.SearchForm.constructor | screens/SearchScreen.jsx:110-122 | the initial form |
| Search.SearchForm.HandleSourceSuggestion | screens/SearchScreen.jsx:125-138 | the box shows the text; the suggestions are replaced unless computing them threw |
| Search.SearchForm.HandleDestinationSuggestion | screens/SearchScreen.jsx:141-154 | the same for the destination box |
| Search.SearchForm.FetchCurrentRoutes | screens/SearchScreen.jsx:228-251 | the catalogue is replaced by the converted routes, and the location list is rebuilt from an array answer |
| Search.SearchForm.ClearAllFields | screens/SearchScreen.jsx:259-266 | every box and result is emptied; catalogue and suggestions stay |
| Search.SearchForm.HandleReverseRoute | screens/SearchScreen.jsx:268-272 | source and destination swap, nothing else changes |
| Search.SearchForm.FetchBusPreview | screens/SearchScreen.jsx:294-305 | a blank id clears the preview; otherwise the preview is the lookup's result |
| Search.SearchForm.FindByPair | screens/SearchScreen.jsx:368-419 | with the location update of the second Findings row corrected: missing boxes alert; a local match opens the bus list; without one the search endpoint's answer is applied |
| Search.SearchForm.SearchRemotely | screens/SearchScreen.jsx:379-407 | the corrected handler of the second Findings row: a failed request alerts; an empty answer alerts "Not Found" and empties both boxes; otherwise the found routes join the catalogue and their ends join the location list |
| Search.SearchForm.SearchRemotelyAsWritten | screens/SearchScreen.jsx:379-407 | the handler as written: the same, except that undefined joins the location list, after which every non-blank query in either box fails |
| Search.SearchForm.FindByBusNumber | screens/SearchScreen.jsx:440-462 | a blank number alerts; only an active route with that `bus_id` is shown; otherwise "Not Found" and no navigation |
| Search.SearchForm.HandleFindBus | screens/SearchScreen.jsx:353-468 | dispatches on the search type; any other type does nothing |
| Timetable.StopNames | screens/TimetableScreen.jsx:40 | the stop names, in stop order |
| Timetable.RowOf | screens/TimetableScreen.jsx:35-41 | a row carries the route's ends and bus, its first stop's departure time, and its stop names joined by ", " |
| Timetable.FormatRoutes | screens/TimetableScreen.jsx:32-42 | one row per UP route with stops, in input order, so never more rows than routes |
| Timetable.FormatRoutesSnoc | screens/TimetableScreen.jsx:33-34 | a route that is not listed adds no row; a listed one adds its row at the end |
| Timetable.SampleData | screens/TimetableScreen.jsx:44-59 | the two fixed sample rows |
| Timetable.TimetableRows | screens/TimetableScreen.jsx:18-30 | a failed request or a non-array answer shows the sample rows; an array shows its formatted rows |
| Timetable.RowsAreListedRoutes | screens/TimetableScreen.jsx:32-42 | every row comes from an UP route with stops |
| Timetable.ListedRoutesHaveRows | screens/TimetableScreen.jsx:32-42 | every UP route with stops has a row |
| BusList.NearestIsUnique | screens/BusListScreen.jsx:124-141 | at most one index is the nearest stop, so the search's result is determined |
| BusList.NearestStop | screens/BusListScreen.jsx:121-141 | the nearest stop that has a position, the first of equally near ones; 0 when the fix is NaN or no stop has a position |
| BusList.ActualSource | screens/BusListScreen.jsx:58 | `src \|\| source` |
| BusList.ActualDestination | screens/BusListScreen.jsx:59 | `dest \|\| destination` |
| BusList.PressPayload | screens/BusListScreen.jsx:168-174 | the payload is a JSON object |
| BusList.PayloadReadsBack | screens/BusListScreen.jsx:168-174 | the payload has five fields, and bus_id, route_id, route_name, driver_id and direction each read back as the bus's own field |
| BusList.PayloadReadsDriver | screens/BusListScreen.jsx:172-173 | driver_id and direction read back as the bus's own fields |
| BusList.ScheduleParamsOf | screens/BusListScreen.jsx:178-185 | the schedule opens with the bus, the bus number only for a bus-number search, and the stop only for a search through a stop |
| BusList.TemplateText | screens/BusListScreen.jsx:258 | `${busNumber}` shows a string as it is and a number in decimal |
| BusList.HeaderTitle | screens/BusListScreen.jsx:257-269 | "Bus #N" for a bus-number search with a number; "Available Buses" when an end is missing |
| BusList.HeaderNamesEnds | screens/BusListScreen.jsx:259-268 | otherwise the title starts with the source and ends with the destination, with the stop after the source for a search through a stop |
| BusList.Subtitle | screens/BusListScreen.jsx:271-275 | "Bus details" for a bus-number search, "Via " and the stop for a search through a stop |
| BusList.SubtitleCountsBuses | screens/BusListScreen.jsx:274 | otherwise it starts with the digits of the bus count and says "bus" for exactly one and "buses" for any other count |
| BusList.BusListView.constructor | screens/BusListScreen.jsx:54-64 | the screen opens with the buses it was given, no marker and not initialized |
| BusList.BusListView.OnUpdate | screens/BusListScreen.jsx:114-159 | a message without a position, or a first bus without stops, changes nothing; otherwise the marker moves to the nearest stop and is from then on initialized |
| BusList.BusListView.HandleBusPress | screens/BusListScreen.jsx:162-186 | a missing bus or bus id alerts and sends nothing; otherwise the five-field payload goes to the live channel and the schedule opens |

## Left out

- Haversine distance. It is floating-point trigonometry, so distance is a function parameter. Only the 50 m threshold and the strict comparisons are modelled.
- `parseFloat` of positions. Its result is an input (`Fix`, `Option<Coord>`; None stands for NaN). A stop carries the three readings the screens make of its coordinates as three already-parsed fields: `position` (the `lat ?? latitude ?? …` chain), `listPosition` (`latitude`/`longitude`, None when falsy) and `progressPosition` (the raw `lat`/`lon`, None when `lat` is falsy). How each field is derived from one stop record is not modelled, so nothing ties the three together.
- The feed's alternative key spellings (`lat`, `lattitude`, `lon`, `long`, …). The schedule screen's handler receives the already-normalised position. The speed, which no modelled logic uses, is dropped.
- `Number()` on text. It is modelled for plain ASCII digit strings after trimming. Signs, decimals, exponents, hexadecimal and `Infinity` read as not-a-number.
- JSON numbers are integers. `undefined` is not a JSON value, so an absent field reads as null. The one exception is a route's `stops`, whose absence `convertToRoutes` treats differently from null.
- Lower-casing and upper-casing are ASCII only (`Text.Lower`/`LowerChar` and `Text.Upper`/`UpperChar`, the latter used by the AM/PM tests `MentionsAmPm` and `EndsWithAmPm`); other letters keep their case.
- `webSocketService.connect()`, called by the search screen (screens/SearchScreen.jsx:177) and by the schedule screen (screens/ScheduleScreen.jsx:368). The service defines no `connect`, so as written each call throws a TypeError and nothing after it in that effect runs. The model treats the call as one that returns, as the comment at screens/ScheduleScreen.jsx:367 expects. As written, the schedule screen's effect never reaches `subscribe` (screens/ScheduleScreen.jsx:371), so the feed handler that `ScheduleTracker.OnUpdate` models is never registered. The search screen's focus effect (screens/SearchScreen.jsx:175-180) throws each time the screen gains focus, and whether the catalogue refetch declared after it (screens/SearchScreen.jsx:197-201) still runs depends on how React handles an effect that throws; `Search.RefetchRestoresSuggestions` assumes it runs. React's handling of an error thrown from an effect is not part of this model.
- Two task bodies running at once. After `RestartBeforeTaskBeginsHandsSecondTask` both handed tasks can begin, and each would run its own reconnect loop; `TaskBegins` only marks the channel started again and `LoopStep` models a single loop, so the interleaving of two loops over the one held socket is not modelled.
- `AppState`, `BackgroundService`, `sleep`/`setTimeout` delays, `new Date()` and `fetch`. Their events and results are parameters or explicit method calls, each a discrete step.
- The background channel's `_connectOnce` failure path (services/BackgroundWebSocket.js:144-148). It is only reachable when the WebSocket constructor throws.
- The background `send` catch branch (services/BackgroundWebSocket.js:164-166). It is only reachable when serialising or writing throws, which cannot happen for the JSON values modelled here.
- Error and close events carry no data the channels use. `onerror` only logs.
- React's asynchronous `setState` batching and the stale closures of the feed handlers. Each handler reads and writes the fields directly.
- Animations, scrolling, line progress bars, styles and rendering. The progress ratio itself is modelled (`Progress`); the animated value it drives is not.
- A throw from the schedule screen's feed handler ends that handler; the remaining listeners of the same message are then skipped too, as `Sockets.CalledBeforeThrow` states for the foreground channel's fan-out. `OnUpdate` reports the throw in `threw` and leaves the fields as they were at that point.
- Real-number coordinates and distances are exact reals: floating-point rounding in the distance and progress arithmetic is not modelled.
- The request URL of the remote search (screens/SearchScreen.jsx:380). The answer for the trimmed pair is an input.
- The commented-out search through a stop. The bus list's header texts for it are modelled because the screen still reads those parameters.
- ScheduleTracking.ScheduleTracker.MarkStopReached: the current stop moves to each stop reached, so it can move backwards when an earlier stop comes into reach. This follows the code; nothing in it keeps the current stop monotone. The checkpoint path sets the current stop without marking any stop as reached, which the model also follows.
- Search.SearchForm.HandleFindBus: its own contract only says which branch runs; what each branch does is stated on FindByPair and FindByBusNumber.
- BusList.HeaderTitle: its own contract covers the bus-number and fallback titles. The titles built from a search are described by HeaderNamesEnds (where the ends and the stop sit), not spelled out character by character.
- BusList.PressPayload: `JSON.stringify` drops fields that are `undefined`. Here an absent bus field is null and stays in the payload.
- BusList.TemplateText: array elements that are themselves arrays or objects are rendered with the same rules as the top level. Other JavaScript string conversions of unusual values are not modelled.
- Parameters the search screen does not pass to the bus list are "" rather than `undefined`, so "Via undefined" appears as "Via ".

## Findings

| source | as written | input that shows it | evidently intended | confidence | as-written member | corrected member |
|---|---|---|---|---|---|---|
| services/WebSocketService.js:44-47 | `onclose` sets the module's `ws` to null whichever socket closed | `init`, the socket opens, the app goes to the background and straight back to active before the first socket's close event arrives, that close event, then `send`: the reopened socket is orphaned and a third is created, so two sockets are live; the orphan is no longer held, so `closeWS` cannot close it, and it stays live after the app next goes to the background | release `ws` only when the closing socket is the one held | not executed | RamCachedSocket.StaleCloseLeavesTwoLiveSockets | RamCachedSocket.StaleCloseKeepsOneLiveSocket |
| screens/SearchScreen.jsx:402-405 | after a remote search, `route.src` and `route.dest` are read from the array `convertToRoutes` returned, so `undefined` joins the location list | any remote search that finds a route, then typing any non-blank text into either box: `toLowerCase` on the undefined entry throws, and the suggestions stop updating until the screen is focused again and the catalogue fetch answers with an array (a failed or non-array answer keeps the list broken) | add the found routes' sources and destinations | not executed | Search.RemoteSearchBreaksSuggestions | Search.SearchedLocationsKeepSuggesting |

=== FILE: background_websocket.dfy ===
/** The background live-data channel: a long-running task that reconnects in
    a loop while the channel is running, a FIFO queue of payloads that could
    not be sent yet, and a listener set. Sockets are kept in creation order
    in `sockets`; `ws` names the one the channel holds, and `attempt` names
    the socket whose close ends the connection attempt the loop is waiting
    on (the promise `_connectOnce` returns). */
module QueuedSocket {
  import opened Wrappers
  import opened JsonValues
  import opened Sockets

  /** What `send` writes for a payload: a string as it is, anything else
      JSON-encoded. */
  function FrameOf(payload: Json): (f: Frame)
    ensures payload.JStr? ==> f == TextFrame(payload.s)
    ensures !payload.JStr? ==> f == JsonFrame(payload)
  {
    if payload.JStr? then TextFrame(payload.s) else JsonFrame(payload)
  }

  /** The frames for a run of payloads, in the same order. */
  function Frames(payloads: seq<Json>): (r: seq<Frame>)
    ensures |r| == |payloads|
    ensures forall i :: 0 <= i < |payloads| ==> r[i] == FrameOf(payloads[i])
  {
    if payloads == [] then []
    else Frames(payloads[..|payloads| - 1]) + [FrameOf(payloads[|payloads| - 1])]
  }

  class BackgroundWebSocket {
    var sockets: seq<Socket>
    var ws: Option<nat>
    var attempt: Option<nat>
    var queue: seq<Json>
    var listeners: seq<nat>
    /** Every listener call made so far, in order. */
    var delivered: seq<Delivery>
    var isRunning: bool
    var taskStarted: bool
    /** How many task functions the background service has been handed
        whose body has not begun yet. */
    var handedTasks: nat

    /** The socket bookkeeping the reconnect loop keeps: only the socket of
        the pending attempt may still be unclosed, only the held socket may
        be live, and an attempt is pending only inside the running task. */
    ghost predicate Valid()
      reads this
    {
      (ws.Some? ==> attempt == ws && ws.value < |sockets| && Live(sockets[ws.value])) &&
      (attempt.Some? ==> attempt.value < |sockets| && taskStarted) &&
      (forall i :: 0 <= i < |sockets| && sockets[i].state != Closed ==> attempt == Some(i)) &&
      (forall i :: 0 <= i < |sockets| && Live(sockets[i]) ==> ws == Some(i)) &&
      Distinct(listeners)
    }

    constructor()
      ensures Valid()
      ensures sockets == [] && ws == None && attempt == None && queue == []
      ensures listeners == [] && delivered == [] && !isRunning && !taskStarted
      ensures handedTasks == 0
    {
      sockets := [];
      ws := None;
      attempt := None;
      queue := [];
      listeners := [];
      delivered := [];
      isRunning := false;
      taskStarted := false;
      handedTasks := 0;
    }

    /** `start`: ignored while the channel runs or a begun task has not
        yet ended; otherwise it marks the channel running and hands a task
        to the background service. `serviceStarts` is whether the service
        accepted it: if so one more task waits to begin (TaskBegins), if
        not the running flag is cleared again. `taskStarted` is left to the
        task itself, so between this call and the task's first statement
        both flags can be false again after a `stop`. */
    method Start(serviceStarts: bool)
      requires Valid()
      modifies this
      ensures Valid()
      ensures old(isRunning || taskStarted) ==>
        isRunning == old(isRunning) && handedTasks == old(handedTasks)
      ensures !old(isRunning || taskStarted) ==>
        isRunning == serviceStarts &&
        handedTasks == old(handedTasks) + (if serviceStarts then 1 else 0)
      ensures taskStarted == old(taskStarted)
      ensures sockets == old(sockets) && ws == old(ws) && attempt == old(attempt)
      ensures queue == old(queue) && listeners == old(listeners) && delivered == old(delivered)
    {
      if isRunning || taskStarted {
        return;
      }
      isRunning := true;
      if serviceStarts {
        handedTasks := handedTasks + 1;
      } else {
        isRunning := false;
      }
    }

    /** The first statement of a task the service was handed: the task
        marks itself started, and its reconnect loop may run. */
    method TaskBegins()
      requires Valid() && handedTasks > 0
      modifies this
      ensures Valid()
      ensures taskStarted && handedTasks == old(handedTasks) - 1
      ensures isRunning == old(isRunning)
      ensures sockets == old(sockets) && ws == old(ws) && attempt == old(attempt)
      ensures queue == old(queue) && listeners == old(listeners) && delivered == old(delivered)
    {
      taskStarted := true;
      handedTasks := handedTasks - 1;
    }

    /** `_connectOnce`: a fresh socket, held by the channel, whose close
        will end this attempt. */
    method ConnectOnce()
      requires Valid() && taskStarted && attempt.None?
      modifies this
      ensures Valid()
      ensures sockets == old(sockets) + [NewSocket()]
      ensures ws == Some(|old(sockets)|) && attempt == ws
      ensures isRunning == old(isRunning) && taskStarted == old(taskStarted) && handedTasks == old(handedTasks)
      ensures queue == old(queue) && listeners == old(listeners) && delivered == old(delivered)
    {
      ws := Some(|sockets|);
      attempt := ws;
      sockets := sockets + [NewSocket()];
    }

    /** One turn of the background task's `while (this.isRunning)` loop, taken once the
        previous attempt has ended: while running it connects again,
        otherwise the loop ends and the background task is marked finished. */
    method LoopStep()
      requires Valid() && taskStarted && attempt.None?
      modifies this
      ensures Valid()
      ensures old(isRunning) ==>
        sockets == old(sockets) + [NewSocket()] && ws == Some(|old(sockets)|) &&
        attempt == ws && taskStarted
      ensures !old(isRunning) ==>
        sockets == old(sockets) && ws == old(ws) && attempt == None && !taskStarted
      ensures isRunning == old(isRunning) && handedTasks == old(handedTasks)
      ensures queue == old(queue) && listeners == old(listeners) && delivered == old(delivered)
    {
      if isRunning {
        ConnectOnce();
      } else {
        taskStarted := false;
      }
    }

    /** `stop`: the channel stops running and the held socket, if any, is
        closed and released; the queue and the listeners stay. The attempt
        ends when that socket's close event arrives. */
    method Stop()
      requires Valid()
      modifies this
      ensures Valid()
      ensures !isRunning && ws == None
      ensures old(ws).None? ==> sockets == old(sockets)
      ensures old(ws).Some? ==>
        sockets == old(sockets)[old(ws).value := AfterClose(old(sockets)[old(ws).value])]
      ensures attempt == old(attempt) && taskStarted == old(taskStarted) && handedTasks == old(handedTasks)
      ensures queue == old(queue) && listeners == old(listeners) && delivered == old(delivered)
    {
      isRunning := false;
      if ws.Some? {
        var k := ws.value;
        sockets := sockets[k := AfterClose(sockets[k])];
        ws := None;
      }
    }

    /** `send`: written at once when the held socket is open, otherwise
        appended to the end of the queue. */
    method Send(payload: Json)
      requires Valid()
      modifies this
      ensures Valid()
      ensures old(ws).Some? && old(sockets)[old(ws).value].state == Open ==>
        sockets == old(sockets)[old(ws).value := Written(old(sockets)[old(ws).value], FrameOf(payload))] &&
        queue == old(queue)
      ensures !(old(ws).Some? && old(sockets)[old(ws).value].state == Open) ==>
        sockets == old(sockets) && queue == old(queue) + [payload]
      ensures ws == old(ws) && attempt == old(attempt)
      ensures isRunning == old(isRunning) && taskStarted == old(taskStarted) && handedTasks == old(handedTasks)
      ensures listeners == old(listeners) && delivered == old(delivered)
    {
      if ws.Some? && sockets[ws.value].state == Open {
        var k := ws.value;
        sockets := sockets[k := Written(sockets[k], FrameOf(payload))];
      } else {
        queue := queue + [payload];
      }
    }

    /** The open handler of socket `k`: the queue is drained from the front,
        each payload going through `send`. Since the opened socket is the
        one held, every queued payload is written to it in the order it was
        queued and the queue ends empty. */
    method OnOpen(k: nat)
      requires Valid()
      requires k < |sockets| && sockets[k].state == Connecting
      modifies this
      ensures Valid()
      ensures ws == Some(k) && queue == []
      ensures |sockets| == |old(sockets)|
      ensures sockets[k] == Socket(Open, old(sockets)[k].sent + Frames(old(queue)))
      ensures forall i :: 0 <= i < |sockets| && i != k ==> sockets[i] == old(sockets)[i]
      ensures attempt == old(attempt)
      ensures isRunning == old(isRunning) && taskStarted == old(taskStarted) && handedTasks == old(handedTasks)
      ensures listeners == old(listeners) && delivered == old(delivered)
    {
      sockets := sockets[k := sockets[k].(state := Open)];
      var n := 0;
      while |queue| > 0
        invariant Valid() && ws == Some(k) && |sockets| == |old(sockets)|
        invariant 0 <= n <= |old(queue)| && queue == old(queue)[n..]
        invariant sockets[k] == Socket(Open, old(sockets)[k].sent + Frames(old(queue)[..n]))
        invariant forall i :: 0 <= i < |sockets| && i != k ==> sockets[i] == old(sockets)[i]
        invariant attempt == old(attempt)
        invariant isRunning == old(isRunning) && taskStarted == old(taskStarted) && handedTasks == old(handedTasks)
        invariant listeners == old(listeners) && delivered == old(delivered)
        decreases |queue|
      {
        var p := queue[0];
        queue := queue[1..];
        Send(p);
        assert old(queue)[..n + 1][..n] == old(queue)[..n];
        n := n + 1;
      }
      assert old(queue)[..n] == old(queue);
    }

    /** The message handler of socket `k`: a message that parses reaches
        every listener in subscription order, each call guarded so that a
        listener that throws (one in `throwing`) does not keep it from the
        others; a message that does not parse reaches no listener. */
    method OnMessage(k: nat, parsed: Option<Json>, throwing: set<nat>)
      requires Valid()
      requires k < |sockets| && sockets[k].state == Open
      modifies this
      ensures Valid()
      ensures parsed.None? ==> delivered == old(delivered)
      ensures parsed.Some? ==>
        delivered == old(delivered) + Deliveries(listeners, Parsed(parsed.value))
      ensures sockets == old(sockets) && ws == old(ws) && attempt == old(attempt)
      ensures queue == old(queue) && listeners == old(listeners)
      ensures isRunning == old(isRunning) && taskStarted == old(taskStarted) && handedTasks == old(handedTasks)
    {
      if parsed.None? {
        return;
      }
      var data := Parsed(parsed.value);
      var calls: seq<Delivery> := [];
      for i := 0 to |listeners|
        invariant calls == Deliveries(listeners[..i], data)
      {
        // A listener in `throwing` raises; the exception is swallowed and
        // the iteration goes on.
        calls := calls + [Delivery(listeners[i], data)];
        assert listeners[..i + 1][..i] == listeners[..i];
      }
      assert listeners[..|listeners|] == listeners;
      delivered := delivered + calls;
    }

    /** The close handler of socket `k`: the channel releases its socket and
        the pending attempt ends, so the loop may try again. Only the socket
        of the pending attempt can still close, so the socket released is
        always that one or none. */
    method OnClose(k: nat)
      requires Valid()
      requires k < |sockets| && sockets[k].state != Closed
      modifies this
      ensures Valid()
      ensures old(attempt) == Some(k) && (old(ws).Some? ==> old(ws) == Some(k))
      ensures sockets == old(sockets)[k := old(sockets)[k].(state := Closed)]
      ensures ws == None && attempt == None
      ensures isRunning == old(isRunning) && taskStarted == old(taskStarted) && handedTasks == old(handedTasks)
      ensures queue == old(queue) && listeners == old(listeners) && delivered == old(delivered)
    {
      sockets := sockets[k := sockets[k].(state := Closed)];
      ws := None;
      attempt := None;
    }

    /** `subscribe(cb)`: the callback joins the listener set. */
    method Subscribe(cb: nat)
      requires Valid()
      modifies this
      ensures Valid()
      ensures listeners == Added(old(listeners), cb)
      ensures sockets == old(sockets) && ws == old(ws) && attempt == old(attempt)
      ensures queue == old(queue) && delivered == old(delivered)
      ensures isRunning == old(isRunning) && taskStarted == old(taskStarted) && handedTasks == old(handedTasks)
    {
      listeners := Added(listeners, cb);
    }

    /** The function `subscribe` returns: exactly that callback leaves. */
    method Unsubscribe(cb: nat)
      requires Valid()
      modifies this
      ensures Valid()
      ensures listeners == Without(old(listeners), cb) && cb !in listeners
      ensures sockets == old(sockets) && ws == old(ws) && attempt == old(attempt)
      ensures queue == old(queue) && delivered == old(delivered)
      ensures isRunning == old(isRunning) && taskStarted == old(taskStarted) && handedTasks == old(handedTasks)
    {
      WithoutDistinct(listeners, cb);
      listeners := Without(listeners, cb);
    }
  }

  /** Two payloads sent while the socket is still connecting are queued and
      written on open in the order they were sent. */
  method QueuedPayloadsGoOutInOrder(a: Json, b: Json) returns (sent: seq<Frame>, left: seq<Json>)
    ensures sent == [FrameOf(a), FrameOf(b)] && left == []
  {
    var channel := new BackgroundWebSocket();
    channel.Start(true);
    channel.TaskBegins();
    channel.LoopStep();
    channel.Send(a);
    channel.Send(b);
    assert channel.queue == [a, b];
    channel.OnOpen(0);
    assert Frames([a, b]) == [FrameOf(a), FrameOf(b)];
    sent := channel.sockets[0].sent;
    left := channel.queue;
  }

  /** `start` called right after `stop`, before the loop has noticed, is
      ignored because the background task has not ended yet; when the loop then ends,
      the channel is left stopped. */
  method RestartBeforeLoopEndsIsIgnored() returns (running: bool, started: bool)
    ensures !running && !started
  {
    var channel := new BackgroundWebSocket();
    channel.Start(true);
    channel.TaskBegins();
    channel.LoopStep();
    channel.Stop();
    channel.Start(true);
    channel.OnClose(0);
    channel.LoopStep();
    running := channel.isRunning;
    started := channel.taskStarted;
  }

  /** `stop` then `start` while the service has been handed a task whose
      body has not begun: neither flag is set yet, so the second `start`
      is not ignored and the service is handed a second task. */
  method RestartBeforeTaskBeginsHandsSecondTask() returns (running: bool, started: bool, handed: nat)
    ensures running && !started && handed == 2
  {
    var channel := new BackgroundWebSocket();
    channel.Start(true);
    channel.Stop();
    channel.Start(true);
    running := channel.isRunning;
    started := channel.taskStarted;
    handed := channel.handedTasks;
  }
}

=== FILE: bus_list.dfy ===
/** The bus list screen (screens/BusListScreen.jsx): the buses a search
    found, the stop of the first bus nearest to the live position, the
    press on a bus card that subscribes to that bus and opens its schedule,
    and the header texts. */
module BusList {
  import opened Wrappers
  import opened Text
  import opened JsonValues
  import opened Routes
  import opened ScheduleTracking
  import opened Sockets
  import opened RamCachedSocket

  /** The feed message carries a position: `data`, `data.latitude` and
      `data.longitude` are all truthy. A value that is not an object has no
      such fields. */
  predicate HasPosition(data: Json) {
    data.JObj? &&
    Field(data.fields, "latitude").Some? && Truthy(Field(data.fields, "latitude").value) &&
    Field(data.fields, "longitude").Some? && Truthy(Field(data.fields, "longitude").value)
  }

  /** A stop the nearest-stop search considers: its `latitude` and `longitude` are truthy and read as numbers. */
  predicate Located(stop: Stop) {
    stop.listPosition.Some?
  }

  /** Some stop of the list is located. */
  predicate HasLocatedStop(stops: seq<Stop>) {
    exists j :: 0 <= j < |stops| && Located(stops[j])
  }

  /** The distance from `at` to stop `j`, which is located. */
  function StopDistance(stops: seq<Stop>, j: nat, at: Coord, dist: Distance): real
    requires j < |stops| && Located(stops[j])
  {
    dist(at, stops[j].listPosition.value)
  }

  /** Stop `i` is the nearest located stop to `at`, and no located stop
      before it is as near: the strict comparison keeps the first of equally
      near stops. */
  predicate IsNearest(stops: seq<Stop>, at: Coord, dist: Distance, i: nat) {
    i < |stops| && Located(stops[i]) &&
    (forall j :: 0 <= j < |stops| && Located(stops[j]) ==>
      StopDistance(stops, i, at, dist) <= StopDistance(stops, j, at, dist)) &&
    (forall j :: 0 <= j < i && Located(stops[j]) ==>
      StopDistance(stops, i, at, dist) < StopDistance(stops, j, at, dist))
  }

  /** The index the nearest-stop search ends with: the nearest located stop
      when the position is a number and some stop is located, and the
      starting index 0 otherwise (a NaN distance never compares below
      `Infinity`). */
  predicate IsNearestStop(stops: seq<Stop>, at: Option<Coord>, dist: Distance, i: nat) {
    if at.Some? && HasLocatedStop(stops) then IsNearest(stops, at.value, dist, i) else i == 0
  }

  /** At most one index is the nearest stop, so the search's result is
      determined by the stops, the position and the distance. */
  lemma NearestIsUnique(stops: seq<Stop>, at: Option<Coord>, dist: Distance, i: nat, k: nat)
    requires IsNearestStop(stops, at, dist, i) && IsNearestStop(stops, at, dist, k)
    ensures i == k
  {
  }

  /** The nearest-stop search (screens/BusListScreen.jsx:123-141): stops that are
      not located are skipped, and a stop replaces the best so far
      only when it is strictly nearer. */
  method NearestStop(stops: seq<Stop>, at: Option<Coord>, dist: Distance) returns (nearestIndex: nat)
    ensures IsNearestStop(stops, at, dist, nearestIndex)
  {
    nearestIndex := 0;
    var found := false;
    var minDist: real := 0.0;
    var i := 0;
    while i < |stops|
      invariant 0 <= i <= |stops|
      invariant !found ==> nearestIndex == 0
      invariant !found ==> at.None? || forall j :: 0 <= j < i ==> !Located(stops[j])
      invariant found ==> at.Some? && nearestIndex < i && IsNearest(stops[..i], at.value, dist, nearestIndex)
      invariant found ==> minDist == StopDistance(stops, nearestIndex, at.value, dist)
    {
      if stops[i].listPosition.Some? && at.Some? {
        var d := dist(at.value, stops[i].listPosition.value);
        if !found || d < minDist {
          minDist := d;
          nearestIndex := i;
        }
        found := true;
      }
      i := i + 1;
    }
    assert stops[..|stops|] == stops;
  }

  /** The parameters the schedule screen opens with after a press. */
  datatype ScheduleParams = ScheduleParams(
    busObject: Route,
    searchType: string,
    busNumber: Json,
    source: string,
    destination: string,
    stop: Option<string>)

  /** `src || source`: the search's source, under either parameter name. */
  function ActualSource(p: BusListParams): (s: string)
    ensures p.src != "" ==> s == p.src
    ensures p.src == "" ==> s == p.source
  {
    if p.src != "" then p.src else p.source
  }

  /** `dest || destination`. */
  function ActualDestination(p: BusListParams): (s: string)
    ensures p.dest != "" ==> s == p.dest
    ensures p.dest == "" ==> s == p.destination
  {
    if p.dest != "" then p.dest else p.destination
  }

  /** The subscription payload of a bus (screens/BusListScreen.jsx:168-174):
      its bus, route, route name, driver and direction, and nothing else. */
  function PressPayload(bus: Route): (payload: Json)
    ensures payload.JObj?
  {
    JObj([("bus_id", bus.busId), ("route_id", bus.routeId), ("route_name", bus.routeName),
          ("driver_id", bus.driverId), ("direction", bus.direction)])
  }

  /** The payload has five fields, and each of the five keys reads back as
      the bus's own field. */
  lemma PayloadReadsBack(bus: Route)
    ensures var fields := PressPayload(bus).fields;
      |fields| == 5 &&
      Field(fields, "bus_id") == Some(bus.busId) &&
      Field(fields, "route_id") == Some(bus.routeId) &&
      Field(fields, "route_name") == Some(bus.routeName) &&
      Field(fields, "driver_id") == Some(bus.driverId) &&
      Field(fields, "direction") == Some(bus.direction)
  {
    var fields := PressPayload(bus).fields;
    FieldAt(fields, "bus_id", 0);
    FieldAt(fields, "route_id", 1);
    FieldAt(fields, "route_name", 2);
    PayloadReadsDriver(bus);
  }

  /** The two keys starting with "d" read back: the first letter tells them
      from the others, the second letter tells them apart. */
  lemma PayloadReadsDriver(bus: Route)
    ensures Field(PressPayload(bus).fields, "driver_id") == Some(bus.driverId)
    ensures Field(PressPayload(bus).fields, "direction") == Some(bus.direction)
  {
    var fields := PressPayload(bus).fields;
    assert forall j :: 0 <= j < 3 ==> fields[j].0[0] != 'd';
    assert fields[3].0[1] == 'r' && "direction"[1] == 'i';
    FieldAt(fields, "driver_id", 3);
    FieldAt(fields, "direction", 4);
  }

  /** The schedule parameters of a press (screens/BusListScreen.jsx:178-185):
      the bus number only for a bus-number search, the stop only for a
      search through a stop, the source and destination under either name. */
  function ScheduleParamsOf(p: BusListParams, bus: Route): (s: ScheduleParams)
    ensures s.busObject == bus && s.searchType == p.searchType
    ensures s.busNumber == (if p.searchType == "busNo" then p.busNumber else JNull)
    ensures s.stop == (if p.searchType == "srcDestStop" then Some(p.stop) else None)
    ensures s.source == ActualSource(p) && s.destination == ActualDestination(p)
  {
    ScheduleParams(bus, p.searchType,
                   if p.searchType == "busNo" then p.busNumber else JNull,
                   ActualSource(p), ActualDestination(p),
                   if p.searchType == "srcDestStop" then Some(p.stop) else None)
  }

  /** What a press on a bus card leads to. */
  datatype PressOutcome = InvalidBusAlert | OpenSchedule(params: ScheduleParams)

  /** `${v}` in a template literal, for the values a bus number can take. */
  function TemplateText(v: Json): (s: string)
    ensures v.JStr? ==> s == v.s
    ensures v.JNum? ==> s == IntToString(v.n)
  {
    match v
    case JNull => "null"
    case JBool(b) => if b then "true" else "false"
    case JNum(n) => IntToString(n)
    case JStr(t) => t
    case JArr(items) => Join(ElementTexts(items), ",")
    case JObj(_) => "[object Object]"
  }

  /** The texts of array elements, null elements as "". */
  function ElementTexts(items: seq<Json>): (texts: seq<string>)
    ensures |texts| == |items|
  {
    if items == [] then []
    else [if items[0].JNull? then "" else TemplateText(items[0])] + ElementTexts(items[1..])
  }

  /** getHeaderTitle (screens/BusListScreen.jsx:257-269). */
  function HeaderTitle(p: BusListParams): (t: string)
    ensures p.searchType == "busNo" && Truthy(p.busNumber) ==>
      t == "Bus #" + TemplateText(p.busNumber)
    ensures (!(p.searchType == "busNo" && Truthy(p.busNumber)) &&
             (ActualSource(p) == "" || ActualDestination(p) == "")) ==> t == "Available Buses"
  {
    var source := ActualSource(p);
    var destination := ActualDestination(p);
    if p.searchType == "busNo" && Truthy(p.busNumber) then "Bus #" + TemplateText(p.busNumber)
    else if p.searchType == "srcDestStop" && source != "" && destination != "" && p.stop != "" then
      source + " → " + p.stop + " → " + destination
    else if source != "" && destination != "" then source + " → " + destination
    else "Available Buses"
  }

  /** Outside a bus-number search, a title built from a search names its
      source first and its destination last, with the stop between them
      for a search through a stop. */
  lemma HeaderNamesEnds(p: BusListParams)
    requires !(p.searchType == "busNo" && Truthy(p.busNumber))
    requires ActualSource(p) != "" && ActualDestination(p) != ""
    ensures var t := HeaderTitle(p);
      var source := ActualSource(p);
      var destination := ActualDestination(p);
      |source| + |destination| < |t| &&
      t[..|source|] == source && t[|t| - |destination|..] == destination
    ensures p.searchType == "srcDestStop" && p.stop != "" ==>
      HeaderTitle(p)[|ActualSource(p)| + 3..|ActualSource(p)| + 3 + |p.stop|] == p.stop
  {
  }

  /** getSubtitle (screens/BusListScreen.jsx:271-275), given the number of
      buses listed. */
  function Subtitle(p: BusListParams, busCount: nat): (t: string)
    ensures p.searchType == "busNo" ==> t == "Bus details"
    ensures p.searchType == "srcDestStop" ==> t == "Via " + p.stop
  {
    if p.searchType == "busNo" then "Bus details"
    else if p.searchType == "srcDestStop" then "Via " + p.stop
    else NatToString(busCount) + " bus" + (if busCount != 1 then "es" else "") + " found"
  }

  /** Outside those two searches the subtitle starts with the digits of the
      bus count, and reads "bus" for exactly one bus and "buses" otherwise. */
  lemma SubtitleCountsBuses(p: BusListParams, busCount: nat)
    requires p.searchType != "busNo" && p.searchType != "srcDestStop"
    ensures var t := Subtitle(p, busCount);
      var k := |NatToString(busCount)|;
      k <= |t| && AllDigits(t[..k]) && DigitsValue(t[..k]) == busCount &&
      (busCount == 1 <==> t[k..] == " bus found") &&
      (busCount != 1 <==> t[k..] == " buses found")
  {
    NatToStringValue(busCount);
    var t := Subtitle(p, busCount);
    var k := |NatToString(busCount)|;
    assert t[..k] == NatToString(busCount);
  }

  /** The bus list screen's state: the buses shown, the stop index of the
      first bus's marker (null until the first position) and whether the
      marker has been placed. */
  class BusListView {
    var params: BusListParams
    var buses: seq<Route>
    var currentStopIndex: Option<nat>
    var initialized: bool

    /** The screen opens with the buses it was given, or none. */
    constructor(p: BusListParams, initialBuses: Option<seq<Route>>)
      ensures params == p
      ensures buses == (if initialBuses.Some? then initialBuses.value else [])
      ensures currentStopIndex.None? && !initialized
    {
      params := p;
      buses := if initialBuses.Some? then initialBuses.value else [];
      currentStopIndex := None;
      initialized := false;
    }

    /** The feed listener (screens/BusListScreen.jsx:115-156). A message
        without a position, or a list whose first bus has no stops, changes
        nothing. Otherwise the marker moves to the first bus's stop nearest
        to `fix` (the message's position after parseFloat) and is from then
        on placed. */
    method OnUpdate(data: Json, fix: Fix, dist: Distance)
      modifies this
      ensures params == old(params) && buses == old(buses)
      ensures !HasPosition(data) || buses == [] || StopsOf(buses[0]) == [] ==>
        currentStopIndex == old(currentStopIndex) && initialized == old(initialized)
      ensures HasPosition(data) && buses != [] && StopsOf(buses[0]) != [] ==>
        initialized && currentStopIndex.Some? &&
        IsNearestStop(StopsOf(buses[0]), FixCoord(fix), dist, currentStopIndex.value)
    {
      if !HasPosition(data) {
        return;
      }
      if |buses| > 0 && |StopsOf(buses[0])| > 0 {
        var nearestIndex := NearestStop(StopsOf(buses[0]), FixCoord(fix), dist);
        if !initialized {
          currentStopIndex := Some(nearestIndex);
          initialized := true;
        } else {
          currentStopIndex := Some(nearestIndex);
        }
      }
    }

    /** handleBusPress (screens/BusListScreen.jsx:162-186): a missing bus or
        bus id raises the invalid-data alert and sends nothing; otherwise the
        bus's payload goes to the live channel (see `send`) and the schedule
        opens for it. */
    method HandleBusPress(service: WebSocketService, bus: Option<Route>) returns (outcome: PressOutcome)
      requires service.Valid()
      modifies service
      ensures service.Valid()
      ensures bus.None? || !Truthy(bus.value.busId) ==>
        outcome == InvalidBusAlert && unchanged(service)
      ensures bus.Some? && Truthy(bus.value.busId) ==>
        outcome == OpenSchedule(ScheduleParamsOf(params, bus.value)) &&
        service.cachedPayload == Some(PressPayload(bus.value)) &&
        service.listeners == old(service.listeners)
      ensures (bus.Some? && Truthy(bus.value.busId) && old(service.ws).Some? &&
               old(service.sockets)[old(service.ws).value].state == Open) ==>
        old(service.ws).value < |service.sockets| &&
        service.sockets[old(service.ws).value].sent ==
          old(service.sockets)[old(service.ws).value].sent + [JsonFrame(PressPayload(bus.value))]
    {
      if bus.None? || !Truthy(bus.value.busId) {
        return InvalidBusAlert;
      }
      service.Send(PressPayload(bus.value));
      outcome := OpenSchedule(ScheduleParamsOf(params, bus.value));
    }
  }
}

=== FILE: clock_facts.dfy ===
/** Facts about the schedule-time conversions of screens/ScheduleScreen.jsx:
    how 12-hour and 24-hour texts read back as minutes, the round trips
    through the display formats, and the UP/DOWN rules of formatStaticTime. */
module ClockFacts {
  import opened Wrappers
  import opened Text
  import opened ScheduleTime

  // ---------------------------------------------------------------------
  // Lemmas

  /** Only digits, colons and spaces. */
  predicate ClockChars(s: string) {
    forall i :: 0 <= i < |s| ==> IsDigit(s[i]) || s[i] == ':' || s[i] == ' '
  }

  /** Clock characters are untouched by upper-casing and contain no "AM" or
      "PM". */
  lemma ClockCharsPlain(s: string)
    requires ClockChars(s)
    ensures Upper(s) == s && !MentionsAmPm(s)
  {
    NoPairWithout(s, 'A', 'M');
    NoPairWithout(s, 'P', 'M');
  }

  /** "H:M" made of digits is made of clock characters and has no colon
      but the one in the middle. */
  lemma DigitsColon(hs: string, ms: string)
    requires AllDigits(hs) && AllDigits(ms)
    ensures ClockChars(hs + ":" + ms) && ':' !in hs && ':' !in ms
  {
  }

  /** "H:M" made of digits reads as hour H and minute M. */
  lemma ReadDigits(hs: string, ms: string)
    requires AllDigits(hs) && AllDigits(ms)
    ensures ClockChars(hs + ":" + ms)
    ensures Split(hs + ":" + ms, ':') == [hs, ms]
    ensures ReadHourMinute(hs + ":" + ms) == Some((DigitsValue(hs), DigitsValue(ms)))
  {
    DigitsColon(hs, ms);
    SplitAround(hs, ms, ':');
    assert hs + ":" + ms == hs + [':'] + ms;
    DigitsNumber(hs);
    DigitsNumber(ms);
  }

  /** What the conversions need to know of a 24-hour text that reads as
      hour `h` and minute `m`. The text is taken without white space around
      it; a padded text such as " 08:30" reads the same in the source, since
      `Number()` trims each part, but the lemmas below do not cover it. */
  predicate ReadsAsTwentyFour(s: string, h: nat, m: nat) {
    && s != "" && s != Placeholder && Trim(s) == s
    && !MentionsAmPm(s) && !EndsWithAmPm(s)
    && |Split(s, ':')| >= 2 && ReadHourMinute(s) == Some((h, m))
  }

  /** What parseTimeToMinutes needs to know of a 12-hour text that reads as
      hour `h`, minute `m` and the period `pm`. */
  predicate ReadsAsTwelveHour(t: string, h: nat, m: nat, pm: bool) {
    && t != "" && t != Placeholder && Trim(t) == t && EndsWithAmPm(t)
    && ReadHourMinute(TrimEnd(t[..|t| - 2])) == Some((h, m))
    && Upper(t) == t && (HasPair(t, 'P', 'M') <==> pm)
  }

  /** "H:M" made of digits is neither blank nor the placeholder. */
  lemma DigitsClockNotPlaceholder(hs: string, ms: string)
    requires AllDigits(hs) && AllDigits(ms)
    ensures hs + ":" + ms != "" && hs + ":" + ms != Placeholder
  {
    var s := hs + ":" + ms;
    if hs == [] {
      assert s[0] == ':';
    } else {
      assert s[0] == hs[0];
    }
  }

  /** "H:M" made of digits has no white space around it. */
  lemma DigitsClockTrimmed(hs: string, ms: string)
    requires AllDigits(hs) && AllDigits(ms)
    ensures Trim(hs + ":" + ms) == hs + ":" + ms
  {
    DigitsColon(hs, ms);
    TrimUnpadded(hs + ":" + ms);
  }

  /** "H:M" made of digits has no AM/PM suffix and mentions neither. */
  lemma DigitsClockNoPeriod(hs: string, ms: string)
    requires AllDigits(hs) && AllDigits(ms)
    ensures !EndsWithAmPm(hs + ":" + ms) && !MentionsAmPm(hs + ":" + ms)
  {
    var s := hs + ":" + ms;
    DigitsColon(hs, ms);
    ClockCharsPlain(s);
    if |s| >= 2 {
      assert Upper(s[|s| - 2..])[1] == s[|s| - 1];
    }
  }

  /** "H:M" made of digits is a readable 24-hour text. */
  lemma DigitsClockReads(hs: string, ms: string)
    requires AllDigits(hs) && AllDigits(ms)
    ensures ReadsAsTwentyFour(hs + ":" + ms, DigitsValue(hs), DigitsValue(ms))
  {
    DigitsClockNotPlaceholder(hs, ms);
    DigitsClockTrimmed(hs, ms);
    DigitsClockNoPeriod(hs, ms);
    ReadDigits(hs, ms);
  }

  lemma ClockTextTrim(h: nat, m: nat, pm: bool)
    ensures var t := ClockText(h, m, pm); |t| >= 8 && Trim(t) == t && t != Placeholder
  {
    var t := ClockText(h, m, pm);
    assert Placeholder[0] == '-';
    assert t[0] == TwoDigits(Clock12(h))[0];
    TrimUnpadded(t);
  }

  lemma ClockTextUpper(h: nat, m: nat, pm: bool)
    ensures var t := ClockText(h, m, pm); Upper(t) == t
  {
    var a := TwoDigits(Clock12(h)) + ":" + TwoDigits(m) + " ";
    var t := ClockText(h, m, pm);
    assert t == a + (if pm then "PM" else "AM");
    assert ClockChars(a);
  }

  lemma ClockTextSuffix(h: nat, m: nat, pm: bool)
    ensures var t := ClockText(h, m, pm);
      EndsWithAmPm(t) && TrimEnd(t[..|t| - 2]) == TwoDigits(Clock12(h)) + ":" + TwoDigits(m)
  {
    var a := TwoDigits(Clock12(h)) + ":" + TwoDigits(m);
    var p := if pm then "PM" else "AM";
    var t := ClockText(h, m, pm);
    assert t == a + " " + p;
    assert t[|t| - 2..] == p;
    assert t[..|t| - 2] == a + " ";
    assert (a + " ")[..|a|] == a;
    var d := TwoDigits(m);
    assert a[|a| - 1] == d[|d| - 1] && IsDigit(d[|d| - 1]);
    TrimEndOneSpace(a);
  }

  lemma ClockTextPm(h: nat, m: nat, pm: bool)
    ensures var t := ClockText(h, m, pm); HasPair(t, 'P', 'M') <==> pm
  {
    var a := TwoDigits(Clock12(h)) + ":" + TwoDigits(m) + " ";
    var t := ClockText(h, m, pm);
    assert t == a + (if pm then "PM" else "AM");
    assert ClockChars(a);
    if pm {
      HasPairAt(t, |t| - 2, 'P', 'M');
    } else {
      assert t == a + ['A', 'M'];
      NoPairWithout(t, 'P', 'M');
    }
  }

  /** The 12-hour text of hour `h` reads back as hour `h` on the 12-hour dial. */
  lemma ClockTextReads(h: nat, m: nat, pm: bool)
    ensures ReadsAsTwelveHour(ClockText(h, m, pm), Clock12(h), m, pm)
  {
    ClockTextTrim(h, m, pm);
    ClockTextUpper(h, m, pm);
    ClockTextSuffix(h, m, pm);
    ClockTextPm(h, m, pm);
    ReadDigits(TwoDigits(Clock12(h)), TwoDigits(m));
    TwoDigitsDigits(Clock12(h));
    TwoDigitsDigits(m);
  }

  lemma ParseTwelveHourText(t: string, h: nat, m: nat, pm: bool)
    requires ReadsAsTwelveHour(t, h, m, pm)
    ensures ParseTimeToMinutes(t) == Some(TwelveHourMinutes(h, m, pm))
  {
  }

  lemma ParseTwentyFourText(s: string, h: nat, m: nat)
    requires ReadsAsTwentyFour(s, h, m)
    ensures ParseTimeToMinutes(s) == Some(TwentyFourMinutes(h, m))
  {
  }

  lemma To12HourFormatText(s: string, h: nat, m: nat)
    requires ReadsAsTwentyFour(s, h, m)
    ensures To12HourFormat(s) == ClockText(h, m, h >= 12)
  {
  }

  lemma FormatStaticText(s: string, h: nat, m: nat, isUpRoute: bool)
    requires ReadsAsTwentyFour(s, h, m)
    ensures FormatStaticTime(s, isUpRoute) == Returned(ClockText(h, m, !isUpRoute && h >= 12))
  {
  }

  /** The hour on the 12-hour dial denotes the same time as the hour itself. */
  lemma Clock12Minutes(h: nat, m: nat, pm: bool)
    ensures TwelveHourMinutes(Clock12(h), m, pm) == TwelveHourMinutes(h, m, pm)
  {
  }

  /** Below 24 hours, the 12-hour reading with PM from noon on agrees with
      the 24-hour reading, and both are plain `60 * h + m`. */
  lemma TwelveHourAgrees(h: nat, m: nat)
    requires h < 24
    ensures TwelveHourMinutes(h, m, h >= 12) == TwentyFourMinutes(h, m) == h * 60 + m
  {
  }

  /** Reading back a 12-hour clock text: the hour counts modulo 12 and PM
      adds 12 hours. */
  lemma ParseClockText(h: nat, m: nat, pm: bool)
    ensures ParseTimeToMinutes(ClockText(h, m, pm)) == Some(TwelveHourMinutes(h, m, pm))
  {
    ClockTextReads(h, m, pm);
    ParseTwelveHourText(ClockText(h, m, pm), Clock12(h), m, pm);
    Clock12Minutes(h, m, pm);
  }

  /** "HH:MM" of hour `h` and minute `m` is a readable 24-hour text. */
  lemma HourMinuteReads(h: nat, m: nat)
    ensures ReadsAsTwentyFour(HourMinuteText(h, m), h, m)
  {
    DigitsClockReads(TwoDigits(h), TwoDigits(m));
    TwoDigitsDigits(h);
    TwoDigitsDigits(m);
  }

  /** What to12HourFormat makes of "HH:MM": the hour on a 12-hour dial (0 and
      12 both read 12), zero-padded hour and minute, and PM exactly from
      hour 12 on. */
  lemma To12HourFormatOfHourMinute(h: nat, m: nat)
    ensures To12HourFormat(HourMinuteText(h, m)) == ClockText(h, m, h >= 12)
  {
    HourMinuteReads(h, m);
    To12HourFormatText(HourMinuteText(h, m), h, m);
  }

  /** parseTimeToMinutes on "HH:MM": the hour counts modulo 24. */
  lemma ParseHourMinute(h: nat, m: nat)
    ensures ParseTimeToMinutes(HourMinuteText(h, m)) == Some(TwentyFourMinutes(h, m))
  {
    HourMinuteReads(h, m);
    ParseTwentyFourText(HourMinuteText(h, m), h, m);
  }

  /** Round trip: a 24-hour time with an hour below 24 means the same minute
      of the day before and after conversion to 12-hour text. */
  lemma TwelveHourRoundTripText(s: string, h: nat, m: nat)
    requires ReadsAsTwentyFour(s, h, m) && h < 24
    ensures ParseTimeToMinutes(To12HourFormat(s)) == ParseTimeToMinutes(s)
    ensures Denotes(s, h * 60 + m)
  {
    To12HourFormatText(s, h, m);
    ParseClockText(h, m, h >= 12);
    ParseTwentyFourText(s, h, m);
    TwelveHourAgrees(h, m);
  }

  /** The round trip for "HH:MM". */
  lemma TwelveHourRoundTrip(h: nat, m: nat)
    requires h < 24
    ensures ParseTimeToMinutes(To12HourFormat(HourMinuteText(h, m))) == ParseTimeToMinutes(HourMinuteText(h, m))
    ensures Denotes(HourMinuteText(h, m), h * 60 + m)
  {
    HourMinuteReads(h, m);
    TwelveHourRoundTripText(HourMinuteText(h, m), h, m);
  }

  /** to12HourFormat's special cases: empty text and the placeholder give the
      placeholder, a text with AM or PM in it is kept as it is, a text with
      no colon or with a non-numeric hour or minute gives the placeholder. */
  lemma To12HourFormatSpecialCases(s: string)
    ensures s == "" || s == Placeholder ==> To12HourFormat(s) == Placeholder
    ensures s != "" && s != Placeholder && MentionsAmPm(s) ==> To12HourFormat(s) == s
    ensures !MentionsAmPm(s) && ':' !in s ==> To12HourFormat(s) == Placeholder
    ensures !MentionsAmPm(s) && ReadHourMinute(s).None? ==> To12HourFormat(s) == Placeholder
  {
    SplitCount(s, ':');
  }

  /** A minute of the day splits into an hour below 24 and a minute. */
  lemma DaySplit(n: nat)
    requires n < MinutesPerDay
    ensures n / 60 < 24 && (n / 60) * 60 + n % 60 == n
  {
  }

  /** Round trip: the clock text minutesToHHMM prints reads back as the time
      of day it was made from, for any integer (negative ones included). */
  lemma HHMMRoundTrip(x: int)
    ensures Denotes(MinutesToHHMM(Some(x)), x % MinutesPerDay)
  {
    var n := x % MinutesPerDay;
    DaySplit(n);
    TwelveHourRoundTrip(n / 60, n % 60);
  }

  /** An ETA shown in 12-hour form reads back as the time of day it was made
      from. */
  lemma DisplayRoundTrip(x: int)
    ensures Denotes(MinutesToDisplay(Some(x)), x % MinutesPerDay)
  {
    var n := x % MinutesPerDay;
    DaySplit(n);
    TwelveHourRoundTrip(n / 60, n % 60);
    HHMMRoundTrip(x);
  }

  /** A static time on an UP route is always printed with AM, so an
      afternoon time reads back twelve hours early. */
  lemma UpRouteIsAlwaysAm(h: nat, m: nat)
    ensures FormatStaticTime(HourMinuteText(h, m), true) == Returned(ClockText(h, m, false))
    ensures Denotes(FormatStaticTime(HourMinuteText(h, m), true).result, (h % 12) * 60 + m)
  {
    HourMinuteReads(h, m);
    FormatStaticText(HourMinuteText(h, m), h, m, true);
    ParseClockText(h, m, false);
  }

  /** The example of the UP-route rule: 17:00 is shown as 05:00 AM. */
  lemma UpRouteAfternoonExample()
    ensures FormatStaticTime("17:00", true) == Returned("05:00 AM")
  {
    SeventeenHundred();
    UpRouteIsAlwaysAm(17, 0);
  }

  lemma SeventeenHundred()
    ensures HourMinuteText(17, 0) == "17:00" && ClockText(17, 0, false) == "05:00 AM"
  {
    assert TwoDigits(17) == "17";
    assert TwoDigits(0) == "00";
    assert TwoDigits(Clock12(17)) == "05";
  }

  /** "--:--" mentions no period. */
  lemma PlaceholderNoPeriod()
    ensures !MentionsAmPm(Placeholder)
  {
    assert 'A' !in Placeholder && 'P' !in Placeholder;
    NoPairWithout(Upper(Placeholder), 'A', 'M');
    NoPairWithout(Upper(Placeholder), 'P', 'M');
  }

  /** "--:--" has no readable hour. */
  lemma PlaceholderUnreadable()
    ensures ReadHourMinute(Placeholder) == None
  {
    assert Placeholder == "--" + [':'] + "--";
    SplitAround("--", "--", ':');
    assert !AllDigits(Trim("--"));
  }

  /** On a DOWN route a static time that formatStaticTime returns is
      formatted exactly as to12HourFormat formats it; where formatStaticTime
      throws (no colon, a numeric hour), to12HourFormat shows the
      placeholder. */
  lemma DownRouteIsTwelveHour(s: string)
    ensures FormatStaticTime(s, false).Returned? ==> FormatStaticTime(s, false).result == To12HourFormat(s)
    ensures FormatStaticTime(s, false).Threw? ==> To12HourFormat(s) == Placeholder
  {
    if FormatStaticTime(s, false).Threw? {
      assert Placeholder[2] == ':';
      SplitCount(s, ':');
    } else if s == Placeholder {
      PlaceholderNoPeriod();
      PlaceholderUnreadable();
    }
  }

  /** The 12-hour text names its period. */
  lemma ClockTextPeriod(h: nat, m: nat, pm: bool)
    ensures MentionsAmPm(ClockText(h, m, pm))
  {
    var t := ClockText(h, m, pm);
    ClockTextUpper(h, m, pm);
    assert t == TwoDigits(Clock12(h)) + ":" + TwoDigits(m) + " " + (if pm then "PM" else "AM");
    HasPairAt(t, |t| - 2, if pm then 'P' else 'A', 'M');
  }

  /** to12HourFormat never yields a 24-hour text: its result is the
      placeholder or names a period, and a text it changes becomes the
      12-hour clock of the hour and minute it reads as. */
  lemma To12HourFormatHasPeriod(s: string)
    ensures To12HourFormat(s) == Placeholder || MentionsAmPm(To12HourFormat(s))
    ensures To12HourFormat(s) != s && To12HourFormat(s) != Placeholder ==>
      ReadHourMinute(s).Some? &&
      To12HourFormat(s) == ClockText(ReadHourMinute(s).value.0, ReadHourMinute(s).value.1,
                                     ReadHourMinute(s).value.0 >= 12)
  {
    match ReadHourMinute(s)
    case Some((h, m)) => ClockTextPeriod(h, m, h >= 12);
    case None =>
  }

  /** formatStaticTime, where it returns, yields the placeholder or a text
      that names a period. */
  lemma FormatStaticHasPeriod(s: string, isUpRoute: bool)
    requires FormatStaticTime(s, isUpRoute).Returned?
    ensures FormatStaticTime(s, isUpRoute).result == Placeholder ||
            MentionsAmPm(FormatStaticTime(s, isUpRoute).result)
  {
    match ReadHourMinute(s)
    case Some((h, m)) => ClockTextPeriod(h, m, !isUpRoute && h >= 12);
    case None =>
  }

  /** minutesToDisplay shows null as the placeholder and any other minute
      as the 12-hour clock of its time of day. */
  lemma DisplayIsClockText(mins: Option<int>)
    ensures mins.None? ==> MinutesToDisplay(mins) == Placeholder
    ensures mins.Some? ==>
      var n := mins.value % MinutesPerDay;
      MinutesToDisplay(mins) == ClockText(n / 60, n % 60, n / 60 >= 12)
  {
    if mins.Some? {
      var n := mins.value % MinutesPerDay;
      To12HourFormatOfHourMinute(n / 60, n % 60);
    }
  }
}

=== FILE: eta.dfy ===
/** The two ETA projectors of the schedule screen
    (screens/ScheduleScreen.jsx:207-294). ETAs are the 12-hour texts shown
    beside each stop; a stop without one shows the placeholder. */
module EtaProjector {
  import opened Wrappers
  import opened Text
  import opened ScheduleTime
  import opened ClockFacts
  import opened Routes

  // ---------------------------------------------------------------------
  // The arrival-status map

  /** The server's `arrival_status` object: its entries in key order, each
      mapping a 1-based stop number (as text) to the time the bus reached
      that stop. A JavaScript object has no repeated keys. */
  type ArrivalStatus = seq<(string, string)>

  /** `status[key]`: the value stored under `key`, if any. */
  function StatusAt(status: ArrivalStatus, key: string): (r: Option<string>)
    ensures r.Some? ==> exists i :: 0 <= i < |status| && status[i] == (key, r.value)
    ensures r.None? ==> forall i :: 0 <= i < |status| ==> status[i].0 != key
  {
    if status == [] then None
    else if status[0].0 == key then Some(status[0].1)
    else
      var r := StatusAt(status[1..], key);
      assert forall i :: 1 <= i < |status| ==> status[i] == status[1..][i - 1];
      r
  }

  /** The keys that read as numbers (`Object.keys(...).map(Number)` without
      the NaNs), in key order. */
  function NumericKeys(status: ArrivalStatus): (keys: seq<nat>)
    ensures forall i :: 0 <= i < |status| && ToNumber(status[i].0).Some? ==>
      ToNumber(status[i].0).value in keys
  {
    if status == [] then []
    else
      var rest := NumericKeys(status[1..]);
      assert forall i :: 1 <= i < |status| ==> status[i] == status[1..][i - 1];
      match ToNumber(status[0].0)
      case Some(n) => [n] + rest
      case None => rest
  }

  /** `Math.max(...keys)`. */
  function MaxOf(keys: seq<nat>): (r: nat)
    requires keys != []
    ensures r in keys && forall k :: k in keys ==> k <= r
  {
    if |keys| == 1 then keys[0]
    else
      var m := MaxOf(keys[1..]);
      assert forall k :: k in keys ==> k == keys[0] || k in keys[1..];
      if keys[0] > m then keys[0] else m
  }

  /** The highest stop number the server has reported. */
  function LatestSeq(status: ArrivalStatus): nat
    requires NumericKeys(status) != []
  {
    MaxOf(NumericKeys(status))
  }

  /** `arrivalStatusMap[String(latestSeq)]`, an absent value read as "". */
  function LatestReport(status: ArrivalStatus): string
    requires NumericKeys(status) != []
  {
    StatusAt(status, NatToString(LatestSeq(status))).GetOr("")
  }

  /** The conditions under which the checkpoint projector produces ETAs:
      a non-empty map and route, at least one numeric key, the highest
      stop number naming a stop of the route, and a readable time there. */
  predicate Projectable(status: ArrivalStatus, stops: seq<Stop>) {
    |status| > 0 && |stops| > 0 && NumericKeys(status) != [] &&
    1 <= LatestSeq(status) <= |stops| &&
    ParseTimeToMinutes(LatestReport(status)).Some?
  }

  /** Every numeric key is the number of some key of the map. */
  lemma {:induction false} NumericKeysFromEntries(status: ArrivalStatus, k: nat)
    requires k in NumericKeys(status)
    ensures exists i :: 0 <= i < |status| && ToNumber(status[i].0) == Some(k)
  {
    if ToNumber(status[0].0) != Some(k) {
      NumericKeysFromEntries(status[1..], k);
      var i :| 0 <= i < |status[1..]| && ToNumber(status[1..][i].0) == Some(k);
      assert status[i + 1] == status[1..][i];
    }
  }

  /** `Number(String(n))` is `n`. */
  lemma KeyReadsBack(n: nat)
    ensures ToNumber(NatToString(n)) == Some(n)
  {
    TrimUnpadded(NatToString(n));
    NatToStringValue(n);
  }

  /** No key appears twice, as in a JavaScript object. */
  predicate DistinctKeys(status: ArrivalStatus) {
    forall a, b :: 0 <= a < b < |status| ==> status[a].0 != status[b].0
  }

  /** A map whose highest numeric key `n` names a stop of the route and
      holds a readable time `t` is projected from that stop: `n` is the
      latest stop number and `t` the latest report. */
  lemma CheckpointAtHighestStop(status: ArrivalStatus, stops: seq<Stop>, i: nat, n: nat, t: string)
    requires DistinctKeys(status)
    requires i < |status| && status[i] == (NatToString(n), t)
    requires forall j :: 0 <= j < |status| && ToNumber(status[j].0).Some? ==> ToNumber(status[j].0).value <= n
    requires 1 <= n <= |stops| && ParseTimeToMinutes(t).Some?
    ensures Projectable(status, stops)
    ensures LatestSeq(status) == n && LatestReport(status) == t
  {
    var key := NatToString(n);
    KeyReadsBack(n);
    assert n in NumericKeys(status);
    var latest := MaxOf(NumericKeys(status));
    NumericKeysFromEntries(status, latest);
    var j :| 0 <= j < |status| && ToNumber(status[j].0) == Some(latest);
    assert latest == n;
    var found := StatusAt(status, key);
    assert found.Some?;
    var k :| 0 <= k < |status| && status[k] == (key, found.value);
    assert k == i;
  }

  // ---------------------------------------------------------------------
  // Per-stop ETAs

  /** JavaScript `a || b` on strings. */
  function OrElse(a: string, b: string): (r: string)
    ensures a != "" ==> r == a
    ensures a == "" ==> r == b
  {
    if a != "" then a else b
  }

  /** The static text a stop's schedule is read from: its arrival time,
      else its departure time, else the placeholder. */
  function ScheduleText(stop: Stop): string {
    OrElse(OrElse(stop.arrivalTime, stop.departureTime), Placeholder)
  }

  /** `parseTimeToMinutes(formatStaticTime(s, isUpRoute))`: the minute a
      static time is read as, `Threw` when formatStaticTime throws on it. */
  function StaticMinutes(s: string, isUpRoute: bool): Outcome<Option<int>> {
    match FormatStaticTime(s, isUpRoute)
    case Threw => Threw
    case Returned(t) => Returned(ParseTimeToMinutes(t))
  }

  /** The scheduled minute of a stop, read through the static-time format:
      its arrival time, else its departure time. */
  function ScheduledMinutes(stop: Stop, isUpRoute: bool): Outcome<Option<int>> {
    StaticMinutes(ScheduleText(stop), isUpRoute)
  }

  /** A stop whose schedule reads as hour `h` (below 24) and minute `m`
      is scheduled at that minute on a DOWN route, and on an UP route at
      the same minute of the morning (twelve hours early from noon on). */
  lemma ScheduledMinutesOfClock(stop: Stop, h: nat, m: nat, isUpRoute: bool)
    requires ReadsAsTwentyFour(ScheduleText(stop), h, m) && h < 24
    ensures ScheduledMinutes(stop, isUpRoute).Returned?
    ensures ScheduledMinutes(stop, isUpRoute).result.Some?
    ensures !isUpRoute ==> ScheduledMinutes(stop, isUpRoute).result.value == h * 60 + m
    ensures isUpRoute ==> ScheduledMinutes(stop, isUpRoute).result.value == (h % 12) * 60 + m
  {
    var pm := !isUpRoute && h >= 12;
    FormatStaticText(ScheduleText(stop), h, m, isUpRoute);
    ParseClockText(h, m, pm);
    assert ScheduledMinutes(stop, isUpRoute) == Returned(Some(TwelveHourMinutes(h, m, pm)));
    TwelveHourAgrees(h, m);
  }

  /** The ETA of stop `index`, which the bus has already passed: the time
      the server reported under its 1-based stop number when there is one,
      else its static arrival time. */
  function PassedEta(status: ArrivalStatus, stops: seq<Stop>, index: nat, isUpRoute: bool): Outcome<string>
    requires index < |stops|
  {
    var reported := StatusAt(status, NatToString(index + 1));
    if reported.Some? && reported.value != "" then Returned(To12HourFormat(reported.value))
    else FormatStaticTime(stops[index].arrivalTime, isUpRoute)
  }

  /** A passed stop with a report shows it in 12-hour form, and a report
      that reads as "HH:MM" shows a text that reads back as that minute.
      A passed stop without one shows its static arrival time, which reads
      back as the minute the projector schedules the stop at; the
      projector throws on it exactly where formatStaticTime does. */
  lemma PassedEtaMeaning(status: ArrivalStatus, stops: seq<Stop>, index: nat, isUpRoute: bool,
                         h: nat, m: nat)
    requires index < |stops|
    ensures var reported := StatusAt(status, NatToString(index + 1));
      reported.Some? && reported.value != "" ==>
        PassedEta(status, stops, index, isUpRoute) == Returned(To12HourFormat(reported.value)) &&
        (ReadsAsTwentyFour(reported.value, h, m) && h < 24 ==>
          Denotes(PassedEta(status, stops, index, isUpRoute).result, h * 60 + m))
    ensures var reported := StatusAt(status, NatToString(index + 1));
      !(reported.Some? && reported.value != "") && stops[index].arrivalTime != "" ==>
        (PassedEta(status, stops, index, isUpRoute).Threw? <==>
           ScheduledMinutes(stops[index], isUpRoute).Threw?) &&
        (PassedEta(status, stops, index, isUpRoute).Returned? ==>
           ScheduledMinutes(stops[index], isUpRoute) ==
             Returned(ParseTimeToMinutes(PassedEta(status, stops, index, isUpRoute).result)))
  {
    var reported := StatusAt(status, NatToString(index + 1));
    if reported.Some? && reported.value != "" && ReadsAsTwentyFour(reported.value, h, m) && h < 24 {
      TwelveHourRoundTripText(reported.value, h, m);
    }
  }

  /** The minute `base` moved by the gap between the scheduled minutes
      `from` and `to`: `latestReportedMins + (scheduledMinsJ -
      latestScheduledMins)` in the checkpoint projector and
      `scheduledMinutes + (currentMinutes - busStartMinutes)` in the
      fallback. */
  function ShiftMinutes(base: int, from: int, to: int): int {
    base + (to - from)
  }

  /** The ETA of a stop ahead of the latest checkpoint, given the reported
      minute at the checkpoint and the scheduled minutes of the stop and
      of the checkpoint. */
  function AheadEta(reported: int, scheduled: Option<int>, anchor: Option<int>): string {
    if scheduled.None? || anchor.None? then Placeholder
    else MinutesToDisplay(Some(ShiftMinutes(reported, anchor.value, scheduled.value)))
  }

  /** One turn of the checkpoint projector's second loop for `stop`:
      `Threw` when reading its schedule throws, else its AheadEta. */
  function AheadStop(reported: int, stop: Stop, anchor: Option<int>, isUpRoute: bool): (r: Outcome<string>)
    ensures r.Threw? <==> ScheduledMinutes(stop, isUpRoute).Threw?
  {
    match ScheduledMinutes(stop, isUpRoute)
    case Threw => Threw
    case Returned(scheduled) => Returned(AheadEta(reported, scheduled, anchor))
  }

  /** The result of the checkpoint projector: one ETA per stop and the
      index of the latest reported stop. */
  datatype Projection = Projection(etas: seq<string>, latestIndex: nat)

  /** The checkpoint projector, with `latest` the latest reported stop,
      throws: formatStaticTime throws on the static arrival time of a
      passed stop without a report, or on the schedule of the latest
      reported stop or of a stop ahead of it. */
  predicate ProjectionThrows(status: ArrivalStatus, stops: seq<Stop>, latest: nat, isUpRoute: bool)
    requires latest < |stops|
  {
    (exists i :: 0 <= i <= latest && PassedEta(status, stops, i, isUpRoute).Threw?) ||
    ScheduledMinutes(stops[latest], isUpRoute).Threw? ||
    (exists j :: latest < j < |stops| && ScheduledMinutes(stops[j], isUpRoute).Threw?)
  }

  /** `etas` and `latest` are what the checkpoint projector yields: the latest reported
      stop is the highest stop number minus one, every stop has an ETA, a
      passed stop shows its reported (or static) time and a stop ahead its
      schedule shifted by the delay at the checkpoint. */
  predicate IsProjection(status: ArrivalStatus, stops: seq<Stop>, isUpRoute: bool,
                         etas: seq<string>, latest: nat)
    requires Projectable(status, stops)
  {
    latest == LatestSeq(status) - 1 && latest < |stops| &&
    |etas| == |stops| &&
    ScheduledMinutes(stops[latest], isUpRoute).Returned? &&
    (forall i :: 0 <= i <= latest ==> PassedEta(status, stops, i, isUpRoute) == Returned(etas[i])) &&
    (forall j :: latest < j < |stops| ==>
      AheadStop(ParseTimeToMinutes(LatestReport(status)).value, stops[j],
                ScheduledMinutes(stops[latest], isUpRoute).result, isUpRoute) == Returned(etas[j]))
  }

  /** `r` is what the checkpoint projector yields: null exactly when the
      map cannot be projected, an exception exactly when formatStaticTime
      throws on a schedule it reads, and otherwise the projection. */
  predicate IsArrivalOutcome(status: ArrivalStatus, stops: seq<Stop>, isUpRoute: bool,
                             r: Outcome<Option<Projection>>) {
    (r == Returned(None) <==> !Projectable(status, stops)) &&
    (r.Threw? <==> Projectable(status, stops) &&
                   ProjectionThrows(status, stops, LatestSeq(status) - 1, isUpRoute)) &&
    (r.Returned? && r.result.Some? ==>
      Projectable(status, stops) &&
      |r.result.value.etas| == |stops| && r.result.value.latestIndex < |stops| &&
      IsProjection(status, stops, isUpRoute, r.result.value.etas, r.result.value.latestIndex))
  }

  /** calculateETAsFromArrivalStatus (screens/ScheduleScreen.jsx:207-257). */
  method CalculateEtasFromArrivalStatus(status: ArrivalStatus, stops: seq<Stop>, isUpRoute: bool)
    returns (r: Outcome<Option<Projection>>)
    ensures IsArrivalOutcome(status, stops, isUpRoute, r)
  {
    if |status| == 0 || |stops| == 0 {
      return Returned(None);
    }
    var keys := NumericKeys(status);
    if keys == [] {
      return Returned(None);
    }
    var latestSeq := MaxOf(keys);
    if latestSeq < 1 || latestSeq > |stops| {
      return Returned(None);
    }
    var latestIndex: nat := latestSeq - 1;
    var reportedMins := ParseTimeToMinutes(StatusAt(status, NatToString(latestSeq)).GetOr(""));
    if reportedMins.None? {
      return Returned(None);
    }

    var projection := ProjectFromCheckpoint(status, stops, latestIndex, reportedMins.value, isUpRoute);
    if projection.Threw? {
      return Threw;
    }
    return Returned(Some(projection.result));
  }

  /** The two loops of calculateETAsFromArrivalStatus
      (screens/ScheduleScreen.jsx:225-256), once the latest reported stop
      and its reported minute are known. */
  method ProjectFromCheckpoint(status: ArrivalStatus, stops: seq<Stop>, latestIndex: nat,
                               reported: int, isUpRoute: bool)
    returns (r: Outcome<Projection>)
    requires Projectable(status, stops)
    requires latestIndex == LatestSeq(status) - 1
    requires reported == ParseTimeToMinutes(LatestReport(status)).value
    ensures r.Threw? <==> ProjectionThrows(status, stops, latestIndex, isUpRoute)
    ensures r.Returned? ==> r.result.latestIndex == latestIndex
    ensures r.Returned? ==> IsProjection(status, stops, isUpRoute, r.result.etas, latestIndex)
  {
    var passed := PassedStopEtas(status, stops, latestIndex, isUpRoute);
    if passed.Threw? {
      return Threw;
    }
    var anchor := ScheduledMinutes(stops[latestIndex], isUpRoute);
    if anchor.Threw? {
      return Threw;
    }
    var etas := AheadStopEtas(passed.result, stops, reported, latestIndex, anchor.result, isUpRoute);
    if etas.Threw? {
      return Threw;
    }
    ProjectionOfParts(status, stops, isUpRoute, latestIndex, reported, passed.result, anchor.result, etas.result);
    NoThrowFromParts(status, stops, isUpRoute, latestIndex, reported, anchor.result);
    return Returned(Projection(etas.result, latestIndex));
  }

  /** The two loops' results make up the projection. */
  lemma ProjectionOfParts(status: ArrivalStatus, stops: seq<Stop>, isUpRoute: bool, latest: nat,
                          reported: int, passed: seq<string>, anchor: Option<int>, etas: seq<string>)
    requires Projectable(status, stops)
    requires latest == LatestSeq(status) - 1
    requires reported == ParseTimeToMinutes(LatestReport(status)).value
    requires |passed| == latest + 1
    requires forall k :: 0 <= k <= latest ==> PassedEta(status, stops, k, isUpRoute) == Returned(passed[k])
    requires ScheduledMinutes(stops[latest], isUpRoute) == Returned(anchor)
    requires |etas| == |stops| && forall k :: 0 <= k <= latest ==> etas[k] == passed[k]
    requires forall k :: latest < k < |stops| ==>
      AheadStop(reported, stops[k], anchor, isUpRoute) == Returned(etas[k])
    ensures IsProjection(status, stops, isUpRoute, etas, latest)
  {
  }

  /** Where both loops and the checkpoint's schedule return, the projector
      does not throw. */
  lemma NoThrowFromParts(status: ArrivalStatus, stops: seq<Stop>, isUpRoute: bool, latest: nat,
                         reported: int, anchor: Option<int>)
    requires latest < |stops|
    requires forall k :: 0 <= k <= latest ==> PassedEta(status, stops, k, isUpRoute).Returned?
    requires ScheduledMinutes(stops[latest], isUpRoute) == Returned(anchor)
    requires forall k :: latest < k < |stops| ==> AheadStop(reported, stops[k], anchor, isUpRoute).Returned?
    ensures !ProjectionThrows(status, stops, latest, isUpRoute)
  {
    forall j | latest < j < |stops| ensures !ScheduledMinutes(stops[j], isUpRoute).Threw? {
      assert AheadStop(reported, stops[j], anchor, isUpRoute).Returned?;
    }
  }

  /** The first loop of calculateETAsFromArrivalStatus
      (screens/ScheduleScreen.jsx:227-234): the ETAs of the stops up to and
      including the latest reported one, or `Threw` at the first stop
      formatStaticTime throws on. */
  method PassedStopEtas(status: ArrivalStatus, stops: seq<Stop>, latestIndex: nat, isUpRoute: bool)
    returns (r: Outcome<seq<string>>)
    requires latestIndex < |stops|
    ensures r.Threw? ==> exists k :: 0 <= k <= latestIndex && PassedEta(status, stops, k, isUpRoute).Threw?
    ensures r.Returned? ==> |r.result| == latestIndex + 1
    ensures r.Returned? ==>
      forall k :: 0 <= k <= latestIndex ==> PassedEta(status, stops, k, isUpRoute) == Returned(r.result[k])
  {
    var etas := [];
    ghost var passed := (k: nat) =>
      if k < |stops| then PassedEta(status, stops, k, isUpRoute) else Threw;
    var i := 0;
    while i <= latestIndex
      invariant i <= latestIndex + 1 && FilledBy(etas, [], i, passed)
    {
      var eta := PassedStopEta(status, stops, i, isUpRoute);
      if eta.Threw? {
        return Threw;
      }
      FilledBySnoc(etas, [], i, passed, eta.result);
      etas := etas + [eta.result];
      i := i + 1;
    }
    return Returned(etas);
  }

  /** One turn of the first loop (screens/ScheduleScreen.jsx:228-233). */
  method PassedStopEta(status: ArrivalStatus, stops: seq<Stop>, i: nat, isUpRoute: bool)
    returns (eta: Outcome<string>)
    requires i < |stops|
    ensures eta == PassedEta(status, stops, i, isUpRoute)
  {
    var reported := StatusAt(status, NatToString(i + 1));
    if reported.Some? && reported.value != "" {
      eta := Returned(To12HourFormat(reported.value));
    } else {
      eta := FormatStaticTime(stops[i].arrivalTime, isUpRoute);
    }
  }

  /** The second loop of calculateETAsFromArrivalStatus
      (screens/ScheduleScreen.jsx:236-254): extends the passed stops' ETAs
      with those of the stops ahead, leaving the passed ones as they are,
      or `Threw` at the first stop ahead whose schedule formatStaticTime
      throws on. */
  method AheadStopEtas(passed: seq<string>, stops: seq<Stop>, reported: int, latestIndex: nat,
                       anchor: Option<int>, isUpRoute: bool)
    returns (r: Outcome<seq<string>>)
    requires latestIndex < |stops| && |passed| == latestIndex + 1
    ensures r.Threw? ==> exists k :: latestIndex < k < |stops| && ScheduledMinutes(stops[k], isUpRoute).Threw?
    ensures r.Returned? ==> |r.result| == |stops|
    ensures r.Returned? ==> forall k :: 0 <= k <= latestIndex ==> r.result[k] == passed[k]
    ensures r.Returned? ==> forall k :: latestIndex < k < |stops| ==>
      AheadStop(reported, stops[k], anchor, isUpRoute) == Returned(r.result[k])
  {
    var etas := passed;
    ghost var ahead := (k: nat) =>
      if k < |stops| then AheadStop(reported, stops[k], anchor, isUpRoute) else Threw;
    var j := latestIndex + 1;
    while j < |stops|
      invariant j <= |stops| && FilledBy(etas, passed, j, ahead)
    {
      var eta := AheadStopEta(reported, stops[j], anchor, isUpRoute);
      if eta.Threw? {
        return Threw;
      }
      FilledBySnoc(etas, passed, j, ahead, eta.result);
      etas := etas + [eta.result];
      j := j + 1;
    }
    return Returned(etas);
  }

  /** The first `j` entries of `etas` are filled in: those of `passed`
      first, then the value `each` returns for every later index. */
  ghost predicate FilledBy<T>(etas: seq<T>, passed: seq<T>, j: nat, each: nat -> Outcome<T>) {
    |passed| <= j && |etas| == j &&
    (forall k :: 0 <= k < |passed| ==> etas[k] == passed[k]) &&
    (forall k: nat :: |passed| <= k < j ==> each(k) == Returned(etas[k]))
  }

  /** Appending the next index's entry keeps the prefix filled in. */
  lemma FilledBySnoc<T>(etas: seq<T>, passed: seq<T>, j: nat, each: nat -> Outcome<T>, x: T)
    requires FilledBy(etas, passed, j, each) && each(j) == Returned(x)
    ensures FilledBy(etas + [x], passed, j + 1, each)
  {
    assert forall k :: 0 <= k < j ==> (etas + [x])[k] == etas[k];
  }

  /** One turn of the second loop (screens/ScheduleScreen.jsx:244-253). */
  method AheadStopEta(reported: int, stop: Stop, anchor: Option<int>, isUpRoute: bool)
    returns (eta: Outcome<string>)
    ensures eta == AheadStop(reported, stop, anchor, isUpRoute)
  {
    var scheduled := ScheduledMinutes(stop, isUpRoute);
    if scheduled.Threw? {
      eta := Threw;
    } else if scheduled.result.None? || anchor.None? {
      eta := Returned(Placeholder);
    } else {
      var etaMins := ShiftMinutes(reported, anchor.value, scheduled.result.value);
      eta := Returned(MinutesToDisplay(Some(etaMins)));
    }
  }

  /** A stop ahead of the checkpoint whose schedule and the checkpoint's are
      both readable shows the reported time shifted by the scheduled gap
      between the two stops. Otherwise it shows the placeholder. */
  lemma AheadEtaMeaning(reported: int, scheduled: Option<int>, anchor: Option<int>)
    ensures scheduled.None? || anchor.None? ==> AheadEta(reported, scheduled, anchor) == Placeholder
    ensures scheduled.Some? && anchor.Some? ==>
      Denotes(AheadEta(reported, scheduled, anchor),
              ShiftMinutes(reported, anchor.value, scheduled.value) % MinutesPerDay)
  {
    if scheduled.Some? && anchor.Some? {
      DisplayRoundTrip(ShiftMinutes(reported, anchor.value, scheduled.value));
    }
  }

  /** The delay observed at the checkpoint is carried forward unchanged: a
      projected stop's ETA minus its scheduled minute equals the reported
      minute minus the checkpoint's scheduled minute, modulo a day. */
  lemma AheadEtaKeepsDelay(reported: int, scheduled: int, anchor: int, eta: int)
    requires Denotes(AheadEta(reported, Some(scheduled), Some(anchor)), eta)
    ensures (eta - scheduled) % MinutesPerDay == (reported - anchor) % MinutesPerDay
  {
    AheadEtaMeaning(reported, Some(scheduled), Some(anchor));
    DenotesUnique(AheadEta(reported, Some(scheduled), Some(anchor)), eta,
                  ShiftMinutes(reported, anchor, scheduled) % MinutesPerDay);
    ShiftKeepsGap(reported, anchor, scheduled, eta);
  }

  /** A text reads as at most one minute. */
  lemma DenotesUnique(s: string, a: int, b: int)
    requires Denotes(s, a) && Denotes(s, b)
    ensures a == b
  {
  }

  /** Arithmetic step of AheadEtaKeepsDelay. */
  lemma ShiftKeepsGap(base: int, from: int, to: int, shown: int)
    requires shown == ShiftMinutes(base, from, to) % MinutesPerDay
    ensures (shown - to) % MinutesPerDay == (base - from) % MinutesPerDay
  {
    var q := ShiftMinutes(base, from, to) / MinutesPerDay;
    assert shown - to == (base - from) - MinutesPerDay * q;
  }

  // ---------------------------------------------------------------------
  // The schedule-shift fallback

  /** JavaScript truthiness of a coordinate after parseFloat: None stands
      for NaN, and 0 is falsy too. */
  predicate IsSetCoordinate(x: Option<real>) {
    x.Some? && x.value != 0.0
  }

  /** The scheduled minute of a stop's static arrival time, if readable;
      `Threw` when formatStaticTime throws on it. */
  function ArrivalMinutes(stop: Stop, isUpRoute: bool): Outcome<Option<int>> {
    StaticMinutes(stop.arrivalTime, isUpRoute)
  }

  /** The fallback ETA of a stop after the first when the first departure
      is at minute `start` and the clock reads `now`: its scheduled arrival
      shifted by the lateness `now - start`, or the placeholder when the
      arrival time is missing or unreadable. (The first stop shows `now`.) */
  function ShiftedEta(stop: Stop, start: int, now: int, isUpRoute: bool): Outcome<string> {
    if stop.arrivalTime == "" then Returned(Placeholder)
    else
      match ArrivalMinutes(stop, isUpRoute)
      case Threw => Threw
      case Returned(None) => Returned(Placeholder)
      case Returned(Some(scheduled)) =>
        Returned(MinutesToDisplay(Some(ShiftMinutes(scheduled, start, now))))
  }

  /** The minute of the first stop's departure: null when the route has no
      first stop or it has no departure time or the time is unreadable,
      `Threw` when formatStaticTime throws on it. */
  function StartMinutes(stops: seq<Stop>, isUpRoute: bool): Outcome<Option<int>> {
    if stops == [] || stops[0].departureTime == "" then Returned(None)
    else StaticMinutes(stops[0].departureTime, isUpRoute)
  }

  /** `etas` is what the fallback yields for a first departure at `start`
      and the clock at `now`: one ETA per stop, the first showing the clock
      and each later one its shifted schedule. */
  predicate IsShiftedSchedule(stops: seq<Stop>, start: int, now: int, isUpRoute: bool, etas: seq<string>) {
    |etas| == |stops| &&
    (|stops| > 0 ==> etas[0] == MinutesToDisplay(Some(now))) &&
    forall k :: 0 < k < |stops| ==> ShiftedEta(stops[k], start, now, isUpRoute) == Returned(etas[k])
  }

  /** No stop after the first makes the fallback's forEach throw. */
  predicate ShiftedReturns(stops: seq<Stop>, start: int, now: int, isUpRoute: bool) {
    forall k :: 0 < k < |stops| ==> ShiftedEta(stops[k], start, now, isUpRoute).Returned?
  }

  /** The guards the fallback checks before reading any time: a usable
      fix and no ETAs computed yet. */
  predicate FallbackGuards(lat: Option<real>, lon: Option<real>, etaCalculated: bool) {
    IsSetCoordinate(lat) && IsSetCoordinate(lon) && !etaCalculated
  }

  /** The conditions under which the fallback gets as far as its forEach:
      the guards hold and the first departure is readable. */
  predicate FallbackApplies(stops: seq<Stop>, lat: Option<real>, lon: Option<real>,
                            etaCalculated: bool, isUpRoute: bool) {
    FallbackGuards(lat, lon, etaCalculated) &&
    StartMinutes(stops, isUpRoute).Returned? && StartMinutes(stops, isUpRoute).result.Some?
  }

  /** The fallback throws: past its guards, formatStaticTime throws on the
      first departure, or on the arrival time of a later stop. */
  predicate FallbackThrows(stops: seq<Stop>, lat: Option<real>, lon: Option<real>,
                           etaCalculated: bool, now: int, isUpRoute: bool) {
    FallbackGuards(lat, lon, etaCalculated) &&
    (StartMinutes(stops, isUpRoute).Threw? ||
     (FallbackApplies(stops, lat, lon, etaCalculated, isUpRoute) &&
      !ShiftedReturns(stops, StartMinutes(stops, isUpRoute).result.value, now, isUpRoute)))
  }

  /** `r` is what the fallback yields: null exactly when a guard fails or
      the first departure is missing or unreadable, an exception exactly
      when formatStaticTime throws on a time it reads, and otherwise the
      shifted schedule. */
  predicate IsFallbackOutcome(stops: seq<Stop>, lat: Option<real>, lon: Option<real>,
                              etaCalculated: bool, now: int, isUpRoute: bool,
                              r: Outcome<Option<seq<string>>>) {
    (r == Returned(None) <==>
      !FallbackGuards(lat, lon, etaCalculated) || StartMinutes(stops, isUpRoute) == Returned(None)) &&
    (r.Threw? <==> FallbackThrows(stops, lat, lon, etaCalculated, now, isUpRoute)) &&
    (r.Returned? && r.result.Some? ==>
      FallbackApplies(stops, lat, lon, etaCalculated, isUpRoute) &&
      IsShiftedSchedule(stops, StartMinutes(stops, isUpRoute).result.value, now, isUpRoute, r.result.value))
  }

  /** With ETAs already computed the fallback yields null. */
  lemma FallbackOnceOnly(stops: seq<Stop>, lat: Option<real>, lon: Option<real>, now: int, isUpRoute: bool)
    ensures IsFallbackOutcome(stops, lat, lon, true, now, isUpRoute, Returned(None))
  {
  }

  /** calculateETAsFallback (screens/ScheduleScreen.jsx:260-294). `now` is
      the clock's minute of the day. The route's stops are [] when the
      route has none; a missing list and an empty one both lack a first
      departure, so both give null. */
  method CalculateEtasFallback(stops: seq<Stop>, lat: Option<real>, lon: Option<real>,
                               etaCalculated: bool, now: nat, isUpRoute: bool)
    returns (r: Outcome<Option<seq<string>>>)
    requires now < MinutesPerDay
    ensures IsFallbackOutcome(stops, lat, lon, etaCalculated, now, isUpRoute, r)
  {
    if !IsSetCoordinate(lat) || !IsSetCoordinate(lon) || etaCalculated {
      return Returned(None);
    }
    if stops == [] || stops[0].departureTime == "" {
      return Returned(None);
    }
    var start := StaticMinutes(stops[0].departureTime, isUpRoute);
    assert start == StartMinutes(stops, isUpRoute);
    match start
    case Threw =>
      return Threw;
    case Returned(None) =>
      return Returned(None);
    case Returned(Some(minutes)) =>
      var etas := ShiftedStopEtas(stops, minutes, now, isUpRoute);
      r := if etas.Threw? then Threw else Returned(Some(etas.result));
      FallbackFromParts(stops, lat, lon, etaCalculated, now, isUpRoute, minutes, etas);
  }

  /** Past the guards and with a readable first departure at `minutes`,
      the fallback yields what its forEach yields. */
  lemma FallbackFromParts(stops: seq<Stop>, lat: Option<real>, lon: Option<real>, etaCalculated: bool,
                          now: int, isUpRoute: bool, minutes: int, etas: Outcome<seq<string>>)
    requires FallbackGuards(lat, lon, etaCalculated)
    requires StartMinutes(stops, isUpRoute) == Returned(Some(minutes))
    requires etas.Threw? ==> !ShiftedReturns(stops, minutes, now, isUpRoute)
    requires etas.Returned? ==> IsShiftedSchedule(stops, minutes, now, isUpRoute, etas.result)
    ensures IsFallbackOutcome(stops, lat, lon, etaCalculated, now, isUpRoute,
                              if etas.Threw? then Threw else Returned(Some(etas.result)))
  {
  }

  /** The forEach of calculateETAsFallback (screens/ScheduleScreen.jsx:271-291):
      the first stop shows the clock, every later one its schedule shifted
      by `now - start`; `Threw` at the first stop formatStaticTime throws
      on. */
  method ShiftedStopEtas(stops: seq<Stop>, start: int, now: int, isUpRoute: bool)
    returns (r: Outcome<seq<string>>)
    ensures r.Threw? ==> !ShiftedReturns(stops, start, now, isUpRoute)
    ensures r.Returned? ==> IsShiftedSchedule(stops, start, now, isUpRoute, r.result)
  {
    var etas := [];
    ghost var each := (k: nat) =>
      if k == 0 then Returned(MinutesToDisplay(Some(now)))
      else if k < |stops| then ShiftedEta(stops[k], start, now, isUpRoute)
      else Threw;
    var index := 0;
    while index < |stops|
      invariant index <= |stops| && FilledBy(etas, [], index, each)
    {
      var eta;
      if index == 0 {
        eta := Returned(MinutesToDisplay(Some(now)));
      } else {
        eta := ShiftedStopEta(stops[index], start, now, isUpRoute);
      }
      if eta.Threw? {
        return Threw;
      }
      FilledBySnoc(etas, [], index, each, eta.result);
      etas := etas + [eta.result];
      index := index + 1;
    }
    return Returned(etas);
  }

  /** One turn of the forEach for a stop after the first
      (screens/ScheduleScreen.jsx:278-289). */
  method ShiftedStopEta(stop: Stop, start: int, now: int, isUpRoute: bool) returns (eta: Outcome<string>)
    ensures eta == ShiftedEta(stop, start, now, isUpRoute)
  {
    if stop.arrivalTime == "" {
      eta := Returned(Placeholder);
    } else {
      var scheduled := ArrivalMinutes(stop, isUpRoute);
      if scheduled.Threw? {
        eta := Threw;
      } else if scheduled.result.None? {
        eta := Returned(Placeholder);
      } else {
        var etaMins := ShiftMinutes(scheduled.result.value, start, now);
        eta := Returned(MinutesToDisplay(Some(etaMins)));
      }
    }
  }

  /** A minute of the day is its own time of day. */
  lemma TimeOfDayMod(n: nat)
    requires n < MinutesPerDay
    ensures n % MinutesPerDay == n
  {
  }

  /** The first stop's fallback ETA reads back as the clock's minute. */
  lemma FirstStopShowsClock(now: nat)
    requires now < MinutesPerDay
    ensures Denotes(MinutesToDisplay(Some(now)), now)
  {
    DisplayRoundTrip(now);
    TimeOfDayMod(now);
  }

  /** What the fallback shows for a later stop: with a readable arrival,
      its scheduled minute shifted by `now - start`; with an unreadable
      one, the placeholder; and it throws exactly where formatStaticTime
      throws on the arrival time. */
  lemma ShiftedEtaMeaning(stop: Stop, start: int, now: int, isUpRoute: bool)
    ensures ShiftedEta(stop, start, now, isUpRoute).Threw? <==> ArrivalMinutes(stop, isUpRoute).Threw?
    ensures ArrivalMinutes(stop, isUpRoute).Returned? && ArrivalMinutes(stop, isUpRoute).result.Some? ==>
      ShiftedEta(stop, start, now, isUpRoute).Returned? &&
      Denotes(ShiftedEta(stop, start, now, isUpRoute).result,
              ShiftMinutes(ArrivalMinutes(stop, isUpRoute).result.value, start, now) % MinutesPerDay)
    ensures ArrivalMinutes(stop, isUpRoute) == Returned(None) ==>
      ShiftedEta(stop, start, now, isUpRoute) == Returned(Placeholder)
  {
    if stop.arrivalTime == "" {
      assert FormatStaticTime(stop.arrivalTime, isUpRoute) == Returned(Placeholder);
    } else if ArrivalMinutes(stop, isUpRoute).Returned? && ArrivalMinutes(stop, isUpRoute).result.Some? {
      DisplayRoundTrip(ShiftMinutes(ArrivalMinutes(stop, isUpRoute).result.value, start, now));
    }
  }

  /** The fallback keeps the schedule's spacing: two later stops with
      readable arrivals are shown as far apart, modulo a day, as they are
      scheduled. */
  lemma ShiftedEtasKeepSpacing(a: Stop, b: Stop, start: int, now: int, isUpRoute: bool,
                               sa: int, sb: int, ea: int, eb: int)
    requires ArrivalMinutes(a, isUpRoute) == Returned(Some(sa))
    requires ArrivalMinutes(b, isUpRoute) == Returned(Some(sb))
    requires ShiftedEta(a, start, now, isUpRoute).Returned? &&
             Denotes(ShiftedEta(a, start, now, isUpRoute).result, ea)
    requires ShiftedEta(b, start, now, isUpRoute).Returned? &&
             Denotes(ShiftedEta(b, start, now, isUpRoute).result, eb)
    ensures (eb - ea) % MinutesPerDay == (sb - sa) % MinutesPerDay
  {
    ShiftedEtaValue(a, start, now, isUpRoute, sa, ea);
    ShiftedEtaValue(b, start, now, isUpRoute, sb, eb);
    SameShiftSpacing(sa, sb, start, now, ea, eb);
  }

  /** The minute a later stop's fallback ETA reads as. */
  lemma ShiftedEtaValue(stop: Stop, start: int, now: int, isUpRoute: bool, s: int, e: int)
    requires ArrivalMinutes(stop, isUpRoute) == Returned(Some(s))
    requires ShiftedEta(stop, start, now, isUpRoute).Returned? &&
             Denotes(ShiftedEta(stop, start, now, isUpRoute).result, e)
    ensures e == ShiftMinutes(s, start, now) % MinutesPerDay
  {
    ShiftedEtaMeaning(stop, start, now, isUpRoute);
    DenotesUnique(ShiftedEta(stop, start, now, isUpRoute).result, e,
                  ShiftMinutes(s, start, now) % MinutesPerDay);
  }

  /** Arithmetic step of ShiftedEtasKeepSpacing. */
  lemma SameShiftSpacing(sa: int, sb: int, start: int, now: int, ea: int, eb: int)
    requires ea == ShiftMinutes(sa, start, now) % MinutesPerDay
    requires eb == ShiftMinutes(sb, start, now) % MinutesPerDay
    ensures (eb - ea) % MinutesPerDay == (sb - sa) % MinutesPerDay
  {
    var qa := ShiftMinutes(sa, start, now) / MinutesPerDay;
    var qb := ShiftMinutes(sb, start, now) / MinutesPerDay;
    assert eb - ea == (sb - sa) + MinutesPerDay * (qa - qb);
  }
}

=== FILE: json.dfy ===
/** Loosely typed values as they arrive from the route catalogue and the live
    feed, with the JavaScript truthiness and loose-equality rules the screens
    rely on. */
module JsonValues {
  import opened Wrappers
  import opened Text

  /** A parsed JSON value. Numbers are integers here: the fields that the core
      compares or copies (ids, directions, flags) are integers or strings. */
  datatype Json =
    | JNull
    | JBool(b: bool)
    | JNum(n: int)
    | JStr(s: string)
    | JArr(items: seq<Json>)
    | JObj(fields: seq<(string, Json)>)

  /** `!!v` in JavaScript: null, false, 0 and "" are falsy; arrays and objects
      are truthy. */
  predicate Truthy(v: Json) {
    match v
    case JNull => false
    case JBool(b) => b
    case JNum(n) => n != 0
    case JStr(s) => s != ""
    case JArr(_) => true
    case JObj(_) => true
  }

  /** JavaScript `v == s` for a string `s` (the `==` the search screen uses to
      compare a route's `bus_id` with the typed bus number): a string compares
      by content, a number or boolean compares with `Number(s)`, null never
      equals a string. Arrays and objects are left unequal. */
  predicate LooselyEqualsString(v: Json, s: string) {
    match v
    case JNull => false
    case JBool(b) => ToNumber(s) == Some(if b then 1 else 0)
    case JNum(n) => ToNumber(s) == Some(n)
    case JStr(t) => t == s
    case JArr(_) => false
    case JObj(_) => false
  }

  /** The value of the first field named `key`, if any. */
  function Field(fields: seq<(string, Json)>, key: string): (r: Option<Json>)
    ensures r.Some? <==> exists i :: 0 <= i < |fields| && fields[i].0 == key
    ensures r.Some? ==> exists i :: 0 <= i < |fields| && fields[i] == (key, r.value)
  {
    if |fields| == 0 then None
    else if fields[0].0 == key then Some(fields[0].1)
    else
      var r := Field(fields[1..], key);
      assert forall i :: 1 <= i < |fields| ==> fields[i] == fields[1..][i - 1];
      r
  }

  /** The field at `i` is what `key` reads when no earlier field has that
      name. */
  lemma {:induction false} FieldAt(fields: seq<(string, Json)>, key: string, i: nat)
    requires i < |fields| && fields[i].0 == key
    requires forall j :: 0 <= j < i ==> fields[j].0 != key
    ensures Field(fields, key) == Some(fields[i].1)
  {
    if i > 0 {
      FieldAt(fields[1..], key, i - 1);
    }
  }
}

=== FILE: lists.dfy ===
/** The array built-ins the screens use on lists: `filter`, `find` and the
    `[...new Set(xs)]` de-duplication. */
module Lists {
  import opened Wrappers

  /** `a` is `b` with some elements left out, the rest in the same order. */
  predicate IsSublist<T(==)>(a: seq<T>, b: seq<T>)
    decreases |b|
  {
    if a == [] then true
    else if b == [] then false
    else (a[0] == b[0] && IsSublist(a[1..], b[1..])) || IsSublist(a, b[1..])
  }

  /** `xs.filter(p)`: exactly the elements satisfying `p`, in their order. */
  function Filter<T(==,!new)>(xs: seq<T>, p: T -> bool): (r: seq<T>)
    ensures forall x :: x in r <==> x in xs && p(x)
    ensures |r| <= |xs|
    ensures IsSublist(r, xs)
  {
    if xs == [] then []
    else if p(xs[0]) then
      var rest := Filter(xs[1..], p);
      assert ([xs[0]] + rest)[1..] == rest;
      [xs[0]] + rest
    else Filter(xs[1..], p)
  }

  /** `xs.findIndex(p)`: the first index whose element satisfies `p`, or
      None when no element does. */
  function FindIndex<T>(xs: seq<T>, p: T -> bool): (r: Option<nat>)
    ensures r.Some? ==> r.value < |xs| && p(xs[r.value])
    ensures r.Some? ==> forall j :: 0 <= j < r.value ==> !p(xs[j])
    ensures r.None? ==> forall j :: 0 <= j < |xs| ==> !p(xs[j])
  {
    if xs == [] then None
    else if p(xs[0]) then Some(0)
    else
      var r := FindIndex(xs[1..], p);
      assert forall j :: 1 <= j < |xs| ==> xs[j] == xs[1..][j - 1];
      if r.Some? then Some(r.value + 1) else None
  }

  /** `xs.find(p)`: the first element satisfying `p`, or None. */
  function Find<T>(xs: seq<T>, p: T -> bool): (r: Option<T>)
    ensures r.Some? <==> exists i :: 0 <= i < |xs| && p(xs[i])
    ensures r.Some? ==> r.value == xs[FindIndex(xs, p).value]
  {
    var i := FindIndex(xs, p);
    if i.Some? then Some(xs[i.value]) else None
  }

  /** No element appears twice. */
  predicate NoDuplicates<T(==)>(xs: seq<T>) {
    forall i, j :: 0 <= i < j < |xs| ==> xs[i] != xs[j]
  }

  /** Appending the same element to both lists keeps a sublist one, and
      appending it to the longer list only does too. */
  lemma {:induction false} SublistSnoc<T>(a: seq<T>, b: seq<T>, x: T)
    requires IsSublist(a, b)
    ensures IsSublist(a, b + [x])
    ensures IsSublist(a + [x], b + [x])
    decreases |b|
  {
    if b == [] {
      assert a == [];
      assert ([x] + [])[1..] == [];
    } else {
      assert (b + [x])[1..] == b[1..] + [x];
      if a == [] {
        SublistSnoc(a, b[1..], x);
        assert a + [x] == [x];
      } else if a[0] == b[0] && IsSublist(a[1..], b[1..]) {
        SublistSnoc(a[1..], b[1..], x);
        assert (a + [x])[1..] == a[1..] + [x];
      } else {
        SublistSnoc(a, b[1..], x);
      }
    }
  }

  /** The index of the first occurrence of `x` in `xs`. */
  function FirstIndex<T(==)>(xs: seq<T>, x: T): (i: nat)
    requires x in xs
    ensures i < |xs| && xs[i] == x && x !in xs[..i]
  {
    if xs[0] == x then 0
    else
      assert xs == [xs[0]] + xs[1..];
      var i := FirstIndex(xs[1..], x);
      assert xs[..i + 1] == [xs[0]] + xs[1..][..i];
      i + 1
  }

  /** A first occurrence in a prefix is the first occurrence in the whole. */
  lemma {:induction false} FirstIndexInPrefix<T>(xs: seq<T>, n: nat, x: T)
    requires n <= |xs| && x in xs[..n]
    ensures FirstIndex(xs, x) == FirstIndex(xs[..n], x)
  {
    if xs[0] != x {
      assert xs[..n][1..] == xs[1..][..n - 1];
      assert x in xs[1..][..n - 1];
      FirstIndexInPrefix(xs[1..], n - 1, x);
    }
  }

  /** `r` lists its elements in the order of their first occurrences in `xs`. */
  predicate InFirstOccurrenceOrder<T(==)>(r: seq<T>, xs: seq<T>) {
    (forall x :: x in r ==> x in xs) &&
    forall i, j :: 0 <= i < j < |r| ==> FirstIndex(xs, r[i]) < FirstIndex(xs, r[j])
  }

  /** `[...new Set(xs)]`: every element once, at its first occurrence, so
      the kept elements are in their order in `xs`. */
  function Dedup<T(==,!new)>(xs: seq<T>): (r: seq<T>)
    ensures forall x :: x in r <==> x in xs
    ensures NoDuplicates(r)
    ensures |r| <= |xs|
    ensures IsSublist(r, xs)
    ensures InFirstOccurrenceOrder(r, xs)
  {
    if xs == [] then []
    else
      var init := xs[..|xs| - 1];
      var d := Dedup(init);
      var last := xs[|xs| - 1];
      assert xs == init + [last];
      SublistSnoc(d, init, last);
      forall y | y in d ensures FirstIndex(xs, y) == FirstIndex(init, y) {
        FirstIndexInPrefix(xs, |xs| - 1, y);
      }
      if last in d then d
      else
        assert FirstIndex(xs, last) == |xs| - 1;
        d + [last]
  }

  /** A list without duplicates is its own de-duplication. */
  lemma {:induction false} DedupDistinct<T(!new)>(xs: seq<T>)
    requires NoDuplicates(xs)
    ensures Dedup(xs) == xs
  {
    if xs != [] {
      var init := xs[..|xs| - 1];
      assert NoDuplicates(init);
      DedupDistinct(init);
      assert xs[|xs| - 1] !in init;
      assert init + [xs[|xs| - 1]] == xs;
    }
  }
}

=== FILE: routes.dfy ===
/** The route-catalogue records the screens pass around: a route (one bus
    running one direction) and its ordered stops. */
module Routes {
  import opened Wrappers
  import opened JsonValues

  /** A position in degrees. */
  datatype Coord = Coord(lat: real, lon: real)

  /** One stop of a route. A missing time is the empty string. The screens
      read a stop's coordinates in three different ways, each kept apart:
      - `position`: `lat ?? latitude ?? latitude_str ?? lat_str` and the
        matching longitude chain after parseFloat, None when either is NaN
        (the schedule screen's stop-reached test);
      - `listPosition`: `latitude` and `longitude` after parseFloat, None
        when either is falsy or NaN (the bus list's nearest-stop search);
      - `progressPosition`: the raw `lat` and `lon` after parseFloat, None
        when `lat` is falsy or either is NaN (the schedule screen's
        progress between two stops). */
  datatype Stop = Stop(
    locationName: string,
    arrivalTime: string,
    departureTime: string,
    position: Option<Coord>,
    listPosition: Option<Coord>,
    progressPosition: Option<Coord>)

  /** A route's `stops` field: `null`, absent, or a list. Only `null` is
      dropped by the search screen's conversion; an absent field is kept. */
  datatype StopsField = NullStops | MissingStops | StopList(items: seq<Stop>)

  /** One route as the catalogue endpoint returns it. The fields the screens
      only copy, display or compare loosely keep their JSON value (an absent
      field reads as null). */
  datatype Route = Route(
    routeId: Json,
    busId: Json,
    driverId: Json,
    direction: Json,
    routeName: Json,
    src: Json,
    dest: Json,
    stops: StopsField,
    isStop: Json,
    active: Json)

  /** The stops of a route, [] when it has no list. */
  function StopsOf(r: Route): (stops: seq<Stop>)
    ensures r.stops.StopList? ==> stops == r.stops.items
    ensures !r.stops.StopList? ==> stops == []
  {
    if r.stops.StopList? then r.stops.items else []
  }

  /** A catalogue response after `res.json()`: an array of route records,
      or any other value (null, an object, a string). */
  datatype Catalogue = RouteArray(items: seq<Route>) | NotAnArray

  /** The parameters the search screen navigates to the bus list with; a
      parameter it does not pass is "" (or null for the bus number). */
  datatype BusListParams = BusListParams(
    searchType: string,
    src: string,
    dest: string,
    busNumber: Json,
    source: string,
    destination: string,
    stop: string)
}

=== FILE: schedule_time.dfy ===
/** Time-of-day helpers of the schedule screen (screens/ScheduleScreen.jsx):
    conversion between 24-hour "HH:MM" text, 12-hour "hh:mm AM|PM" text and
    minutes since midnight, the direction-dependent formatting of static
    schedule times, and the on-time/late/early text. */
module ScheduleTime {
  import opened Wrappers
  import opened Text

  /** The text shown for an unknown time. */
  const Placeholder: string := "--:--"
  const MinutesPerDay: int := 1440

  // ---------------------------------------------------------------------
  // Shared pieces

  /** `s.toUpperCase().includes("AM") || s.toUpperCase().includes("PM")`. */
  predicate MentionsAmPm(s: string) {
    HasPair(Upper(s), 'A', 'M') || HasPair(Upper(s), 'P', 'M')
  }

  /** `Number(parts[i])`; a missing part is `undefined`, whose number is NaN. */
  function PartNumber(parts: seq<string>, i: nat): Option<nat> {
    if i < |parts| then ToNumber(parts[i]) else None
  }

  /** `hours % 12 || 12`: the hour on a 12-hour dial. */
  function Clock12(h: nat): (r: nat)
    ensures 1 <= r <= 12 && r % 12 == h % 12
  {
    if h % 12 == 0 then 12 else h % 12
  }

  /** The 12-hour text "hh:mm AM" or "hh:mm PM" for hour `h` and minute `m`. */
  function ClockText(h: nat, m: nat, pm: bool): string {
    TwoDigits(Clock12(h)) + ":" + TwoDigits(m) + " " + (if pm then "PM" else "AM")
  }

  // ---------------------------------------------------------------------
  // The four conversions

  /** `s.split(":")` read as hour and minute: `Number(parts[0])` and
      `Number(parts[1])`, `None` when either is NaN. */
  function ReadHourMinute(s: string): Option<(nat, nat)> {
    var parts := Split(s, ':');
    var h, m := PartNumber(parts, 0), PartNumber(parts, 1);
    if h.Some? && m.Some? then Some((h.value, m.value)) else None
  }

  /** to12HourFormat (screens/ScheduleScreen.jsx:53-74). */
  function To12HourFormat(s: string): string {
    if s == "" || s == Placeholder then Placeholder
    else if MentionsAmPm(s) then s
    else if |Split(s, ':')| < 2 then Placeholder
    else
      match ReadHourMinute(s)
      case Some((h, m)) => ClockText(h, m, h >= 12)
      case None => Placeholder
  }

  /** `s` ends in "AM" or "PM", in any letter case (the regular expression
      `/(AM|PM)$/i`). */
  predicate EndsWithAmPm(t: string) {
    |t| >= 2 && (Upper(t[|t| - 2..]) == "AM" || Upper(t[|t| - 2..]) == "PM")
  }

  /** parseTimeToMinutes (screens/ScheduleScreen.jsx:78-99): minutes since
      midnight of a 12-hour or 24-hour text, `None` for JavaScript's null. */
  function ParseTimeToMinutes(s: string): (r: Option<int>)
    ensures s == "" || s == Placeholder ==> r == None
    ensures r.Some? ==> r.value >= 0
  {
    if s == "" || s == Placeholder then None
    else if EndsWithAmPm(Trim(s)) then ParseTwelveHour(Trim(s))
    else ParseTwentyFour(Trim(s))
  }

  /** Minutes since midnight of hour `h` and minute `m` read on a 12-hour
      dial: the hour counts modulo 12 and PM adds 12 hours. */
  function TwelveHourMinutes(h: nat, m: nat, pm: bool): nat {
    (h % 12 + (if pm then 12 else 0)) * 60 + m
  }

  /** Minutes since midnight of hour `h` and minute `m` read on a 24-hour
      dial: the hour counts modulo 24. */
  function TwentyFourMinutes(h: nat, m: nat): nat {
    (h % 24) * 60 + m
  }

  /** The AM/PM branch: the suffix and the white space before it are
      removed, the hour counts modulo 12 and a "PM" anywhere adds 12. */
  function ParseTwelveHour(t: string): (r: Option<int>)
    requires EndsWithAmPm(t)
    ensures r.Some? ==> r.value >= 0
  {
    var hm := ReadHourMinute(TrimEnd(t[..|t| - 2]));
    if hm.None? then None
    else Some(TwelveHourMinutes(hm.value.0, hm.value.1, HasPair(Upper(t), 'P', 'M')))
  }

  /** The 24-hour branch: the hour counts modulo 24. */
  function ParseTwentyFour(t: string): (r: Option<int>)
    ensures r.Some? ==> r.value >= 0
  {
    var hm := ReadHourMinute(t);
    if hm.None? then None else Some(TwentyFourMinutes(hm.value.0, hm.value.1))
  }

  /** The text `s` reads as minute `n` of the day. */
  predicate Denotes(s: string, n: int) {
    ParseTimeToMinutes(s).Some? && ParseTimeToMinutes(s).value == n
  }

  /** JavaScript's `a % b`, whose result takes the sign of `a`. */
  function JsRem(a: int, b: int): (r: int)
    requires b > 0
    ensures -b < r < b
    ensures a >= 0 ==> r == a % b
  {
    if a >= 0 then a % b else -((-a) % b)
  }

  /** `((mins % 1440) + 1440) % 1440` with JavaScript's `%`: whatever the
      sign of `x`, the result is the time of day `x` denotes. */
  function Normalize(x: int): (r: nat)
    ensures r < MinutesPerDay && r == x % MinutesPerDay
  {
    JsRemShift(x);
    JsRem(JsRem(x, MinutesPerDay) + MinutesPerDay, MinutesPerDay)
  }

  lemma JsRemShift(x: int)
    ensures JsRem(JsRem(x, MinutesPerDay) + MinutesPerDay, MinutesPerDay) == x % MinutesPerDay
  {
    if x < 0 {
      var q, rr := (-x) / MinutesPerDay, (-x) % MinutesPerDay;
      assert x == MinutesPerDay * (-q) - rr;
      if rr == 0 {
        assert x == MinutesPerDay * (-q);
      } else {
        assert x == MinutesPerDay * (-q - 1) + (MinutesPerDay - rr);
      }
    }
  }

  /** The 24-hour text "HH:MM" of hour `h` and minute `m`, each padded to
      two digits. */
  function HourMinuteText(h: nat, m: nat): string {
    TwoDigits(h) + ":" + TwoDigits(m)
  }

  /** minutesToHHMM (screens/ScheduleScreen.jsx:102-108): whatever the sign of
      `x`, the text is the hour and minute of the time of day `x` denotes. */
  function MinutesToHHMM(mins: Option<int>): (r: string)
    ensures mins.None? ==> r == Placeholder
    ensures mins.Some? ==>
      var n := mins.value % MinutesPerDay;
      n / 60 < 24 && r == HourMinuteText(n / 60, n % 60)
  {
    match mins
    case None => Placeholder
    case Some(x) =>
      var n := Normalize(x);
      HourMinuteText(n / 60, n % 60)
  }

  /** minutesToDisplay (screens/ScheduleScreen.jsx:111-113): the 12-hour text
      shown as an ETA. */
  function MinutesToDisplay(mins: Option<int>): string {
    To12HourFormat(MinutesToHHMM(mins))
  }

  /** formatStaticTime (screens/ScheduleScreen.jsx:125-150). On an UP route
      the period is always AM; on a DOWN route it follows the hour.
      (`padStart(2, "00")` pads a one-digit hour with a single "0", the same
      as `padStart(2, "0")`.) A text without a colon whose hour reads as a
      number leaves `minutes` undefined; `Number.isNaN(undefined)` is false,
      so the call `minutes.toString()` throws. */
  function FormatStaticTime(s: string, isUpRoute: bool): Outcome<string> {
    if s == "" then Returned(Placeholder)
    else if MentionsAmPm(s) then Returned(s)
    else
      match ReadHourMinute(s)
      case Some((h, m)) => Returned(ClockText(h, m, !isUpRoute && h >= 12))
      case None => if ':' !in s && ToNumber(s).Some? then Threw else Returned(Placeholder)
  }

  /** formatStaticTime throws exactly on a non-empty text that names no
      period, has no colon and whose hour reads as a number. */
  lemma FormatStaticThrows(s: string, isUpRoute: bool)
    ensures FormatStaticTime(s, isUpRoute).Threw? <==>
      s != "" && !MentionsAmPm(s) && ':' !in s && ToNumber(s).Some?
  {
    if ':' !in s {
      NoColonNoMinute(s);
    }
  }

  /** Without a colon, `split(":")` leaves no minute part to read. */
  lemma NoColonNoMinute(s: string)
    requires ':' !in s
    ensures ReadHourMinute(s) == None
  {
    SplitNone(s, ':');
  }

  // ---------------------------------------------------------------------
  // Delay classification

  /** The delay getDelayText computes: ETA minutes minus scheduled minutes,
      an unreadable time counting as 0 (`?? 0`). */
  function DelayMinutes(eta: string, scheduled: string): int {
    ParseTimeToMinutes(eta).GetOr(0) - ParseTimeToMinutes(scheduled).GetOr(0)
  }

  /** The text for a delay of `diff` minutes: within one minute either way is
      on time, later is "+N min late", earlier is "N min early", with N the
      size of the delay. */
  function DelayText(diff: int): (r: string)
    ensures r != ""
    ensures r == "On time" <==> -2 < diff < 2
    ensures StartsWith(r, "+") <==> diff >= 2
    ensures diff >= 2 ==> r == "+" + NatToString(diff) + " min late"
    ensures diff <= -2 ==> r == NatToString(-diff) + " min early"
  {
    if -2 < diff < 2 then
      assert "On time"[0] == 'O';
      "On time"
    else if diff > 0 then "+" + NatToString(diff) + " min late"
    else
      var r := NatToString(-diff) + " min early";
      assert IsDigit(r[0]);
      r
  }

  /** getDelayText (screens/ScheduleScreen.jsx:197-204). */
  function GetDelayText(eta: string, scheduled: string): (r: string)
    ensures r == "" <==> (eta == "" || eta == Placeholder || scheduled == "")
    ensures r != "" ==> r == DelayText(DelayMinutes(eta, scheduled))
  {
    if eta == "" || eta == Placeholder || scheduled == "" then ""
    else DelayText(DelayMinutes(eta, scheduled))
  }
}

=== FILE: schedule_tracker.dfy ===
/** The live state of the schedule screen (screens/ScheduleScreen.jsx:160-167,
    297-302, 366-538): which stops the bus has reached, the stop it is at,
    the ETAs shown and whether they have been computed, updated by every
    message of the live feed. */
module ScheduleTracking {
  import opened Wrappers
  import opened Routes
  import opened ScheduleTime
  import opened EtaProjector

  /** A bus within this many metres of a stop has reached it. */
  const StopReachedThresholdMeters: real := 50.0

  /** getDistance: the distance in metres between the bus and a stop. The
      Haversine formula itself is not modelled, so every operation that
      needs it takes it as a parameter. */
  type Distance = (Coord, Coord) -> real

  /** A position from the feed after parseFloat; None stands for NaN. */
  datatype Fix = Fix(lat: Option<real>, lon: Option<real>)

  /** One feed message as the handler reads it: the position (None when
      the latitude or the longitude is missing) and the arrival-status map
      ([] when the message has none). */
  datatype LiveUpdate = LiveUpdate(fix: Option<Fix>, arrivalStatus: ArrivalStatus)

  /** The position as a coordinate, when neither part is NaN. */
  function FixCoord(fix: Fix): (c: Option<Coord>)
    ensures c.Some? <==> fix.lat.Some? && fix.lon.Some?
  {
    if fix.lat.Some? && fix.lon.Some? then Some(Coord(fix.lat.value, fix.lon.value)) else None
  }

  /** The stop-reached test (screens/ScheduleScreen.jsx:388-400): the stop
      has a position, the fix is a number, and the two are at most 50 m
      apart. */
  predicate InReach(stop: Stop, fix: Fix, dist: Distance) {
    stop.position.Some? && FixCoord(fix).Some? &&
    dist(FixCoord(fix).value, stop.position.value) <= StopReachedThresholdMeters
  }

  /** The stops among the first `n` that the fix reaches. */
  function InReachBelow(stops: seq<Stop>, fix: Fix, dist: Distance, n: nat): (r: set<nat>)
    requires n <= |stops|
    ensures forall k: nat :: k in r <==> k < n && InReach(stops[k], fix, dist)
  {
    set k: nat | k < n && InReach(stops[k], fix, dist)
  }

  lemma InReachBelowStep(stops: seq<Stop>, fix: Fix, dist: Distance, n: nat)
    requires n < |stops|
    ensures InReachBelow(stops, fix, dist, n + 1) ==
      InReachBelow(stops, fix, dist, n) + (if InReach(stops[n], fix, dist) then {n} else {})
  {
  }

  /** Where the current stop index ends up after the stop-reached scan of
      the first `n` stops: markStopReached moves it to each newly reached
      stop in turn, so it is the last stop that is in reach and was not
      reached before the message, or `current` if there is none. */
  function LastMarked(stops: seq<Stop>, reached: set<nat>, fix: Fix, dist: Distance,
                      n: nat, current: nat): (r: nat)
    requires n <= |stops|
    ensures r == current || (r < n && InReach(stops[r], fix, dist) && r !in reached)
    ensures forall k: nat :: r < k < n ==> !(InReach(stops[k], fix, dist) && k !in reached)
    ensures (exists k: nat :: k < n && InReach(stops[k], fix, dist) && k !in reached) ==>
      r < n && InReach(stops[r], fix, dist) && r !in reached
  {
    if n == 0 then current
    else if InReach(stops[n - 1], fix, dist) && n - 1 !in reached then n - 1
    else LastMarked(stops, reached, fix, dist, n - 1, current)
  }

  /** The progress test of the position-based advance
      (screens/ScheduleScreen.jsx:477-531): stop `i` has a next stop, both
      have a truthy raw `lat` (and raw coordinates that read as numbers,
      without which the distances are NaN and the progress stays 0), and
      the bus's distance from stop `i` is at least the distance between
      the two stops, so the clamped progress ratio is 1. */
  predicate PastNextStop(stops: seq<Stop>, i: nat, fix: Fix, dist: Distance) {
    i + 1 < |stops| && stops[i].progressPosition.Some? && stops[i + 1].progressPosition.Some? &&
    FixCoord(fix).Some? &&
    var total := dist(stops[i].progressPosition.value, stops[i + 1].progressPosition.value);
    total > 0.0 && dist(FixCoord(fix).value, stops[i].progressPosition.value) >= total
  }

  /** The position-based progress (screens/ScheduleScreen.jsx:477-495):
      the bus's distance from stop `i` as a fraction of the distance from
      stop `i` to the next, clamped to 0..1; 0 when stop `i` is the last,
      either stop lacks a truthy raw `lat`, the fix or the stops' raw
      coordinates are NaN, or the two stops are no distance apart. It is
      a fraction, so the bus is drawn between the two stops. */
  function Progress(stops: seq<Stop>, i: nat, fix: Fix, dist: Distance): (p: real)
    ensures 0.0 <= p <= 1.0
  {
    if i + 1 < |stops| && stops[i].progressPosition.Some? && stops[i + 1].progressPosition.Some? &&
       FixCoord(fix).Some?
    then
      var total := dist(stops[i].progressPosition.value, stops[i + 1].progressPosition.value);
      var fromCurrent := dist(FixCoord(fix).value, stops[i].progressPosition.value);
      if total > 0.0 then
        var ratio := fromCurrent / total;
        if ratio < 0.0 then 0.0 else if ratio > 1.0 then 1.0 else ratio
      else 0.0
    else 0.0
  }

  /** The advance fires exactly when the progress is complete: the test
      `progress >= 1` of the source is PastNextStop. */
  lemma {:induction false} PastNextStopIsFullProgress(stops: seq<Stop>, i: nat, fix: Fix, dist: Distance)
    ensures PastNextStop(stops, i, fix, dist) <==> Progress(stops, i, fix, dist) >= 1.0
  {
    if i + 1 < |stops| && stops[i].progressPosition.Some? && stops[i + 1].progressPosition.Some? &&
       FixCoord(fix).Some?
    {
      var total := dist(stops[i].progressPosition.value, stops[i + 1].progressPosition.value);
      var fromCurrent := dist(FixCoord(fix).value, stops[i].progressPosition.value);
      if total > 0.0 {
        var ratio := fromCurrent / total;
        assert ratio * total == fromCurrent;
        assert ratio >= 1.0 <==> fromCurrent >= total by {
          if ratio >= 1.0 {
            assert ratio * total >= 1.0 * total;
          } else {
            assert ratio * total < 1.0 * total;
          }
        }
      }
    }
  }

  class ScheduleTracker {
    const stops: seq<Stop>
    const isUpRoute: bool
    /** The reachedStops map, as the set of its keys. */
    var reached: set<nat>
    var currentStopIndex: nat
    /** The ETA texts, one per stop once computed. */
    var etas: seq<string>
    var etaCalculated: bool
    var location: Option<Fix>

    /** The state the screen keeps consistent: reached stops and the
        current index name stops of the route, and ETAs exist, one per
        stop, exactly once they have been computed. */
    ghost predicate Valid()
      reads this
    {
      (forall i :: i in reached ==> i < |stops|) &&
      (if |stops| == 0 then currentStopIndex == 0 else currentStopIndex < |stops|) &&
      (if etaCalculated then |etas| == |stops| else etas == [])
    }

    /** The screen's initial state (screens/ScheduleScreen.jsx:160-167). */
    constructor (stops: seq<Stop>, isUpRoute: bool)
      ensures Valid()
      ensures this.stops == stops && this.isUpRoute == isUpRoute
      ensures reached == {} && currentStopIndex == 0 && etas == [] && !etaCalculated
      ensures location == None
    {
      this.stops := stops;
      this.isUpRoute := isUpRoute;
      reached := {};
      currentStopIndex := 0;
      etas := [];
      etaCalculated := false;
      location := None;
    }

    /** markStopReached (screens/ScheduleScreen.jsx:297-305): adds the
        stop to the reached set, which an already-reached stop leaves as it
        is, and makes it the current stop. */
    method MarkStopReached(index: nat)
      requires Valid() && index < |stops|
      modifies this
      ensures Valid()
      ensures reached == old(reached) + {index}
      ensures old(index in reached) ==> reached == old(reached)
      ensures currentStopIndex == index
      ensures etas == old(etas) && etaCalculated == old(etaCalculated) && location == old(location)
    {
      if index !in reached {
        reached := reached + {index};
      }
      currentStopIndex := index;
    }

    /** The stop-reached scan (screens/ScheduleScreen.jsx:388-408): every
        stop in reach that was not reached when the message arrived is
        marked, in stop order. */
    method MarkStopsInReach(fix: Fix, dist: Distance)
      requires Valid()
      modifies this
      ensures Valid()
      ensures reached == old(reached) + InReachBelow(stops, fix, dist, |stops|)
      ensures currentStopIndex ==
        LastMarked(stops, old(reached), fix, dist, |stops|, old(currentStopIndex))
      ensures etas == old(etas) && etaCalculated == old(etaCalculated) && location == old(location)
    {
      var snapshot := reached;
      var idx := 0;
      while idx < |stops|
        invariant 0 <= idx <= |stops| && Valid()
        invariant reached == snapshot + InReachBelow(stops, fix, dist, idx)
        invariant currentStopIndex == LastMarked(stops, snapshot, fix, dist, idx, old(currentStopIndex))
        invariant etas == old(etas) && etaCalculated == old(etaCalculated) && location == old(location)
      {
        if InReach(stops[idx], fix, dist) && idx !in snapshot {
          MarkStopReached(idx);
        }
        InReachBelowStep(stops, fix, dist, idx);
        idx := idx + 1;
      }
    }

    /** The position-based advance (screens/ScheduleScreen.jsx:477-531):
        when the bus has passed the stop after the one current when the
        message arrived, the current index moves one stop on, never past
        the last stop. */
    method AdvanceByProgress(snapshotIndex: nat, fix: Fix, dist: Distance)
      requires Valid()
      modifies this
      ensures Valid()
      ensures PastNextStop(stops, snapshotIndex, fix, dist) ==>
        currentStopIndex == if old(currentStopIndex) + 1 < |stops| then old(currentStopIndex) + 1 else |stops| - 1
      ensures !PastNextStop(stops, snapshotIndex, fix, dist) ==> currentStopIndex == old(currentStopIndex)
      ensures reached == old(reached) && etas == old(etas)
      ensures etaCalculated == old(etaCalculated) && location == old(location)
    {
      PastNextStopIsFullProgress(stops, snapshotIndex, fix, dist);
      if Progress(stops, snapshotIndex, fix, dist) >= 1.0 {
        currentStopIndex := if currentStopIndex + 1 < |stops| then currentStopIndex + 1 else |stops| - 1;
      }
    }

    /** The feed handler (screens/ScheduleScreen.jsx:366-538). A message
        without a position changes nothing. Otherwise the position is
        stored and the stops in reach are marked; then an arrival-status
        map, when present, replaces the ETAs and the current stop with what
        the checkpoint projector yields (`arrival`), and without one the
        fallback (`fallback`, null once ETAs exist) computes ETAs once and
        the position advances the current stop. `now` is the clock's minute
        of the day. `threw` tells that the handler throws, because
        formatStaticTime throws on a schedule a projector reads; the
        position and the marks made before stay, and nothing after the
        projector runs. The effect registers this handler after calling
        `webSocketService.connect()`, which the service does not define;
        the model takes that call to return. */
    method OnUpdate(update: LiveUpdate, dist: Distance, now: nat)
      returns (threw: bool, arrival: Outcome<Option<Projection>>,
               fallback: Outcome<Option<seq<string>>>)
      requires Valid() && now < MinutesPerDay
      modifies this
      ensures Valid()
      ensures update.fix.None? ==>
        !threw && reached == old(reached) && currentStopIndex == old(currentStopIndex) &&
        etas == old(etas) && etaCalculated == old(etaCalculated) && location == old(location)
      ensures update.fix.Some? ==>
        location == update.fix &&
        reached == old(reached) + InReachBelow(stops, update.fix.value, dist, |stops|)
      ensures update.fix.Some? && |update.arrivalStatus| > 0 ==>
        IsArrivalOutcome(update.arrivalStatus, stops, isUpRoute, arrival) &&
        threw == arrival.Threw? &&
        if arrival.Returned? && arrival.result.Some?
        then etaCalculated && etas == arrival.result.value.etas &&
             currentStopIndex == arrival.result.value.latestIndex
        else etas == old(etas) && etaCalculated == old(etaCalculated) &&
             currentStopIndex ==
               LastMarked(stops, old(reached), update.fix.value, dist, |stops|, old(currentStopIndex))
      ensures update.fix.Some? && |update.arrivalStatus| == 0 ==>
        var fix := update.fix.value;
        IsFallbackOutcome(stops, fix.lat, fix.lon, old(etaCalculated), now, isUpRoute, fallback) &&
        threw == fallback.Threw? &&
        (if fallback.Returned? && fallback.result.Some?
         then etaCalculated && etas == fallback.result.value
         else etas == old(etas) && etaCalculated == old(etaCalculated)) &&
        var marked := LastMarked(stops, old(reached), fix, dist, |stops|, old(currentStopIndex));
        currentStopIndex ==
          if threw || !PastNextStop(stops, old(currentStopIndex), fix, dist) then marked
          else if marked + 1 < |stops| then marked + 1 else |stops| - 1
    {
      threw, arrival, fallback := false, Returned(None), Returned(None);
      if update.fix.None? {
        return;
      }
      var fix := update.fix.value;
      var snapshotIndex := currentStopIndex;
      var snapshotCalculated := etaCalculated;
      location := Some(fix);
      MarkStopsInReach(fix, dist);

      if |update.arrivalStatus| > 0 {
        arrival := CalculateEtasFromArrivalStatus(update.arrivalStatus, stops, isUpRoute);
        match arrival
        case Threw =>
          threw := true;
        case Returned(None) =>
        case Returned(Some(p)) =>
          ShowProjection(p);
      } else {
        if !snapshotCalculated {
          fallback := CalculateEtasFallback(stops, fix.lat, fix.lon, etaCalculated, now, isUpRoute);
          match fallback
          case Threw =>
            threw := true;
            return;
          case Returned(None) =>
          case Returned(Some(shown)) =>
            ShowEtas(shown);
        } else {
          FallbackOnceOnly(stops, fix.lat, fix.lon, now, isUpRoute);
        }
        AdvanceByProgress(snapshotIndex, fix, dist);
      }
    }

    /** The arrival-status branch of the feed handler
        (screens/ScheduleScreen.jsx:411-422) once the checkpoint projector
        has yielded a projection: its ETAs replace the shown ones and its
        latest reported stop becomes the current stop. */
    method ShowProjection(p: Projection)
      requires Valid() && |p.etas| == |stops| && p.latestIndex < |stops|
      modifies this
      ensures Valid()
      ensures etaCalculated && etas == p.etas && currentStopIndex == p.latestIndex
      ensures reached == old(reached) && location == old(location)
    {
      etas := p.etas;
      etaCalculated := true;
      currentStopIndex := p.latestIndex;
    }

    /** The fallback branch of the feed handler
        (screens/ScheduleScreen.jsx:466-474) once the fallback has yielded
        ETAs: they are shown and marked as computed. */
    method ShowEtas(shown: seq<string>)
      requires Valid() && |shown| == |stops|
      modifies this
      ensures Valid()
      ensures etaCalculated && etas == shown
      ensures reached == old(reached) && currentStopIndex == old(currentStopIndex)
      ensures location == old(location)
    {
      etas := shown;
      etaCalculated := true;
    }
  }

  /** Replaying a fix marks nothing new: once the stops it reaches are in
      the reached set, the scan leaves the current stop where it is. */
  lemma {:induction false} ReplayMarksNothing(stops: seq<Stop>, reached: set<nat>, fix: Fix,
                                              dist: Distance, n: nat, current: nat)
    requires n <= |stops|
    requires InReachBelow(stops, fix, dist, n) <= reached
    ensures LastMarked(stops, reached, fix, dist, n, current) == current
  {
    if n > 0 {
      assert !(InReach(stops[n - 1], fix, dist) && n - 1 !in reached) by {
        if InReach(stops[n - 1], fix, dist) {
          assert n - 1 in InReachBelow(stops, fix, dist, n);
        }
      }
      assert InReachBelow(stops, fix, dist, n - 1) <= InReachBelow(stops, fix, dist, n);
      ReplayMarksNothing(stops, reached, fix, dist, n - 1, current);
    }
  }
}

=== FILE: search.dfy ===
/** The search screen (screens/SearchScreen.jsx): the catalogue of current
    routes and the location list built from it, the suggestion filters of
    the source and destination boxes, the bus preview, and the two searches
    (by source and destination, by bus number). */
module Search {
  import opened Wrappers
  import opened Text
  import opened JsonValues
  import opened Lists
  import opened Routes

  // ---------------------------------------------------------------------
  // The catalogue

  /** A route record that `convertToRoutes` keeps: its `stops` is not null. */
  predicate HasStopsField(r: Route) {
    !r.stops.NullStops?
  }

  /** convertToRoutes (screens/SearchScreen.jsx:203-226): an empty array
      gives null, a non-array gives undefined (both None here), and a
      non-empty array gives its routes whose `stops` is not null, in order,
      each with its ten fields copied. */
  function ConvertToRoutes(response: Catalogue): (r: Option<seq<Route>>)
    ensures response.NotAnArray? ==> r.None?
    ensures response.RouteArray? ==> (r.None? <==> response.items == [])
    ensures r.Some? ==> IsSublist(r.value, response.items)
    ensures r.Some? ==> forall x :: x in r.value <==> x in response.items && HasStopsField(x)
  {
    match response
    case NotAnArray => None
    case RouteArray(items) =>
      if |items| == 0 then None else Some(Filter(items, HasStopsField))
  }

  /** `data.map(r => r.src)`. */
  function Sources(routes: seq<Route>): (r: seq<Json>)
    ensures |r| == |routes| && forall i :: 0 <= i < |routes| ==> r[i] == routes[i].src
  {
    seq(|routes|, i requires 0 <= i < |routes| => routes[i].src)
  }

  /** `data.map(r => r.dest)`. */
  function Destinations(routes: seq<Route>): (r: seq<Json>)
    ensures |r| == |routes| && forall i :: 0 <= i < |routes| ==> r[i] == routes[i].dest
  {
    seq(|routes|, i requires 0 <= i < |routes| => routes[i].dest)
  }

  /** `[...new Set(xs.filter(Boolean))]`. */
  function UniqueTruthy(xs: seq<Json>): (r: seq<Json>)
    ensures NoDuplicates(r)
    ensures forall x :: x in r <==> x in xs && Truthy(x)
  {
    Dedup(Filter(xs, Truthy))
  }

  /** The location list of fetchCurrentRoutes (screens/SearchScreen.jsx:
      237-246): every source and every destination of the catalogue
      (including routes without stops), falsy ones dropped, each once. */
  function CatalogueLocations(routes: seq<Route>): (r: seq<Json>)
    ensures NoDuplicates(r)
    ensures forall x :: x in r <==> (Truthy(x) &&
      exists i :: 0 <= i < |routes| && (routes[i].src == x || routes[i].dest == x))
  {
    var all := Sources(routes) + Destinations(routes);
    assert forall x :: x in all <==>
      exists i :: 0 <= i < |routes| && (routes[i].src == x || routes[i].dest == x) by {
      forall x | x in all
        ensures exists i :: 0 <= i < |routes| && (routes[i].src == x || routes[i].dest == x)
      {
        var k :| 0 <= k < |all| && all[k] == x;
        if k < |routes| {
          assert routes[k].src == x;
        } else {
          assert routes[k - |routes|].dest == x;
        }
      }
      forall x, i | 0 <= i < |routes| && (routes[i].src == x || routes[i].dest == x)
        ensures x in all
      {
        if routes[i].src == x {
          assert all[i] == x;
        } else {
          assert all[|routes| + i] == x;
        }
      }
    }
    UniqueTruthy(all)
  }

  // ---------------------------------------------------------------------
  // Suggestions

  /** Every location is a string, so `toLowerCase` cannot throw on it. */
  predicate AllText(locations: seq<Json>) {
    forall i :: 0 <= i < |locations| ==> locations[i].JStr?
  }

  /** `item.toLowerCase().startsWith(text.toLowerCase())`. */
  predicate MatchesQuery(text: string, item: Json)
    requires item.JStr?
  {
    StartsWith(Lower(item.s), Lower(text))
  }

  /** `MatchesQuery` where it is defined. */
  predicate Suggested(text: string, item: Json) {
    item.JStr? && MatchesQuery(text, item)
  }

  /** handleSourceSuggestion / handleDestinationSuggestion
      (screens/SearchScreen.jsx:125-154): a blank box suggests nothing;
      otherwise the suggestions are the locations whose lower-case form
      starts with the lower-case text, in list order. A location that is not
      a string makes `toLowerCase` throw, so the handler fails (None) and
      the suggestions shown stay as they were. */
  function Suggestions(locations: seq<Json>, text: string): (r: Option<seq<Json>>)
    ensures Trim(text) == "" ==> r == Some([])
    ensures Trim(text) != "" ==> (r.Some? <==> AllText(locations))
    ensures Trim(text) != "" && r.Some? ==> IsSublist(r.value, locations)
    ensures Trim(text) != "" && r.Some? ==>
      forall x :: x in r.value <==> x in locations && Suggested(text, x)
  {
    if Trim(text) == "" then Some([])
    else if !AllText(locations) then None
    else Some(Filter(locations, x => Suggested(text, x)))
  }

  /** Once every location is a string, a non-blank query never fails. */
  lemma TextLocationsAlwaysSuggest(locations: seq<Json>, text: string)
    requires AllText(locations)
    ensures Suggestions(locations, text).Some?
  {
  }

  // ---------------------------------------------------------------------
  // Bus lookups

  /** `r.bus_id == id` (loose equality). */
  predicate HasBusId(id: string, r: Route) {
    LooselyEqualsString(r.busId, id)
  }

  /** `r.bus_id == id && r.active === true`. */
  predicate IsActiveBus(id: string, r: Route) {
    HasBusId(id, r) && r.active == JBool(true)
  }

  /** `r.src == source && r.dest == destination` (loose equality). */
  predicate ServesPair(source: string, destination: string, r: Route) {
    LooselyEqualsString(r.src, source) && LooselyEqualsString(r.dest, destination)
  }

  /** fetchBusPreview (screens/SearchScreen.jsx:294-305): a blank id shows
      no preview; otherwise the first route whose `bus_id` equals the
      trimmed id, or none. */
  function BusPreview(routes: seq<Route>, text: string): (r: Option<Route>)
    ensures Trim(text) == "" ==> r.None?
    ensures r.Some? ==> exists i :: (0 <= i < |routes| && routes[i] == r.value &&
      HasBusId(Trim(text), r.value) && forall j :: 0 <= j < i ==> !HasBusId(Trim(text), routes[j]))
    ensures r.None? && Trim(text) != "" ==>
      forall j :: 0 <= j < |routes| ==> !HasBusId(Trim(text), routes[j])
  {
    var id := Trim(text);
    if id == "" then None
    else
      var i := FindIndex(routes, r => HasBusId(id, r));
      if i.Some? then Some(routes[i.value]) else None
  }

  /** The bus-number search's lookup (screens/SearchScreen.jsx:446-450):
      the first route with that `bus_id` that is active, or none. */
  function ActiveBus(routes: seq<Route>, busNumber: string): (r: Option<Route>)
    ensures r.Some? ==> exists i :: (0 <= i < |routes| && routes[i] == r.value &&
      IsActiveBus(Trim(busNumber), r.value) &&
      forall j :: 0 <= j < i ==> !IsActiveBus(Trim(busNumber), routes[j]))
    ensures r.None? ==> forall j :: 0 <= j < |routes| ==> !IsActiveBus(Trim(busNumber), routes[j])
  {
    var id := Trim(busNumber);
    var i := FindIndex(routes, r => IsActiveBus(id, r));
    if i.Some? then Some(routes[i.value]) else None
  }

  /** The local match of the source/destination search
      (screens/SearchScreen.jsx:375-377): the routes serving exactly that
      pair, in catalogue order. */
  function LocalMatches(routes: seq<Route>, source: string, destination: string): (r: seq<Route>)
    ensures IsSublist(r, routes)
    ensures forall x :: x in r <==> x in routes && ServesPair(Trim(source), Trim(destination), x)
  {
    Filter(routes, x => ServesPair(Trim(source), Trim(destination), x))
  }

  // ---------------------------------------------------------------------
  // Locations learned from a remote search

  /** The location update after a remote search as written
      (screens/SearchScreen.jsx:402-405): `route` is the array
      convertToRoutes returned, so `route.src` and `route.dest` are
      undefined, and undefined is what joins the list. */
  function SearchedLocationsAsWritten(locations: seq<Json>): (r: seq<Json>)
    ensures JNull in r
    ensures forall x :: x in locations ==> x in r
  {
    Dedup(locations + [JNull, JNull])
  }

  /** After a remote search as written, every non-blank query in either
      box fails on the undefined entry, so the suggestions stop updating
      until the location list is rebuilt (see RefetchRestoresSuggestions). */
  lemma RemoteSearchBreaksSuggestions(locations: seq<Json>, text: string)
    requires Trim(text) != ""
    ensures Suggestions(SearchedLocationsAsWritten(locations), text).None?
  {
    var after := SearchedLocationsAsWritten(locations);
    var k :| 0 <= k < |after| && after[k] == JNull;
    assert !AllText(after);
  }

  /** The broken list lasts until fetchCurrentRoutes runs again (the
      screen refetches whenever it is focused, screens/SearchScreen.jsx:
      197-201) and the catalogue answers with an array: the list is then
      rebuilt from the catalogue alone, and when the catalogue names its
      ends as strings every query works again. An answer that is not an
      array keeps the broken list (FetchCurrentRoutes). The focus effect
      declared before the refetch calls `webSocketService.connect()`,
      which the service does not define; the model takes the refetch to
      run regardless. */
  lemma RefetchRestoresSuggestions(items: seq<Route>, text: string)
    requires forall i :: 0 <= i < |items| ==> NamedEnds(items[i])
    ensures AllText(CatalogueLocations(items))
    ensures Suggestions(CatalogueLocations(items), text).Some?
  {
    var rebuilt := CatalogueLocations(items);
    forall k | 0 <= k < |rebuilt| ensures rebuilt[k].JStr? {
      var x := rebuilt[k];
      assert x in rebuilt;
      var i :| 0 <= i < |items| && (items[i].src == x || items[i].dest == x);
      assert NamedEnds(items[i]);
    }
  }

  /** The update as intended: the found routes' sources and destinations
      join the list, falsy ones dropped, each once. */
  function SearchedLocations(locations: seq<Json>, found: seq<Route>): (r: seq<Json>)
    ensures NoDuplicates(r)
    ensures forall x :: x in r <==> (Truthy(x) && (x in locations ||
      exists i :: 0 <= i < |found| && (found[i].src == x || found[i].dest == x)))
  {
    var added := Sources(found) + Destinations(found);
    assert forall x :: x in added <==>
      exists i :: 0 <= i < |found| && (found[i].src == x || found[i].dest == x) by {
      forall x | x in added
        ensures exists i :: 0 <= i < |found| && (found[i].src == x || found[i].dest == x)
      {
        var k :| 0 <= k < |added| && added[k] == x;
        if k < |found| {
          assert found[k].src == x;
        } else {
          assert found[k - |found|].dest == x;
        }
      }
      forall x, i | 0 <= i < |found| && (found[i].src == x || found[i].dest == x)
        ensures x in added
      {
        if found[i].src == x {
          assert added[i] == x;
        } else {
          assert added[|found| + i] == x;
        }
      }
    }
    UniqueTruthy(locations + added)
  }

  /** A route whose source and destination are strings or falsy. */
  predicate NamedEnds(r: Route) {
    (r.src.JStr? || !Truthy(r.src)) && (r.dest.JStr? || !Truthy(r.dest))
  }

  /** With the intended update, a list of strings stays a list of strings
      when the found routes name their ends, so suggestions keep working. */
  lemma SearchedLocationsKeepSuggesting(locations: seq<Json>, found: seq<Route>, text: string)
    requires AllText(locations)
    requires forall i :: 0 <= i < |found| ==> NamedEnds(found[i])
    ensures AllText(SearchedLocations(locations, found))
    ensures Suggestions(SearchedLocations(locations, found), text).Some?
  {
    var after := SearchedLocations(locations, found);
    forall k | 0 <= k < |after| ensures after[k].JStr? {
      var x := after[k];
      assert x in after;
      if x !in locations {
        var i :| 0 <= i < |found| && (found[i].src == x || found[i].dest == x);
        assert NamedEnds(found[i]);
      } else {
        var j :| 0 <= j < |locations| && locations[j] == x;
      }
    }
  }

  // ---------------------------------------------------------------------
  // The screen state

  /** The alerts a search can raise. */
  datatype AlertKind =
    | MissingPair       // both boxes are needed
    | PairNotFound      // the search endpoint knows no route for the pair
    | MissingBusNumber
    | BusNotFound
    | SearchFailed      // the search threw

  /** The title and the message of each alert. */
  function AlertText(kind: AlertKind): (string, string) {
    match kind
    case MissingPair => ("Missing Fields", "Please enter both source and destination.")
    case PairNotFound => ("Not Found", "No Bus found with this source and destination.")
    case MissingBusNumber => ("Missing Field", "Please enter bus number.")
    case BusNotFound => ("Not Found", "No bus found with this number.")
    case SearchFailed => ("Error", "Failed to search for buses. Please try again.")
  }

  /** What a search does besides changing the form. */
  datatype Outcome =
    | NoAction
    | Alert(kind: AlertKind)
    | ShowBusList(buses: seq<Route>, params: BusListParams)

  /** Both boxes of the source/destination search hold more than blanks. */
  predicate PairFilled(source: string, destination: string) {
    Trim(source) != "" && Trim(destination) != ""
  }

  /** The source/destination search has to ask the search endpoint: the
      boxes are filled and the catalogue has no route for the pair. */
  predicate NeedsRemote(allRoutes: Option<seq<Route>>, source: string, destination: string) {
    PairFilled(source, destination) && allRoutes.Some? &&
    LocalMatches(allRoutes.value, source, destination) == []
  }

  /** The effect of asking the search endpoint, from the catalogue, the
      location list and the boxes before to the outcome and those after:
      a failed request alerts and changes nothing; an answer that converts
      to nothing alerts "Not Found" and empties both boxes; otherwise the
      found routes join the catalogue, the location list is updated, and
      the bus list opens on them. The update is the one written in the
      source when `asWritten` holds (undefined joins the list), and the
      intended one otherwise (the found routes' ends join it). */
  predicate RemoteSearched(asWritten: bool, routes: seq<Route>, locations: seq<Json>,
                           source: string, destination: string,
                           remote: Option<Catalogue>, outcome: Outcome,
                           routes': Option<seq<Route>>, locations': seq<Json>,
                           source': string, destination': string)
  {
    if remote.None? then
      outcome == Alert(SearchFailed) && routes' == Some(routes) && locations' == locations &&
      source' == source && destination' == destination
    else
      var found := ConvertToRoutes(remote.value);
      if found.None? then
        outcome == Alert(PairNotFound) && routes' == Some(routes) && locations' == locations &&
        source' == "" && destination' == ""
      else
        outcome == ShowBusList(found.value, PairParams(source, destination)) &&
        routes' == Some(routes + found.value) &&
        locations' == (if asWritten then SearchedLocationsAsWritten(locations)
                       else SearchedLocations(locations, found.value)) &&
        source' == source && destination' == destination
  }

  /** The parameters of a source/destination search. */
  function PairParams(source: string, destination: string): BusListParams {
    BusListParams("srcDest", source, destination, JNull, "", "", "")
  }

  /** The parameters of a bus-number search. */
  function BusNumberParams(busId: Json): BusListParams {
    BusListParams("busNo", "", "", busId, "", "", "")
  }

  class SearchForm {
    var searchType: string
    var source: string
    var destination: string
    var stop: string
    var busNumber: string
    var busPreview: Option<Route>
    var busList: seq<Route>
    /** None once the catalogue answered with an empty array or a non-array. */
    var allRoutes: Option<seq<Route>>
    var allLocations: seq<Json>
    var sourceSuggestions: seq<Json>
    var destinationSuggestions: seq<Json>

    constructor()
      ensures searchType == "srcDest"
      ensures source == "" && destination == "" && stop == "" && busNumber == ""
      ensures busPreview == None && busList == [] && allRoutes == Some([]) && allLocations == []
      ensures sourceSuggestions == [] && destinationSuggestions == []
    {
      searchType := "srcDest";
      source := "";
      destination := "";
      stop := "";
      busNumber := "";
      busPreview := None;
      busList := [];
      allRoutes := Some([]);
      allLocations := [];
      sourceSuggestions := [];
      destinationSuggestions := [];
    }

    /** handleSourceSuggestion: the box shows the text; the suggestions are
        replaced unless computing them threw. */
    method HandleSourceSuggestion(text: string)
      modifies this
      ensures source == text
      ensures var s := Suggestions(allLocations, text);
        sourceSuggestions == if s.Some? then s.value else old(sourceSuggestions)
      ensures searchType == old(searchType) && destination == old(destination)
      ensures stop == old(stop) && busNumber == old(busNumber) && busPreview == old(busPreview)
      ensures busList == old(busList) && allRoutes == old(allRoutes) && allLocations == old(allLocations)
      ensures destinationSuggestions == old(destinationSuggestions)
    {
      source := text;
      var s := Suggestions(allLocations, text);
      if s.Some? {
        sourceSuggestions := s.value;
      }
    }

    /** handleDestinationSuggestion: the same for the destination box. */
    method HandleDestinationSuggestion(text: string)
      modifies this
      ensures destination == text
      ensures var s := Suggestions(allLocations, text);
        destinationSuggestions == if s.Some? then s.value else old(destinationSuggestions)
      ensures searchType == old(searchType) && source == old(source)
      ensures stop == old(stop) && busNumber == old(busNumber) && busPreview == old(busPreview)
      ensures busList == old(busList) && allRoutes == old(allRoutes) && allLocations == old(allLocations)
      ensures sourceSuggestions == old(sourceSuggestions)
    {
      destination := text;
      var s := Suggestions(allLocations, text);
      if s.Some? {
        destinationSuggestions := s.value;
      }
    }

    /** fetchCurrentRoutes (screens/SearchScreen.jsx:228-251), given the
        catalogue's answer: the routes are replaced by the converted ones;
        for an array the location list is rebuilt from every route, while
        for anything else `data.map` throws and the list stays. */
    method FetchCurrentRoutes(response: Catalogue)
      modifies this
      ensures allRoutes == ConvertToRoutes(response)
      ensures response.RouteArray? ==> allLocations == CatalogueLocations(response.items)
      ensures response.NotAnArray? ==> allLocations == old(allLocations)
      ensures searchType == old(searchType) && source == old(source) && destination == old(destination)
      ensures stop == old(stop) && busNumber == old(busNumber) && busPreview == old(busPreview)
      ensures busList == old(busList)
      ensures sourceSuggestions == old(sourceSuggestions)
      ensures destinationSuggestions == old(destinationSuggestions)
    {
      allRoutes := ConvertToRoutes(response);
      if response.RouteArray? {
        allLocations := CatalogueLocations(response.items);
      }
    }

    /** clearAllFields (screens/SearchScreen.jsx:259-266): every box and the
        results are emptied; the catalogue and the suggestions stay. */
    method ClearAllFields()
      modifies this
      ensures source == "" && destination == "" && stop == "" && busNumber == ""
      ensures busPreview == None && busList == []
      ensures searchType == old(searchType) && allRoutes == old(allRoutes)
      ensures allLocations == old(allLocations)
      ensures sourceSuggestions == old(sourceSuggestions)
      ensures destinationSuggestions == old(destinationSuggestions)
    {
      source := "";
      destination := "";
      stop := "";
      busNumber := "";
      busPreview := None;
      busList := [];
    }

    /** handleReverseRoute (screens/SearchScreen.jsx:268-272): source and
        destination swap; nothing else changes. */
    method HandleReverseRoute()
      modifies this
      ensures source == old(destination) && destination == old(source)
      ensures searchType == old(searchType) && stop == old(stop) && busNumber == old(busNumber)
      ensures busPreview == old(busPreview) && busList == old(busList)
      ensures allRoutes == old(allRoutes) && allLocations == old(allLocations)
      ensures sourceSuggestions == old(sourceSuggestions)
      ensures destinationSuggestions == old(destinationSuggestions)
    {
      var temp := source;
      source := destination;
      destination := temp;
    }

    /** fetchBusPreview: a blank id clears the preview; otherwise it shows
        the lookup's result, unless the catalogue is null and `find` throws,
        which leaves the preview as it was. */
    method FetchBusPreview(text: string)
      modifies this
      ensures Trim(text) == "" ==> busPreview == None
      ensures Trim(text) != "" && allRoutes.Some? ==> busPreview == BusPreview(allRoutes.value, text)
      ensures Trim(text) != "" && allRoutes.None? ==> busPreview == old(busPreview)
      ensures searchType == old(searchType) && source == old(source) && destination == old(destination)
      ensures stop == old(stop) && busNumber == old(busNumber) && busList == old(busList)
      ensures allRoutes == old(allRoutes) && allLocations == old(allLocations)
      ensures sourceSuggestions == old(sourceSuggestions)
      ensures destinationSuggestions == old(destinationSuggestions)
    {
      if Trim(text) == "" {
        busPreview := None;
        return;
      }
      if allRoutes.Some? {
        busPreview := BusPreview(allRoutes.value, text);
      }
    }

    /** The source/destination branch of handleFindBus
        (screens/SearchScreen.jsx:369-417), with the location update as
        intended. `remote` is what the search endpoint answered for the
        trimmed pair, None when the request or its decoding failed; it is
        used only when the catalogue has no route for the pair. */
    method FindByPair(remote: Option<Catalogue>) returns (outcome: Outcome)
      modifies this
      ensures !PairFilled(old(source), old(destination)) ==> outcome == Alert(MissingPair)
      ensures PairFilled(old(source), old(destination)) && old(allRoutes).None? ==>
        outcome == Alert(SearchFailed)
      ensures PairFilled(old(source), old(destination)) && old(allRoutes).Some? &&
              LocalMatches(old(allRoutes).value, old(source), old(destination)) != [] ==>
        outcome == ShowBusList(LocalMatches(old(allRoutes).value, old(source), old(destination)),
                               PairParams(old(source), old(destination)))
      ensures !NeedsRemote(old(allRoutes), old(source), old(destination)) ==>
        source == old(source) && destination == old(destination) &&
        allRoutes == old(allRoutes) && allLocations == old(allLocations)
      ensures NeedsRemote(old(allRoutes), old(source), old(destination)) ==>
        RemoteSearched(false, old(allRoutes).value, old(allLocations), old(source), old(destination),
                       remote, outcome, allRoutes, allLocations, source, destination)
      ensures searchType == old(searchType) && stop == old(stop) && busNumber == old(busNumber)
      ensures busPreview == old(busPreview) && busList == old(busList)
      ensures sourceSuggestions == old(sourceSuggestions)
      ensures destinationSuggestions == old(destinationSuggestions)
    {
      if !PairFilled(source, destination) {
        return Alert(MissingPair);
      }
      if allRoutes.None? {
        return Alert(SearchFailed);
      }
      var local := LocalMatches(allRoutes.value, source, destination);
      if local != [] {
        return ShowBusList(local, PairParams(source, destination));
      }
      outcome := SearchRemotely(remote);
    }

    /** The part of the source/destination search that asks the search
        endpoint (screens/SearchScreen.jsx:380-410), with the location
        update as intended. */
    method SearchRemotely(remote: Option<Catalogue>) returns (outcome: Outcome)
      requires allRoutes.Some?
      modifies this
      ensures RemoteSearched(false, old(allRoutes).value, old(allLocations), old(source), old(destination),
                             remote, outcome, allRoutes, allLocations, source, destination)
      ensures searchType == old(searchType) && stop == old(stop) && busNumber == old(busNumber)
      ensures busPreview == old(busPreview) && busList == old(busList)
      ensures sourceSuggestions == old(sourceSuggestions)
      ensures destinationSuggestions == old(destinationSuggestions)
    {
      if remote.None? {
        return Alert(SearchFailed);
      }
      var found := ConvertToRoutes(remote.value);
      if found.None? {
        source := "";
        destination := "";
        return Alert(PairNotFound);
      }
      allRoutes := Some(allRoutes.value + found.value);
      allLocations := SearchedLocations(allLocations, found.value);
      return ShowBusList(found.value, PairParams(source, destination));
    }

    /** The same part as written (screens/SearchScreen.jsx:380-406):
        undefined joins the location list, and from then on every
        non-blank query in either box fails, until fetchCurrentRoutes
        rebuilds the list. */
    method SearchRemotelyAsWritten(remote: Option<Catalogue>) returns (outcome: Outcome)
      requires allRoutes.Some?
      modifies this
      ensures RemoteSearched(true, old(allRoutes).value, old(allLocations), old(source), old(destination),
                             remote, outcome, allRoutes, allLocations, source, destination)
      ensures outcome.ShowBusList? ==>
        forall text :: Trim(text) != "" ==> Suggestions(allLocations, text).None?
      ensures searchType == old(searchType) && stop == old(stop) && busNumber == old(busNumber)
      ensures busPreview == old(busPreview) && busList == old(busList)
      ensures sourceSuggestions == old(sourceSuggestions)
      ensures destinationSuggestions == old(destinationSuggestions)
    {
      if remote.None? {
        return Alert(SearchFailed);
      }
      var found := ConvertToRoutes(remote.value);
      if found.None? {
        source := "";
        destination := "";
        return Alert(PairNotFound);
      }
      allRoutes := Some(allRoutes.value + found.value);
      allLocations := SearchedLocationsAsWritten(allLocations);
      forall text | Trim(text) != "" ensures Suggestions(allLocations, text).None? {
        RemoteSearchBreaksSuggestions(old(allLocations), text);
      }
      return ShowBusList(found.value, PairParams(source, destination));
    }

    /** The bus-number branch of handleFindBus (screens/SearchScreen.jsx:
        440-462): a blank number asks for one; otherwise only an active
        route with that `bus_id` is shown, and without one the search
        reports "Not Found" and shows nothing. Nothing in the form changes. */
    method FindByBusNumber() returns (outcome: Outcome)
      ensures Trim(busNumber) == "" ==> outcome == Alert(MissingBusNumber)
      ensures Trim(busNumber) != "" && allRoutes.None? ==> outcome == Alert(SearchFailed)
      ensures Trim(busNumber) != "" && allRoutes.Some? ==>
        var bus := ActiveBus(allRoutes.value, busNumber);
        outcome == if bus.None? then Alert(BusNotFound)
                   else ShowBusList([bus.value], BusNumberParams(bus.value.busId))
      ensures outcome.ShowBusList? ==>
        |outcome.buses| == 1 && IsActiveBus(Trim(busNumber), outcome.buses[0])
    {
      if Trim(busNumber) == "" {
        return Alert(MissingBusNumber);
      }
      if allRoutes.None? {
        return Alert(SearchFailed);
      }
      var bus := ActiveBus(allRoutes.value, busNumber);
      if bus.None? {
        return Alert(BusNotFound);
      }
      return ShowBusList([bus.value], BusNumberParams(bus.value.busId));
    }

    /** handleFindBus: the branch of the selected search type; any other
        type does nothing. */
    method HandleFindBus(remote: Option<Catalogue>) returns (outcome: Outcome)
      modifies this
      ensures old(searchType) != "srcDest" && old(searchType) != "busNo" ==>
        outcome == NoAction && unchanged(this)
      ensures old(searchType) == "busNo" ==> unchanged(this)
      ensures searchType == old(searchType)
    {
      if searchType == "srcDest" {
        outcome := FindByPair(remote);
      } else if searchType == "busNo" {
        outcome := FindByBusNumber();
      } else {
        outcome := NoAction;
      }
    }
  }
}

=== FILE: sockets.dfy ===
/** The pieces both live-data channels share: an abstract WebSocket (its
    ready state and the frames written to it), the values handed to
    listeners, and the listener set with its insertion order. */
module Sockets {
  import opened JsonValues

  /** The four ready states of a WebSocket; `Open` is `readyState === 1`. */
  datatype ReadyState = Connecting | Open | Closing | Closed

  /** What a socket's `send` was given: a JSON encoding of a value, or a
      string written as it is. */
  datatype Frame = JsonFrame(value: Json) | TextFrame(text: string)

  /** One socket object: its state and every frame written to it, in order. */
  datatype Socket = Socket(state: ReadyState, sent: seq<Frame>)

  /** A socket that can still open or carry traffic. */
  predicate Live(s: Socket) {
    s.state == Connecting || s.state == Open
  }

  /** A socket just created by `new WebSocket(url)`. */
  function NewSocket(): (s: Socket)
    ensures Live(s) && s.state != Open && s.sent == []
  {
    Socket(Connecting, [])
  }

  /** The socket after its `close()` was called. */
  function AfterClose(s: Socket): (r: Socket)
    ensures !Live(r) && r.state != Closed && r.sent == s.sent
  {
    s.(state := Closing)
  }

  /** The socket with one more frame written. */
  function Written(s: Socket, f: Frame): (r: Socket)
    ensures r.state == s.state && r.sent == s.sent + [f]
  {
    s.(sent := s.sent + [f])
  }

  /** What a listener callback receives: a parsed value, or the raw text of a
      message that did not parse. */
  datatype Message = Parsed(value: Json) | RawText(text: string)

  /** One listener call: which listener and with what. */
  datatype Delivery = Delivery(listener: nat, message: Message)

  /** No listener appears twice (a JavaScript `Set`). */
  predicate Distinct(ls: seq<nat>) {
    forall i, j :: 0 <= i < j < |ls| ==> ls[i] != ls[j]
  }

  /** `set.add(cb)`: a new callback goes to the end of the iteration order,
      a present one stays where it is. */
  function Added(ls: seq<nat>, cb: nat): (r: seq<nat>)
    requires Distinct(ls)
    ensures Distinct(r)
    ensures forall x :: x in r <==> x in ls || x == cb
    ensures cb !in ls ==> r == ls + [cb]
    ensures cb in ls ==> r == ls
  {
    if cb in ls then ls else ls + [cb]
  }

  /** `set.delete(cb)`: exactly that callback leaves, the others keep their
      order. */
  function Without(ls: seq<nat>, cb: nat): (r: seq<nat>)
    ensures forall x :: x in r <==> x in ls && x != cb
    ensures |r| <= |ls|
  {
    if ls == [] then []
    else if ls[0] == cb then Without(ls[1..], cb)
    else [ls[0]] + Without(ls[1..], cb)
  }

  /** Removing keeps the listeners distinct. */
  lemma {:induction false} WithoutDistinct(ls: seq<nat>, cb: nat)
    requires Distinct(ls)
    ensures Distinct(Without(ls, cb))
  {
    if ls != [] {
      assert Distinct(ls[1..]) by {
        forall i, j | 0 <= i < j < |ls[1..]| ensures ls[1..][i] != ls[1..][j] {
          assert ls[1..][i] == ls[i + 1] && ls[1..][j] == ls[j + 1];
        }
      }
      WithoutDistinct(ls[1..], cb);
      if ls[0] != cb {
        assert ls[0] !in ls[1..];
        assert ls[0] !in Without(ls[1..], cb);
      }
    }
  }

  /** Removing a callback that is not subscribed changes nothing. */
  lemma {:induction false} WithoutAbsent(ls: seq<nat>, cb: nat)
    requires cb !in ls
    ensures Without(ls, cb) == ls
  {
    if ls != [] {
      assert cb !in ls[1..];
      WithoutAbsent(ls[1..], cb);
      assert [ls[0]] + ls[1..] == ls;
    }
  }

  /** The function `subscribe` returns undoes the subscription exactly: a
      listener that was not there before is gone again and the others are
      as they were. */
  lemma {:induction false} UnsubscribeUndoesSubscribe(ls: seq<nat>, cb: nat)
    requires Distinct(ls) && cb !in ls
    ensures Without(Added(ls, cb), cb) == ls
  {
    WithoutSnoc(ls, cb);
    WithoutAbsent(ls, cb);
  }

  /** Removing a callback from the end is removing it from the rest. */
  lemma {:induction false} WithoutSnoc(ls: seq<nat>, cb: nat)
    ensures Without(ls + [cb], cb) == Without(ls, cb)
  {
    if ls == [] {
      assert ls + [cb] == [cb];
      assert [cb][1..] == [];
    } else {
      assert (ls + [cb])[0] == ls[0];
      assert (ls + [cb])[1..] == ls[1..] + [cb];
      WithoutSnoc(ls[1..], cb);
    }
  }

  /** Every listener, in iteration order, called with `m`. */
  function Deliveries(ls: seq<nat>, m: Message): (r: seq<Delivery>)
    ensures |r| == |ls|
    ensures forall i :: 0 <= i < |ls| ==> r[i] == Delivery(ls[i], m)
  {
    if ls == [] then [] else Deliveries(ls[..|ls| - 1], m) + [Delivery(ls[|ls| - 1], m)]
  }

  /** How many listeners a `forEach` calls when an exception thrown by a
      callback is not caught: all of them up to and including the first one
      that throws, or all of them when none does. */
  function CalledBeforeThrow(ls: seq<nat>, throwing: set<nat>): (n: nat)
    ensures n <= |ls|
    ensures forall j :: 0 <= j < n - 1 ==> ls[j] !in throwing
    ensures n < |ls| ==> 0 < n && ls[n - 1] in throwing
    ensures n == |ls| ==> forall j :: 0 <= j < |ls| - 1 ==> ls[j] !in throwing
  {
    if ls == [] then 0
    else if ls[0] in throwing then 1
    else 1 + CalledBeforeThrow(ls[1..], throwing)
  }

  /** The count is pinned down by where the first throwing listener is. */
  lemma CalledBeforeThrowAt(ls: seq<nat>, throwing: set<nat>, n: nat)
    requires n <= |ls|
    requires forall j :: 0 <= j < n - 1 ==> ls[j] !in throwing
    requires n < |ls| ==> 0 < n && ls[n - 1] in throwing
    ensures CalledBeforeThrow(ls, throwing) == n
  {
  }
}

=== FILE: text.dfy ===
/** Strings as sequences of characters and the few JavaScript string and
    number built-ins the screens use: `trim`, `toUpperCase`/`toLowerCase`
    (ASCII letters only), `includes`, `startsWith`, `split`, `padStart`,
    `join`, `Number(str)` and integer `toString()`. */
module Text {
  import opened Wrappers

  // ---------------------------------------------------------------------
  // Characters

  predicate IsDigit(c: char) { '0' <= c <= '9' }

  /** The characters `trim` and `Number()` strip: JavaScript's WhiteSpace
      (tab, vertical tab, form feed, space, no-break space, the byte-order
      mark and the other space separators) and its LineTerminators (line
      feed, carriage return, line and paragraph separators). */
  predicate IsSpace(c: char) {
    || c == '\t' || c == '\U{000B}' || c == '\U{000C}' || c == ' '
    || c == '\U{00A0}' || c == '\U{FEFF}' || c == '\U{1680}'
    || ('\U{2000}' <= c <= '\U{200A}')
    || c == '\U{202F}' || c == '\U{205F}' || c == '\U{3000}'
    || c == '\n' || c == '\r' || c == '\U{2028}' || c == '\U{2029}'
  }

  function UpperChar(c: char): char {
    if 'a' <= c <= 'z' then (c as int - 32) as char else c
  }

  function LowerChar(c: char): char {
    if 'A' <= c <= 'Z' then (c as int + 32) as char else c
  }

  function Upper(s: string): (r: string)
    ensures |r| == |s| && forall i :: 0 <= i < |s| ==> r[i] == UpperChar(s[i])
  {
    seq(|s|, i requires 0 <= i < |s| => UpperChar(s[i]))
  }

  function Lower(s: string): (r: string)
    ensures |r| == |s| && forall i :: 0 <= i < |s| ==> r[i] == LowerChar(s[i])
  {
    seq(|s|, i requires 0 <= i < |s| => LowerChar(s[i]))
  }

  // ---------------------------------------------------------------------
  // Searching

  /** `s.startsWith(p)`. */
  predicate StartsWith(s: string, p: string) {
    |p| <= |s| && s[..|p|] == p
  }

  /** `s.includes(a + b)` for a two-character needle. */
  predicate HasPair(s: string, a: char, b: char) {
    |s| >= 2 && ((s[0] == a && s[1] == b) || HasPair(s[1..], a, b))
  }

  /** A needle found at position `i` is found by HasPair. */
  lemma {:induction false} HasPairAt(s: string, i: nat, a: char, b: char)
    requires i + 1 < |s| && s[i] == a && s[i + 1] == b
    ensures HasPair(s, a, b)
  {
    if i > 0 {
      HasPairAt(s[1..], i - 1, a, b);
    }
  }

  /** A string without the character `a` has no pair starting with it. */
  lemma {:induction false} NoPairWithout(s: string, a: char, b: char)
    requires a !in s
    ensures !HasPair(s, a, b)
  {
    if |s| >= 2 {
      assert s[0] != a;
      NoPairWithout(s[1..], a, b);
    }
  }

  // ---------------------------------------------------------------------
  // Trimming

  /** The index of the first character at or after `i` that is not white
      space, |s| when there is none. */
  function SpaceRunEnd(s: string, i: nat): (n: nat)
    requires i <= |s|
    ensures i <= n <= |s|
    ensures forall k :: i <= k < n ==> IsSpace(s[k])
    ensures n < |s| ==> !IsSpace(s[n])
    decreases |s| - i
  {
    if i < |s| && IsSpace(s[i]) then SpaceRunEnd(s, i + 1) else i
  }

  /** The index just after the last character before `j` that is not white
      space, 0 when there is none. */
  function SpaceRunStart(s: string, j: nat): (n: nat)
    requires j <= |s|
    ensures n <= j
    ensures forall k :: n <= k < j ==> IsSpace(s[k])
    ensures n > 0 ==> !IsSpace(s[n - 1])
  {
    if j > 0 && IsSpace(s[j - 1]) then SpaceRunStart(s, j - 1) else j
  }

  function TrimStart(s: string): (r: string)
    ensures |r| <= |s| && r == s[|s| - |r|..]
    ensures r != [] ==> !IsSpace(r[0])
    ensures forall i :: 0 <= i < |s| - |r| ==> IsSpace(s[i])
  {
    s[SpaceRunEnd(s, 0)..]
  }

  function TrimEnd(s: string): (r: string)
    ensures |r| <= |s| && r == s[..|r|]
    ensures r != [] ==> !IsSpace(r[|r| - 1])
    ensures forall i :: |r| <= i < |s| ==> IsSpace(s[i])
  {
    s[..SpaceRunStart(s, |s|)]
  }

  /** `s.trim()`. */
  function Trim(s: string): string {
    TrimEnd(TrimStart(s))
  }

  /** A string that neither starts nor ends with white space is its own trim. */
  lemma TrimUnpadded(s: string)
    requires s != [] && !IsSpace(s[0]) && !IsSpace(s[|s| - 1])
    ensures Trim(s) == s
  {
  }

  /** One trailing space is trimmed off a text that ends in something else. */
  lemma TrimEndOneSpace(a: string)
    requires a != [] && !IsSpace(a[|a| - 1])
    ensures TrimEnd(a + " ") == a
  {
    var s := a + " ";
    assert s[|a|] == ' ' && s[|a| - 1] == a[|a| - 1];
    assert SpaceRunStart(s, |s|) == SpaceRunStart(s, |a|) == |a|;
    assert s[..|a|] == a;
  }

  /** The trim is empty exactly when the string is all white space. */
  lemma {:induction false} TrimEmpty(s: string)
    ensures Trim(s) == [] <==> forall i :: 0 <= i < |s| ==> IsSpace(s[i])
  {
    var t := TrimStart(s);
    if t != [] {
      assert !IsSpace(s[|s| - |t|]);
    }
  }

  // ---------------------------------------------------------------------
  // Decimal digits

  predicate AllDigits(s: string) {
    forall i :: 0 <= i < |s| ==> IsDigit(s[i])
  }

  function DigitChar(d: nat): (c: char)
    requires d < 10
    ensures IsDigit(c)
  {
    ('0' as int + d) as char
  }

  /** The value of a string of decimal digits (leading zeros allowed). */
  function DigitsValue(s: string): nat
    requires AllDigits(s)
  {
    if s == [] then 0
    else DigitsValue(s[..|s| - 1]) * 10 + (s[|s| - 1] as int - '0' as int)
  }

  /** `n.toString()` for a natural number. */
  function NatToString(n: nat): (r: string)
    ensures r != [] && AllDigits(r)
    ensures |r| == 1 <==> n < 10
  {
    if n < 10 then [DigitChar(n)] else NatToString(n / 10) + [DigitChar(n % 10)]
  }

  /** `i.toString()` for any integer. */
  function IntToString(i: int): string {
    if i < 0 then "-" + NatToString(-i) else NatToString(i)
  }

  lemma {:induction false} NatToStringValue(n: nat)
    ensures DigitsValue(NatToString(n)) == n
  {
    if n >= 10 {
      var s := NatToString(n);
      assert s[..|s| - 1] == NatToString(n / 10);
      NatToStringValue(n / 10);
    }
  }

  /** Leading zeros do not change the value of a digit string. */
  lemma {:induction false} LeadingZero(s: string)
    requires AllDigits(s)
    ensures AllDigits("0" + s) && DigitsValue("0" + s) == DigitsValue(s)
  {
    if s != [] {
      var z := "0" + s;
      assert z[..|z| - 1] == "0" + s[..|s| - 1];
      LeadingZero(s[..|s| - 1]);
    }
  }

  /** JavaScript `Number(s)` on a string: surrounding white space is ignored,
      an empty (or all-blank) string is 0 and a string of decimal digits is
      its value; anything else is NaN, written `None`. */
  function ToNumber(s: string): (r: Option<nat>)
    ensures Trim(s) == [] ==> r == Some(0)
    ensures Trim(s) != [] && AllDigits(Trim(s)) ==> r == Some(DigitsValue(Trim(s)))
    ensures Trim(s) != [] && !AllDigits(Trim(s)) ==> r == None
  {
    var t := Trim(s);
    if t == [] then Some(0)
    else if AllDigits(t) then Some(DigitsValue(t))
    else None
  }

  /** `s.padStart(2, "0")`. */
  function Pad2(s: string): (r: string)
    ensures |s| >= 2 ==> r == s
    ensures |s| == 1 ==> r == "0" + s
  {
    if |s| == 0 then "00" else if |s| == 1 then "0" + s else s
  }

  /** The two-digit rendering `n.toString().padStart(2, "0")`. */
  function TwoDigits(n: nat): (r: string)
    ensures |r| >= 2 && AllDigits(r)
    ensures n < 100 ==> |r| == 2
  {
    Pad2(NatToString(n))
  }

  /** Reading back a padded number gives the number. */
  lemma TwoDigitsValue(n: nat)
    ensures ToNumber(TwoDigits(n)) == Some(n)
  {
    var s := NatToString(n);
    NatToStringValue(n);
    if |s| == 1 {
      LeadingZero(s);
    }
    TrimUnpadded(TwoDigits(n));
  }

  // ---------------------------------------------------------------------
  // Splitting and joining

  /** `s.split(c)` for a one-character separator: the pieces between the
      separators, in order. */
  function Split(s: string, c: char): (parts: seq<string>)
    ensures |parts| >= 1
  {
    if s == [] then [""]
    else
      var rest := Split(s[1..], c);
      if s[0] == c then [""] + rest else [[s[0]] + rest[0]] + rest[1..]
  }

  /** The separator splits a string into at least two pieces exactly when
      it occurs in it. */
  lemma {:induction false} SplitCount(s: string, c: char)
    ensures |Split(s, c)| >= 2 <==> c in s
  {
    if s != [] {
      SplitCount(s[1..], c);
      assert c in s <==> s[0] == c || c in s[1..];
    }
  }

  /** A string without the separator is one piece. */
  lemma {:induction false} SplitNone(s: string, c: char)
    requires c !in s
    ensures Split(s, c) == [s]
  {
    if s != [] {
      SplitNone(s[1..], c);
      assert [s[0]] + s[1..] == s;
    }
  }

  /** Splitting "a:b" (no other separator) gives exactly the two halves. */
  lemma {:induction false} SplitAround(a: string, b: string, c: char)
    requires c !in a && c !in b
    ensures Split(a + [c] + b, c) == [a, b]
  {
    if a == [] {
      assert a + [c] + b == [c] + b;
      assert ([c] + b)[1..] == b;
      SplitNone(b, c);
    } else {
      var s := a + [c] + b;
      assert s[1..] == a[1..] + [c] + b;
      SplitAround(a[1..], b, c);
      assert [a[0]] + a[1..] == a;
    }
  }

  /** `parts.join(sep)`. */
  function Join(parts: seq<string>, sep: string): string {
    if |parts| == 0 then ""
    else if |parts| == 1 then parts[0]
    else parts[0] + sep + Join(parts[1..], sep)
  }

  /** A digit string reads as its value under `Number`. */
  lemma DigitsNumber(s: string)
    requires AllDigits(s)
    ensures ToNumber(s) == Some(DigitsValue(s))
  {
    if s != [] {
      TrimUnpadded(s);
    }
  }

  lemma TwoDigitsDigits(n: nat)
    ensures DigitsValue(TwoDigits(n)) == n
  {
    TwoDigitsValue(n);
    DigitsNumber(TwoDigits(n));
  }
}

=== FILE: timetable.dfy ===
/** The timetable screen (screens/TimetableScreen.jsx): one row per UP route
    that has stops, or a fixed pair of sample rows when the catalogue cannot
    be read. */
module Timetable {
  import opened Wrappers
  import opened Text
  import opened JsonValues
  import opened Lists
  import opened Routes

  /** One timetable row. */
  datatype Row = Row(source: Json, destination: Json, busNo: Json, time: string, route: string)

  /** `r.direction === "UP" && r.stops && r.stops.length > 0`. */
  predicate Listed(r: Route) {
    r.direction == JStr("UP") && r.stops.StopList? && |r.stops.items| > 0
  }

  /** The stop names of a route, in stop order. */
  function StopNames(stops: seq<Stop>): (names: seq<string>)
    ensures |names| == |stops|
    ensures forall i :: 0 <= i < |stops| ==> names[i] == stops[i].locationName
  {
    seq(|stops|, i requires 0 <= i < |stops| => stops[i].locationName)
  }

  /** The row of a listed route: its ends and bus, the first stop's
      departure time, and the stop names joined by ", ". */
  function RowOf(r: Route): (row: Row)
    requires Listed(r)
    ensures row.source == r.src && row.destination == r.dest && row.busNo == r.busId
    ensures row.time == r.stops.items[0].departureTime
    ensures row.route == Join(StopNames(r.stops.items), ", ")
  {
    Row(r.src, r.dest, r.busId, r.stops.items[0].departureTime,
        Join(StopNames(r.stops.items), ", "))
  }

  /** formatRoutes (screens/TimetableScreen.jsx:32-42): the listed routes,
      in catalogue order, each as its row. */
  function FormatRoutes(items: seq<Route>): (rows: seq<Row>)
    ensures |rows| <= |items|
    ensures var kept := Filter(items, Listed);
      |rows| == |kept| && forall i :: 0 <= i < |kept| ==> rows[i] == RowOf(kept[i])
  {
    var kept := Filter(items, Listed);
    seq(|kept|, i requires 0 <= i < |kept| => RowOf(kept[i]))
  }

  /** A route that is not listed adds no row; a listed one adds its row at
      the end: the timetable follows the catalogue's order. */
  lemma {:induction false} FormatRoutesSnoc(items: seq<Route>, r: Route)
    ensures !Listed(r) ==> FormatRoutes(items + [r]) == FormatRoutes(items)
    ensures Listed(r) ==> FormatRoutes(items + [r]) == FormatRoutes(items) + [RowOf(r)]
  {
    FilterSnoc(items, r);
  }

  /** Filtering the catalogue with one more route at the end. */
  lemma {:induction false} FilterSnoc(items: seq<Route>, r: Route)
    ensures !Listed(r) ==> Filter(items + [r], Listed) == Filter(items, Listed)
    ensures Listed(r) ==> Filter(items + [r], Listed) == Filter(items, Listed) + [r]
  {
    if items == [] {
      assert items + [r] == [r];
      assert [r][1..] == [];
    } else {
      assert (items + [r])[0] == items[0];
      assert (items + [r])[1..] == items[1..] + [r];
      FilterSnoc(items[1..], r);
      if Listed(r) && Listed(items[0]) {
        assert [items[0]] + (Filter(items[1..], Listed) + [r]) ==
               ([items[0]] + Filter(items[1..], Listed)) + [r];
      }
    }
  }

  /** The stops of the first sample row. */
  const SatturRoute: string := "Jack's Stop, Madurai Bus Stop, Petrol Bunk, Sattur Prc, Devi Theatre, Venkatachalapuram, Toll Ghate, Rr Nagar, After Pattambuthur, Soolakarai, Kooraikundu, Collectrate, Medical College, Way To Virudhunagar, Vvv College, Kcet"

  /** getSampleData (screens/TimetableScreen.jsx:44-59). */
  function SampleData(): (rows: seq<Row>)
    ensures |rows| == 2
  {
    [ Row(JStr("Sattur"), JStr("Kcet"), JStr("6"), "08:07",
          SatturRoute),
      Row(JStr("America"), JStr("Kcet"), JStr("113"), "08:36",
          "Chair, Laptop Table, Washing Machine, Door, Front Ghate") ]
  }

  /** fetchTimetable (screens/TimetableScreen.jsx:18-30), given what the
      catalogue request yielded (None when the request or its decoding
      failed): the formatted rows of an array, and the sample rows whenever
      anything failed, `filter` on a non-array included. */
  function TimetableRows(response: Option<Catalogue>): (rows: seq<Row>)
    ensures response.None? || response.value.NotAnArray? ==> rows == SampleData()
    ensures response.Some? && response.value.RouteArray? ==>
      rows == FormatRoutes(response.value.items)
  {
    if response.Some? && response.value.RouteArray? then FormatRoutes(response.value.items)
    else SampleData()
  }

  /** Every row of a readable catalogue comes from an UP route with stops. */
  lemma RowsAreListedRoutes(items: seq<Route>, k: nat)
    requires k < |FormatRoutes(items)|
    ensures exists r :: r in items && Listed(r) && FormatRoutes(items)[k] == RowOf(r)
  {
    var kept := Filter(items, Listed);
    assert kept[k] in kept;
  }

  /** Every UP route with stops has a row. */
  lemma ListedRoutesHaveRows(items: seq<Route>, r: Route)
    requires r in items && Listed(r)
    ensures exists k :: 0 <= k < |FormatRoutes(items)| && FormatRoutes(items)[k] == RowOf(r)
  {
    var kept := Filter(items, Listed);
    assert r in kept;
    var k :| 0 <= k < |kept| && kept[k] == r;
    assert FormatRoutes(items)[k] == RowOf(r);
  }
}

=== FILE: websocket_service.dfy ===
/** The foreground live-data channel: one shared socket, a single cached
    payload that is replayed whenever a socket opens, and a listener set that
    receives every inbound message. Every socket ever created is kept in
    `sockets`, indexed in creation order; `ws` names the one the module
    currently holds. */
module RamCachedSocket {
  import opened Wrappers
  import opened JsonValues
  import opened Sockets

  /** Every live socket is the one `ws` holds, and `ws` only holds a live
      socket. So at most one socket can carry traffic at any time. */
  predicate SingleLive(sockets: seq<Socket>, ws: Option<nat>) {
    (ws.Some? ==> ws.value < |sockets| && Live(sockets[ws.value])) &&
    (forall i :: 0 <= i < |sockets| && Live(sockets[i]) ==> ws == Some(i))
  }

  /** The indices of the sockets that are still live. */
  function LiveSockets(sockets: seq<Socket>): (r: set<nat>)
    ensures forall i: nat :: i in r <==> i < |sockets| && Live(sockets[i])
  {
    set i: nat | i < |sockets| && Live(sockets[i])
  }

  /** The value passed to the listeners: the parsed message, or its raw text
      when `JSON.parse` throws. */
  function Incoming(raw: string, parsed: Option<Json>): (m: Message)
    ensures parsed.Some? ==> m == Parsed(parsed.value)
    ensures parsed.None? ==> m == RawText(raw)
  {
    if parsed.Some? then Parsed(parsed.value) else RawText(raw)
  }

  /** `if (cachedPayload)`: only a truthy cached value is replayed. */
  predicate HasReplay(cachedPayload: Option<Json>) {
    cachedPayload.Some? && Truthy(cachedPayload.value)
  }

  class WebSocketService {
    var sockets: seq<Socket>
    var ws: Option<nat>
    var cachedPayload: Option<Json>
    var listeners: seq<nat>
    /** Every listener call made so far, in order. */
    var delivered: seq<Delivery>
    /** Whether `init` has registered the app-state listener. */
    var watchingAppState: bool

    ghost predicate Valid()
      reads this
    {
      (ws.Some? ==> ws.value < |sockets|) && Distinct(listeners)
    }

    /** The invariant the channel is meant to keep. */
    predicate Single()
      reads this
    {
      SingleLive(sockets, ws)
    }

    constructor()
      ensures Valid() && Single()
      ensures sockets == [] && ws == None && cachedPayload == None
      ensures listeners == [] && delivered == [] && !watchingAppState
    {
      sockets := [];
      ws := None;
      cachedPayload := None;
      listeners := [];
      delivered := [];
      watchingAppState := false;
    }

    /** `createWS`: does nothing while a socket is held; otherwise opens a new
        one and holds it. */
    method CreateWS()
      requires Valid()
      modifies this
      ensures Valid() && (old(Single()) ==> Single())
      ensures old(ws).Some? ==> sockets == old(sockets) && ws == old(ws)
      ensures old(ws).None? ==>
        sockets == old(sockets) + [NewSocket()] && ws == Some(|old(sockets)|)
      ensures ws.Some?
      ensures cachedPayload == old(cachedPayload) && listeners == old(listeners)
      ensures delivered == old(delivered) && watchingAppState == old(watchingAppState)
    {
      if ws.Some? {
        return;
      }
      ws := Some(|sockets|);
      sockets := sockets + [NewSocket()];
    }

    /** `closeWS`: with no socket held, nothing happens; otherwise the held
        socket is closed and released. The cache and the listeners stay. */
    method CloseWS()
      requires Valid()
      modifies this
      ensures Valid() && (old(Single()) ==> Single())
      ensures ws == None
      ensures old(ws).None? ==> sockets == old(sockets)
      ensures old(ws).Some? ==> sockets == old(sockets)[old(ws).value := AfterClose(old(sockets)[old(ws).value])]
      ensures cachedPayload == old(cachedPayload) && listeners == old(listeners)
      ensures delivered == old(delivered) && watchingAppState == old(watchingAppState)
    {
      if ws.None? {
        return;
      }
      var k := ws.value;
      sockets := sockets[k := AfterClose(sockets[k])];
      ws := None;
    }

    /** `init`: creates the socket and starts following the app state. */
    method Init()
      requires Valid()
      modifies this
      ensures Valid() && (old(Single()) ==> Single())
      ensures watchingAppState && ws.Some?
      ensures old(ws).Some? ==> sockets == old(sockets) && ws == old(ws)
      ensures old(ws).None? ==>
        sockets == old(sockets) + [NewSocket()] && ws == Some(|old(sockets)|)
      ensures cachedPayload == old(cachedPayload) && listeners == old(listeners)
      ensures delivered == old(delivered)
    {
      CreateWS();
      watchingAppState := true;
    }

    /** The app-state listener: "background" closes the socket, "active"
        (re)creates it, anything else does nothing; the cache survives
        both. Before `init` no listener is registered. */
    method AppStateChanged(state: string)
      requires Valid()
      modifies this
      ensures Valid() && (old(Single()) ==> Single())
      ensures watchingAppState && state == "background" ==> ws == None
      ensures watchingAppState && state == "background" && old(ws).Some? ==>
        sockets == old(sockets)[old(ws).value := AfterClose(old(sockets)[old(ws).value])]
      ensures watchingAppState && state == "active" ==> ws.Some?
      ensures watchingAppState && state == "active" && old(ws).None? ==>
        sockets == old(sockets) + [NewSocket()] && ws == Some(|old(sockets)|)
      ensures !watchingAppState || (state != "background" && state != "active") ||
              (state == "active" && old(ws).Some?) || (state == "background" && old(ws).None?) ==>
        sockets == old(sockets) && ws == old(ws)
      ensures cachedPayload == old(cachedPayload) && listeners == old(listeners)
      ensures delivered == old(delivered) && watchingAppState == old(watchingAppState)
    {
      if !watchingAppState {
        return;
      }
      if state == "background" {
        CloseWS();
      }
      if state == "active" {
        CreateWS();
      }
    }

    /** `send`: the payload replaces the cache (last value wins), a socket is
        created when none is held, and the payload goes out only when the
        held socket is open; otherwise it waits in the cache for the next
        open. */
    method Send(payload: Json)
      requires Valid()
      modifies this
      ensures Valid() && (old(Single()) ==> Single())
      ensures cachedPayload == Some(payload)
      ensures old(ws).None? ==>
        sockets == old(sockets) + [NewSocket()] && ws == Some(|old(sockets)|)
      ensures old(ws).Some? && old(sockets)[old(ws).value].state == Open ==>
        ws == old(ws) &&
        sockets == old(sockets)[old(ws).value := Written(old(sockets)[old(ws).value], JsonFrame(payload))]
      ensures old(ws).Some? && old(sockets)[old(ws).value].state != Open ==>
        ws == old(ws) && sockets == old(sockets)
      ensures listeners == old(listeners) && delivered == old(delivered)
      ensures watchingAppState == old(watchingAppState)
    {
      cachedPayload := Some(payload);
      if ws.None? {
        CreateWS();
      }
      var k := ws.value;
      if sockets[k].state == Open {
        sockets := sockets[k := Written(sockets[k], JsonFrame(payload))];
      }
    }

    /** The open handler of socket `k`. The replay goes through the socket
        the module holds at that moment: a truthy cache is written to it
        when it is open, and nothing is written otherwise (a null `ws`
        throws, a connecting one refuses). While the channel keeps one live
        socket, that is `k` itself, so the cache goes out exactly once. */
    method OnOpen(k: nat)
      requires Valid()
      requires k < |sockets| && sockets[k].state == Connecting
      modifies this
      ensures Valid() && (old(Single()) ==> Single())
      ensures old(Single()) ==> ws == Some(k)
      ensures var afterOpen := old(sockets)[k := old(sockets)[k].(state := Open)];
        if HasReplay(cachedPayload) && ws.Some? && ws.value < |afterOpen| &&
           afterOpen[ws.value].state == Open
        then sockets == afterOpen[ws.value := Written(afterOpen[ws.value], JsonFrame(cachedPayload.value))]
        else sockets == afterOpen
      ensures old(Single()) ==>
        sockets[k].sent == old(sockets)[k].sent +
          (if HasReplay(cachedPayload) then [JsonFrame(cachedPayload.value)] else [])
      ensures ws == old(ws) && cachedPayload == old(cachedPayload)
      ensures listeners == old(listeners) && delivered == old(delivered)
      ensures watchingAppState == old(watchingAppState)
    {
      sockets := sockets[k := sockets[k].(state := Open)];
      if HasReplay(cachedPayload) && ws.Some? && sockets[ws.value].state == Open {
        var w := ws.value;
        sockets := sockets[w := Written(sockets[w], JsonFrame(cachedPayload.value))];
      }
    }

    /** The message handler of socket `k` (any open socket, held or not):
        the listeners are called in subscription order with the parsed
        value, or the raw text when parsing fails. A listener that throws
        ends the `forEach`, so the later ones miss that message. */
    method OnMessage(k: nat, raw: string, parsed: Option<Json>, throwing: set<nat>)
      requires Valid()
      requires k < |sockets| && sockets[k].state == Open
      modifies this
      ensures Valid() && Single() == old(Single())
      ensures delivered == old(delivered) +
        Deliveries(listeners[..CalledBeforeThrow(listeners, throwing)], Incoming(raw, parsed))
      ensures sockets == old(sockets) && ws == old(ws) && cachedPayload == old(cachedPayload)
      ensures listeners == old(listeners) && watchingAppState == old(watchingAppState)
    {
      var data := Incoming(raw, parsed);
      var calls: seq<Delivery> := [];
      var i := 0;
      var stopped := false;
      while i < |listeners| && !stopped
        invariant 0 <= i <= |listeners|
        invariant calls == Deliveries(listeners[..i], data)
        invariant forall j :: 0 <= j < i - 1 ==> listeners[j] !in throwing
        invariant !stopped ==> forall j :: 0 <= j < i ==> listeners[j] !in throwing
        invariant stopped ==> 0 < i && listeners[i - 1] in throwing
      {
        calls := calls + [Delivery(listeners[i], data)];
        assert listeners[..i + 1][..i] == listeners[..i];
        if listeners[i] in throwing {
          stopped := true;
        }
        i := i + 1;
      }
      CalledBeforeThrowAt(listeners, throwing, i);
      delivered := delivered + calls;
    }

    /** The close handler of socket `k` as the channel needs it: the socket
        is released only if it is the one held. This is the corrected form
        the rest of the model uses. */
    method OnClose(k: nat)
      requires Valid()
      requires k < |sockets| && sockets[k].state != Closed
      modifies this
      ensures Valid() && (old(Single()) ==> Single())
      ensures sockets == old(sockets)[k := old(sockets)[k].(state := Closed)]
      ensures ws == if old(ws) == Some(k) then None else old(ws)
      ensures cachedPayload == old(cachedPayload) && listeners == old(listeners)
      ensures delivered == old(delivered) && watchingAppState == old(watchingAppState)
    {
      sockets := sockets[k := sockets[k].(state := Closed)];
      if ws == Some(k) {
        ws := None;
      }
    }

    /** The close handler as written: whatever socket closes, the module
        forgets the socket it holds. */
    method OnCloseAsWritten(k: nat)
      requires Valid()
      requires k < |sockets| && sockets[k].state != Closed
      modifies this
      ensures Valid()
      ensures sockets == old(sockets)[k := old(sockets)[k].(state := Closed)]
      ensures ws == None
      ensures cachedPayload == old(cachedPayload) && listeners == old(listeners)
      ensures delivered == old(delivered) && watchingAppState == old(watchingAppState)
    {
      sockets := sockets[k := sockets[k].(state := Closed)];
      ws := None;
    }

    /** `subscribe(cb)`: the callback joins the listener set. */
    method Subscribe(cb: nat)
      requires Valid()
      modifies this
      ensures Valid() && Single() == old(Single())
      ensures listeners == Added(old(listeners), cb)
      ensures sockets == old(sockets) && ws == old(ws) && cachedPayload == old(cachedPayload)
      ensures delivered == old(delivered) && watchingAppState == old(watchingAppState)
    {
      listeners := Added(listeners, cb);
    }

    /** The function `subscribe` returns: exactly that callback leaves. */
    method Unsubscribe(cb: nat)
      requires Valid()
      modifies this
      ensures Valid() && Single() == old(Single())
      ensures listeners == Without(old(listeners), cb)
      ensures cb !in listeners
      ensures sockets == old(sockets) && ws == old(ws) && cachedPayload == old(cachedPayload)
      ensures delivered == old(delivered) && watchingAppState == old(watchingAppState)
    {
      WithoutDistinct(listeners, cb);
      listeners := Without(listeners, cb);
    }
  }

  /** Which sockets are live once the first one has closed behind one or
      two fresh ones. */
  lemma LiveAfterReopen(sockets: seq<Socket>)
    requires sockets == [Socket(Closed, []), NewSocket()] ||
             sockets == [Socket(Closed, []), NewSocket(), NewSocket()]
    ensures |sockets| == 2 ==> LiveSockets(sockets) == {1}
    ensures |sockets| == 3 ==> LiveSockets(sockets) == {1, 2}
  {
    assert !Live(sockets[0]);
  }

  /** The shared start of both scenarios below: `init`, the socket opens,
      the app goes to the background and comes straight back before the
      first socket's close event has arrived. */
  method ReopenBeforeClose() returns (service: WebSocketService)
    ensures fresh(service) && service.Valid()
    ensures service.sockets == [Socket(Closing, []), NewSocket()] && service.ws == Some(1)
    ensures service.watchingAppState
  {
    service := new WebSocketService();
    service.Init();
    service.OnOpen(0);
    assert service.sockets == [Socket(Open, [])];
    service.AppStateChanged("background");
    assert service.sockets == [Socket(Closing, [])] && service.ws == None;
    service.AppStateChanged("active");
  }

  /** With the close handler as written, the late close event orphans the
      reopened socket and the next `send` opens a third: two sockets are
      live at once. The orphan is no longer held, so `closeWS` cannot reach
      it: when the app next goes to the background only the third socket
      is closed, and the orphan stays live. */
  method StaleCloseLeavesTwoLiveSockets(payload: Json) returns (live: set<nat>, afterBackground: set<nat>)
    ensures live == {1, 2}
    ensures afterBackground == {1}
  {
    var service := ReopenBeforeClose();
    service.OnCloseAsWritten(0);
    service.Send(payload);
    LiveAfterReopen(service.sockets);
    live := LiveSockets(service.sockets);
    service.AppStateChanged("background");
    assert !Live(service.sockets[0]) && Live(service.sockets[1]) && !Live(service.sockets[2]);
    afterBackground := LiveSockets(service.sockets);
  }

  /** With the close handler that releases only its own socket, the same
      events leave the reopened socket held and create no other, and the
      next trip to the background closes it: no socket stays live. */
  method StaleCloseKeepsOneLiveSocket(payload: Json) returns (live: set<nat>, afterBackground: set<nat>)
    ensures live == {1}
    ensures afterBackground == {}
  {
    var service := ReopenBeforeClose();
    service.OnClose(0);
    service.Send(payload);
    LiveAfterReopen(service.sockets);
    live := LiveSockets(service.sockets);
    service.AppStateChanged("background");
    assert !Live(service.sockets[0]) && !Live(service.sockets[1]);
    afterBackground := LiveSockets(service.sockets);
  }
}

=== FILE: wrappers.dfy ===
/** The absent-or-present value used wherever the JavaScript code works with
    `null`/`undefined` versus a real value, and the outcome of a call that
    may throw. */
module Wrappers {

  datatype Option<+T> = None | Some(value: T) {

    /** The value if present, else `default` (JavaScript's `x ?? default`). */
    function GetOr(default: T): T {
      match this
      case Some(v) => v
      case None => default
    }
  }

  /** What a JavaScript call ends with: the value it returns, or an
      exception (a TypeError where the code calls a method of `undefined`). */
  datatype Outcome<+T> = Returned(result: T) | Threw
}
